=== FILE: README.md ===
# ELVIS charging-site simulation core in Dafny

This project models the core of ELVIS, a simulator of electric-vehicle charging
infrastructure, and proves properties of that model. It covers five parts:

- **The main simulation loop** (`elvis/simulate.py`). Arriving vehicles are connected to a
  free charging point, queued or rejected. When vehicles are disconnected by time, overdue
  events leave the waiting queue; the model removes them whether or not the step is logged
  (see Findings). Vehicles are disconnected by leaving time or by state of charge, and the next queued vehicle takes
  the freed point. Connected vehicles and stationary storage are charged with the power a
  scheduling policy assigns. Charging periods are tracked, and rejections are counted.
- **Batteries** (`elvis/battery.py`):
  - the SOC-dependent power curve of a battery;
  - the checks of an EV battery;
  - the dictionary round trip;
  - the stateful stationary storage battery with `charge` and `discharge`.
- **Types, enumerations and units** (`elvis/types.py`, `elvis/enums.py`, `elvis/units.py`):
  - the simulation time grid;
  - the numeric guards;
  - the scheduling-policy and sample-method names;
  - the unit value objects.
- **Configuration mixins** (`elvis/config/scheduling.py`, `elvis/config/time.py`,
  `elvis/config/vehicles.py`). These setters check their argument and update one field of a
  `ScenarioConfig`, or raise. They include the alignment of an emissions scenario with the
  simulation steps.
- **Configuration validation** (`elvis/config/validation.py`). These are the raise-or-return
  validators and the whole-configuration check that accumulates errors in a
  `ValidationResult`.

Each core file keeps its form:

- Code that updates objects in place is modelled as classes: the charging site, the waiting
  queue, the stationary battery, the scenario configuration and the validation result. Their
  methods carry `modifies` clauses. The queue, battery, configuration and validation methods
  state their whole new state. The main loop's steps state the occupancy they leave through
  the predicates `DeparturesDone`, `Arrivals` and `ChargedFrom`, gathered per step in
  `StepDone`; what `PowerStep` returns is stated only in part (see Left out).
- Loops are methods with invariants.
- Pure logic is modelled as functions and lemmas.

Python values whose type is checked at run time are the `Values.Value` datatype. An exception
raised by the source is an `Err` or `Rejected` outcome naming the exception class.

Timestamps and durations are whole seconds. Floats are exact reals.

Where the source has a defect listed under Findings, a member models the code as written and
exhibits the defect. The rest of the model, the main loop and the emissions alignment
included, uses the corrected definition.

| file | module | source |
|---|---|---|
| outcomes.dfy | Outcomes | exception classes as outcomes |
| values.dfy | Values | dynamically typed values |
| text.dfy | PyText | the ASCII `str` methods used |
| units.dfy | Units | elvis/units.py |
| sim_types.dfy | SimTypes | elvis/types.py |
| enums.dfy | Enums | elvis/enums.py |
| events.dfy | Events | the fields of a charging event the loop reads |
| waiting_queue.dfy | WaitingQueues | the waiting queue the loop drives |
| battery.dfy | Batteries | elvis/battery.py |
| site_steps.dfy | SiteSteps | elvis/simulate.py, per-step updates |
| simulate.dfy | Simulate | elvis/simulate.py, storage, bookkeeping, main loop |
| scenario_config.dfy | ScenarioConfigs | the fields of `ScenarioConfig` the mixins write |
| validation.dfy | Validation | elvis/config/validation.py |
| scheduling.dfy | SchedulingConfig | elvis/config/scheduling.py |
| time_config.dfy | TimeConfig | elvis/config/time.py |
| vehicles.dfy | VehicleConfig | elvis/config/vehicles.py |

## Model

| member | source | states |
|---|---|---|
| Units.Kilowatts | elvis/units.py:13-14 | The kilowatts times 1000 give back the watts exactly, and the sign is kept. |
| Units.Milliamps | elvis/units.py:24-25 | The milliamperes over 1000 give back the amperes exactly, and the sign is kept. |
| Units.Times | elvis/units.py:27-28 | The charge over the hours is the current; zero hours move no charge. |
| Units.EnergyAt | elvis/units.py:37-38 | The energy over the voltage is the charge; zero voltage gives no energy. |
| Units.ChargeAt | elvis/units.py:47-48 | Fails with ZeroDivisionError exactly for voltage 0; otherwise the charge times the voltage is the energy. |
| Units.ChargeEnergyRoundTrip | elvis/units.py:37-48 | Charge to energy to charge is the identity for a nonzero voltage. |
| Units.EnergyChargeRoundTrip | elvis/units.py:37-48 | Energy to charge to energy is the identity for a nonzero voltage. |
| SimTypes.TruncDiv | elvis/types.py:108 | `int(a / b)`: the magnitude is the floor of the quotient of magnitudes, and a nonzero result is negative exactly when the operands' signs differ. |
| SimTypes.Duration | elvis/types.py:101-103 | Start plus duration is the end. |
| SimTypes.NumSteps | elvis/types.py:106-108 | ZeroDivisionError exactly for a zero resolution. For start <= end, the count is at least 1 and the last counted step lies within the end, with the next one past it. |
| SimTypes.GetTimeSteps | elvis/types.py:92-99 | For a positive resolution, or an end before the start: step i is start + i * resolution and every step is <= end; the next step would pass the end. The length is `num_steps` when start <= end, and the list is empty otherwise. The steps strictly increase (`Ascending`). |
| SimTypes.StepCountIsNumSteps | elvis/types.py:92-108 | Any grid count that reaches exactly to the end is the one `num_steps` computes. |
| SimTypes.NumStepsWhenEndBeforeStart | elvis/types.py:96-108 | For start 10, end 5 and resolution 10, `num_steps` reports 1 step, although `get_time_steps` yields none for an end before the start. |
| SimTypes.EnsurePositive | elvis/types.py:443-447 | Returns the value unchanged exactly when it is > 0, else ValueError. |
| SimTypes.EnsureProbability | elvis/types.py:450-454 | Returns the value unchanged exactly when it lies in [0, 1], else ValueError. |
| SimTypes.EnsureSoc | elvis/types.py:457-459 | Accepts exactly [0, 1], with the value unchanged. |
| SimTypes.ConfigDictInsert | elvis/types.py:473-475 | Adding an entry keeps a dict a config dict exactly when the key is a string; the empty dict is one. |
| Enums.MatchValue | elvis/enums.py:53-56 | The member found has the searched value; none is found exactly when no member has it. |
| Enums.FromString | elvis/enums.py:22-62 | Succeeds exactly when the stripped, lowercased, space-to-underscore name is in the nine-name table, and returns that entry; otherwise ValueError. |
| Enums.ValueIsKey | elvis/enums.py:15-48 | Every member's value is a table key naming that member. |
| Enums.FromNormalName | elvis/enums.py:35-62 | A name already in normal form is looked up as it stands. |
| Enums.NormalFixed | elvis/enums.py:35 | Normalising a lower-case name without spaces changes nothing. |
| Enums.FromStringValue | elvis/enums.py:15-56 | `from_string(p.value)` returns p for every member. |
| Enums.ValueIsPlainName | elvis/enums.py:15-19 | Every member value is lower case without whitespace. |
| Enums.KeysArePlainNames | elvis/enums.py:38-48 | Every table key is lower case without whitespace. |
| Enums.FromStringTableNames | elvis/enums.py:38-51 | Every table name, the aliases `uc`, `df`, `ws`, `opt` included, maps to its table entry. |
| Enums.NormalizeIdempotent | elvis/enums.py:35 | Normalising twice is normalising once. |
| Enums.FromStringOfNormalized | elvis/enums.py:35-62 | `from_string` gives the same outcome on a name and on its normal form. |
| Enums.MatchSampleValue | elvis/enums.py:86-88 | The method found has the searched value; none is found exactly when no method has it. |
| Enums.SampleFromString | elvis/enums.py:72-93 | Succeeds exactly when the stripped, lowercased name is `independent_normal_dist` or `gmm`, returning the method with that value; otherwise ValueError. |
| Enums.SampleFromStringValue | elvis/enums.py:68-88 | Every sample method's value names that method. |
| Enums.SampleValueIsPlainName | elvis/enums.py:68-69 | Sample method values are lower case without whitespace. |
| Enums.SampleFromStringKeepsSpaces | elvis/enums.py:84-93 | A name with an inner space is rejected, since spaces are not replaced here. |
| Events.ViewOf | elvis/simulate.py:51 | The connected-vehicle view carries the event's id, SOC, target SOC and leaving time. |
| Values.AsReal | elvis/types.py:433-438 | `float(v)` of an int or a float is its numeric value. |
| WaitingQueues.MinLeaving | elvis/simulate.py:115 | None exactly for an empty queue; otherwise a leaving time of some queued event that no queued event undercuts. |
| WaitingQueues.NothingDueBeforeNextLeave | elvis/simulate.py:102 | Before the earliest leaving time no queued event is due, which justifies skipping the scan. |
| WaitingQueues.WaitingQueue.constructor | elvis/simulate.py:387 | A new queue is empty and valid, with the given maxsize and no next-leave time. |
| WaitingQueues.LeavesNoEarlier | elvis/simulate.py:102 | The stored next-leave time is no later than any queued event's leaving time, and only an empty queue has none. |
| WaitingQueues.Earlier | elvis/simulate.py:102 | The earlier of a stored time and a leaving time: no later than either, and one of them. |
| WaitingQueues.WaitingQueue.Enqueue | elvis/simulate.py:59-65 | Appends the event while below maxsize, else changes nothing. On append the next-leave time becomes the earlier of the stored one and the event's leaving time. The queue stays valid: size bound and next-leave time no later than any queued leaving time. |
| WaitingQueues.WaitingQueue.Dequeue | elvis/simulate.py:166-167 | Returns the oldest event and removes exactly it, keeping the next-leave time and validity. |
| WaitingQueues.WaitingQueue.Empty | elvis/simulate.py:99-100 | Leaves the queue empty. |
| WaitingQueues.WaitingQueue.DetermineNextLeavingTime | elvis/simulate.py:115 | Sets the next-leave time to the earliest leaving time in the unchanged queue. |
| WaitingQueues.NothingDueBeforeStored | elvis/simulate.py:102 | Before the stored next-leave time of a valid queue, no queued event is due, so skipping the scan loses no departure. |
| Batteries.NewBattery | elvis/battery.py:31-71 | Builds exactly the battery given when the constructor's assertions hold (capacity > 0, efficiency and both degradation parameters in [0, 1], level * max >= min), else AssertionError. |
| Batteries.MaxPowerDefined | elvis/battery.py:90-93 | Where `max_power_possible` does not divide by zero: at or below the knee, or a knee other than 1. |
| Batteries.KneeFraction | elvis/battery.py:91-93 | How far the SOC lies past the knee, as a fraction of the span from the knee to SOC 1. |
| Batteries.MaxPowerPossible | elvis/battery.py:77-101 | Flat at the max charge power up to the knee, then lowered by the knee fraction of max * (1 - max degradation level). |
| Batteries.MinPowerPossible | elvis/battery.py:103-115 | The min charge power, whatever the SOC. |
| Batteries.DefaultsForceNonPositiveMin | elvis/battery.py:37-51 | With the default degradation (start 1, level 0), a battery can only be built with min power <= 0. |
| Batteries.KneeFractionBounds | elvis/battery.py:90-96 | Above the knee and up to SOC 1, the degradation fraction lies in (0, 1]. |
| Batteries.KneeFractionMono | elvis/battery.py:90-96 | The degradation fraction grows with the SOC. |
| Batteries.MaxPowerFlatBelowKnee | elvis/battery.py:90-101 | Up to the knee the maximum power is the full max charge power. |
| Batteries.MaxPowerAtFull | elvis/battery.py:90-99 | At SOC 1 the maximum power is max charge power * max degradation level. |
| Batteries.MaxPowerBounds | elvis/battery.py:77-101 | For a valid battery and a SOC in [0, 1], the maximum power lies between max * level and max, and never below the minimum power. |
| Batteries.MaxPowerNonIncreasing | elvis/battery.py:77-101 | The maximum power never increases with the SOC. |
| Batteries.MaxPowerContinuousAtKnee | elvis/battery.py:90-101 | Past the knee the drop from full power is bounded by the distance from the knee, so the curve has no jump. |
| Batteries.MinNeverAboveMax | elvis/battery.py:103-115 | The minimum power never exceeds the maximum power on SOC [0, 1]. |
| Batteries.NewEVBattery | elvis/battery.py:161-211 | Gives InvalidParameterError("battery_parameter") exactly when a positivity or probability guard fails, and InvalidParameterError("min_charge_power") exactly when those pass but min < 0. Gives AssertionError exactly when the base assertion level * max >= min fails. Otherwise returns that battery, with 0 <= min <= max. |
| Batteries.EVDefaultsForceZeroMin | elvis/battery.py:167-168 | With the default degradation, an EV battery needs min charge power exactly 0. |
| Batteries.FromDict | elvis/battery.py:118-151 | As written: a missing necessary key is AssertionError. The level key without the start key is a KeyError. Both keys build with them; no level key builds with the defaults. |
| Batteries.FromDictIntended | elvis/battery.py:138 | Both degradation keys build with them, else the defaults; it never raises KeyError. |
| Batteries.FromDictAgreesWithIntended | elvis/battery.py:138-151 | The two readings agree on every dictionary except one with the level but not the start key. |
| Batteries.FromDictKeyErrorExample | elvis/battery.py:138-140 | A concrete dictionary with only the level key raises KeyError as written but builds a battery as intended. |
| Batteries.DictRoundTrip | elvis/battery.py:73-75 | `from_dict(**to_dict())` rebuilds every EV battery exactly, in both readings. |
| Batteries.Floor3 | elvis/battery.py:292-293 | Rounds down to a multiple of 0.001 within 0.001 of the input, keeping non-negative values non-negative. |
| Batteries.StationaryBatteryCheck | elvis/battery.py:246-262 | Accepts exactly 0 <= min SOC <= initial SOC <= 1 together with the base assertions. An initial SOC out of range is InvalidSOCError with that SOC, then the same for the min SOC, then min > initial is InvalidParameterError("min_soc"). |
| Batteries.StationaryBattery.constructor | elvis/battery.py:221-262 | The new battery has the given SOC and min SOC, zero power and an empty SOC history. |
| Batteries.StationaryBattery.PowerToEmptyWithNothingAssigned | elvis/battery.py:284-288 | With nothing assigned, the power to empty is (SOC - min SOC) * capacity / hours. |
| Batteries.StationaryBattery.MaxDischargePower | elvis/battery.py:264-294 | Never negative. A positive result respects both the power headroom and the power to min SOC, and it is within 0.001 below max(min(headroom, to-empty), 0). |
| Batteries.StationaryBattery.Charge | elvis/battery.py:296-327 | Negative power is AssertionError with no change. Otherwise it charges with min(to-full, max, available), raises the SOC by that energy, records the power and appends the SOC. The SOC stays in [0, 1]. With a non-negative maximum the charge succeeds, the SOC never falls, and a battery at or above min SOC stays there. When `check_soc` fails, the SOC has already been raised by that energy and lies outside [0, 1], and the power and SOC history are unchanged. |
| Batteries.StationaryBattery.Discharge | elvis/battery.py:329-360 | Negative power is AssertionError. Exceeding max_discharge_power(0) is ValueError with nothing changed. Otherwise it lowers the SOC by that energy, records the negated power and appends the SOC. The SOC stays in [0, 1], never rises, and a positive discharge leaves it at or above min SOC. |
| Batteries.ChargePower | elvis/battery.py:313-318 | The power `charge` uses: the least of the power to fill to SOC 1, the max charge power and the available power. |
| Batteries.ChargeStep | elvis/battery.py:314-322 | The charge power never exceeds the available or maximum power and never overfills past SOC 1; with a non-negative maximum power the SOC does not fall. |
| Batteries.ChargeNonNegative | elvis/battery.py:318-321 | With a non-negative maximum, charging never lowers the SOC. |
| Batteries.DischargeStep | elvis/battery.py:348-357 | An allowed discharge removes a non-negative amount of SOC that does not pass min SOC. |
| Batteries.NewStationaryBattery | elvis/battery.py:221-262 | Fails exactly when the constructor checks fail, with their error; otherwise a fresh valid battery at the initial SOC. |
| SiteSteps.Site.constructor | elvis/simulate.py:391-392 | All points start free, none busy, no vehicles. |
| SiteSteps.HandleCarArrival | elvis/simulate.py:23-74 | Connected exactly when open with a free point, which then becomes busy with the vehicle. Queued exactly when not connected, open, the queue has room and maxsize > 0. Otherwise rejected and counted; nothing else changes. |
| SiteSteps.Waiting | elvis/simulate.py:102-113 | The queued events, in order, whose leaving time is after now. |
| SiteSteps.Scanned | elvis/simulate.py:102 | The overdue scan runs exactly when disconnecting by time and now has reached the stored next-leave time. |
| SiteSteps.QueueAfterUpdate | elvis/simulate.py:77-115 | The queue `update_queue` leaves as written: empty when closed, and filtered of overdue events only when the scan runs and the step is logged. |
| SiteSteps.QueueAfterUpdateIntended | elvis/simulate.py:77-115 | The queue `update_queue` is meant to leave: empty when closed, and filtered of overdue events whenever the scan runs. |
| SiteSteps.WaitingAppend | elvis/simulate.py:102-109 | Filtering out overdue events distributes over concatenation. |
| SiteSteps.WaitingCons | elvis/simulate.py:102-109 | The filter on a queue with one more event at the front. |
| SiteSteps.WaitingKeepsAll | elvis/simulate.py:102-109 | A queue with nothing overdue is kept whole. |
| SiteSteps.OverdueKeptWithoutLog | elvis/simulate.py:111-113 | As written, a scan without logging leaves the queue unchanged, overdue events included. |
| SiteSteps.OverdueKeptExample | elvis/simulate.py:102-113 | A concrete queue whose event left at 5 still holds it at 10 without logging; the intended update empties it. |
| SiteSteps.IntendedScanLeavesNoOverdue | elvis/simulate.py:102-113 | After the intended scan no queued event is overdue, and every event that may wait is kept. |
| SiteSteps.ClosedEmptiesQueue | elvis/simulate.py:99-100 | Outside opening hours the queue is emptied, logged or not. |
| SiteSteps.OverdueIndices | elvis/simulate.py:102-109 | The positions listed are strictly descending and are exactly the overdue ones. |
| SiteSteps.PopIndices | elvis/simulate.py:111-113 | Popping the listed positions highest first leaves exactly the events that may still wait, in order. |
| SiteSteps.WaitingLength | elvis/simulate.py:102-113 | Pruning never lengthens the queue. |
| SiteSteps.WaitingMembers | elvis/simulate.py:102-113 | The events left are exactly the queued ones whose leaving time is after now. |
| SiteSteps.PopStep | elvis/simulate.py:111-113 | Popping one overdue position equals filtering that stretch of the queue. |
| SiteSteps.UpdateQueue | elvis/simulate.py:77-115 | As written: the queue becomes the as-written update, emptied when closed and popped only when logging. The next-leave time is recomputed exactly when the scan ran. |
| SiteSteps.UpdateQueueIntended | elvis/simulate.py:77-115 | The same update with overdue events always removed. |
| SiteSteps.Expired | elvis/simulate.py:155-186 | A connected vehicle is due by its leaving time when disconnecting by time, otherwise when its SOC rounded to 3 places reaches the target. Without the time mode the leaving time is never consulted. This follows `update_cps`, although the docstring of `with_disconnect_by_time` (elvis/config/scheduling.py:142-143) says such a vehicle leaves on SOC or parking time, whichever comes first. |
| SiteSteps.ExpiredPoints | elvis/simulate.py:155-186 | The busy points whose vehicle is due. |
| SiteSteps.RoundHalfEven | elvis/simulate.py:183-186 | Python's `round`: within 0.5 of the input, and an exact half goes to the even integer. |
| SiteSteps.Round3 | elvis/simulate.py:183-186 | `round(x, 3)` lies within 0.0005 of x. |
| SiteSteps.Round3Threshold | elvis/simulate.py:183-188 | Against a target on the 0.001 grid, the rounded SOC reaches it when the SOC is above the half-way point and stays below it when the SOC is below. |
| SiteSteps.UpdateCps | elvis/simulate.py:118-203 | Closed: every busy point is freed and no vehicle is left. Open: exactly the expired points are either freed or handed to queued vehicles in queue order. Each taken point holds its queued event, and queue events are consumed from the front. Points are freed only once the queue ran dry, and all other busy points keep their vehicles. |
| SiteSteps.DisconnectAll | elvis/simulate.py:141-151 | Every busy point becomes free, and no vehicle stays connected. |
| SiteSteps.DisconnectDue | elvis/simulate.py:153-203 | The open-hours case of `UpdateCps`, as stated there. |
| SiteSteps.ScanExpired | elvis/simulate.py:155-203 | The loop over the busy points: each expired point is handed over or released, and the queue is consumed from the front. |
| SiteSteps.ScanVisit | elvis/simulate.py:155-158 | A point not yet visited still holds its original vehicle. |
| SiteSteps.ScanSkip | elvis/simulate.py:159 | A point that is not due keeps the scan invariant. |
| SiteSteps.ScanHandOver | elvis/simulate.py:160-168 | A due point handed to the head of the queue keeps the scan invariant. |
| SiteSteps.ScanRelease | elvis/simulate.py:160-176 | A due point with an empty queue is released and keeps the scan invariant. |
| SiteSteps.ScanDone | elvis/simulate.py:155-176 | Once every point is visited, the invariant gives the loop's postcondition. |
| SiteSteps.Disconnect | elvis/simulate.py:160-168 | A non-empty queue hands its head to the point. An empty queue releases the point. |
| SiteSteps.MoveKeepsPartition | elvis/simulate.py:170-176 | Moving busy points to the free set keeps the two sets disjoint and their union unchanged. |
| SiteSteps.ChargeConnectedVehicles | elvis/simulate.py:206-227 | KeyError exactly when a busy point has no assigned power. The points charged are busy points with a power, all of them on success. Each charged vehicle gets its point's power; every other vehicle is unchanged, so on KeyError the vehicles charged before the error keep their charge. The point sets stay unchanged. |
| Simulate.UpdateLastCharged | elvis/simulate.py:276-304 | TypeError exactly when a powered point has no vehicle. Otherwise the entries are the old ones plus the powered vehicles: a new vehicle starts at t and a known one keeps its arrival with last-charged t. Ordered periods stay ordered. |
| Simulate.TouchFollows | elvis/simulate.py:293-304 | Touching one more vehicle keeps the relation between old and new periods. |
| Simulate.IdsOfAdd | elvis/simulate.py:296-300 | One more powered point adds its vehicle's id. |
| Simulate.RAbs | elvis/simulate.py:262-271 | A non-negative value that is x or -x. |
| Simulate.MaxDischargeAt | elvis/battery.py:347-350 | `max_discharge_power(0, step)` of a storage at a given SOC. |
| Simulate.MaxDischargeAtNow | elvis/battery.py:347-350 | At the storage's current SOC it is the battery's own `max_discharge_power(0, step)`. |
| Simulate.StorageFeasible | elvis/simulate.py:258-271 | An entry of 0 can be served when the headroom is not negative and the battery charges; any other entry when its magnitude is within the maximum discharge. |
| Simulate.Served | elvis/simulate.py:258-271 | What serving an entry left: for 0, the charge power recorded and the SOC raised by it; otherwise the entry kept and the SOC lowered by its magnitude. |
| Simulate.ServeCharge | elvis/simulate.py:262-268 | An entry of 0: a success charged as `Served` says and keeps the battery valid, and a feasible entry succeeds. |
| Simulate.ServeDischarge | elvis/simulate.py:270-271 | A nonzero entry: a success discharged by its magnitude as `Served` says and keeps the battery valid, and a feasible entry succeeds. |
| Simulate.ServeStorage | elvis/simulate.py:258-271 | One storage entry: a feasible request succeeds, and a success charges with the headroom when 0 and discharges otherwise, keeping the battery valid. |
| Simulate.ChargeStorage | elvis/simulate.py:240-273 | Serves every storage entry. It succeeds whenever every entry is feasible, and a failure names an infeasible one. |
| Simulate.DayHours | elvis/simulate.py:414 | The hour of the day of a timestamp: its second of the day over 3600. |
| Simulate.DayHoursIsClockTime | elvis/simulate.py:414 | The hour of the day equals hour + minute / 60 + second / 3600 of the time of day, and lies in [0, 24). |
| Simulate.WithinOpeningHours | elvis/simulate.py:411-415 | Always open without opening hours; otherwise open exactly when the hour of the day lies in the closed interval. |
| Simulate.OpeningHoursInSeconds | elvis/simulate.py:411-415 | Open at t exactly when the second of the day lies between open * 3600 and close * 3600. |
| Simulate.Advance | elvis/simulate.py:433-447 | The event index moves past exactly the events arriving at t and stops at the first other one. |
| Simulate.ProcessedUpTo | elvis/simulate.py:405-447 | The number of events processed never exceeds the events given. |
| Simulate.ProcessedStep | elvis/simulate.py:405-447 | One more step moves the event index as the inner loop does at that step's time. |
| Simulate.ProcessedAt | elvis/simulate.py:405-447 | The event index after the first steps, counted by position; never past the events given. |
| Simulate.ProcessedAtIsUpTo | elvis/simulate.py:405-447 | Counting by position agrees with counting over the prefix of the steps. |
| Simulate.ProcessedArriveOnSteps | elvis/simulate.py:433-447 | Only events arriving exactly on a step are ever processed. |
| Simulate.AllProcessed | elvis/simulate.py:405-447 | With events sorted by arrival and every arrival on an increasing grid, every event is processed. |
| Simulate.NoStepsNoEvents | elvis/simulate.py:405-447 | Without steps, arrivals on steps mean no events. |
| Simulate.ProcessedThrough | elvis/simulate.py:405-447 | After i steps, the processed events are exactly those arriving by step i. |
| Simulate.Rejections | elvis/simulate.py:394 | There are no more rejections than admissions. |
| Simulate.RejectionsAppend | elvis/simulate.py:438-447 | Rejection counts add up over concatenated traces. |
| Simulate.FateAtDecides | elvis/simulate.py:23-74 | Deciding the j-th arrival of a step on the counts the earlier ones left gives its fate in closed form. |
| Simulate.RejectionsOfStep | elvis/simulate.py:433-447 | While open, the rejections of a step are its arrivals beyond the free points and the queue's room; while closed, all of them. |
| Simulate.ArrivalsCounts | elvis/simulate.py:433-447 | After the arrivals so far, the free and queued counts are the closed forms. |
| Simulate.ArrivalsAt | elvis/simulate.py:433-447 | Each arrival so far was decided as `handle_car_arrival` decides on the occupancy it found, and its fate follows the closed form. |
| Simulate.ArrivalsStep | elvis/simulate.py:433-447 | One more arrival, decided on the occupancy the earlier ones left, extends the step. |
| Simulate.ArrivalsLast | elvis/simulate.py:433-447 | The occupancy after a non-empty run of arrivals is what the last of them left. |
| Simulate.CountsAdvance | elvis/simulate.py:23-74 | After one more arrival, the free and queued counts are the closed forms for one more. |
| Simulate.CountsStep | elvis/simulate.py:23-74 | A connection takes one free point, queueing fills one place, and a rejection changes neither. |
| Simulate.HandleArrivals | elvis/simulate.py:433-447 | Moves the index as `Advance` does, with one admission per event. Each arrival is decided as `handle_car_arrival` decides on the occupancy the earlier ones left, and the site and queue end as the last one left them (`Arrivals`). The counter grows by the arrivals beyond the free points and the queue's room while open, and by all of them while closed. |
| Simulate.Departures | elvis/simulate.py:418-430 | The queue update (the corrected `UpdateQueueIntended`) and the point update. Closed, every point is freed and the queue emptied. Open, the points that are freed or take a queued event are exactly the expired ones (`ExpiredPoints`), each at most once. They take the oldest queued events in order and are freed only once the queue ran dry, and every other vehicle stays where it is. When disconnecting by time, no queued event and no connected vehicle is overdue afterwards (`DeparturesDone`). |
| Simulate.NotDueStays | elvis/simulate.py:178-190 | While open, a vehicle that is not due keeps its point: it is neither freed nor replaced by a queued event. |
| Simulate.OccupancyStep | elvis/simulate.py:418-447 | The departures as `Departures` states, so exactly the expired points change, then the step's arrivals decided on the occupancy they left (`Arrivals`), ending in the site's new state, with the index moved as `Advance` does and the counter grown by their rejections. |
| Simulate.PowerStep | elvis/simulate.py:450-469 | The power half of a step keeps the free and busy points. On success every busy point has an assigned power and its vehicle is charged with it, ordered charging periods stay ordered at t, the preload had a value for the position, and every storage stays valid. |
| Simulate.StepDecided | elvis/simulate.py:433-447 | The arrivals of one more step, all at its time and handled in turn, extend a decided trace. |
| Simulate.SnocSplit | elvis/simulate.py:433-447 | A concatenation is the first part and all but the last of the second, then that last element. |
| Simulate.DecidedSnoc | elvis/simulate.py:433-447 | One more arrival, decided on the occupancy it found, extends a decided trace. |
| Simulate.AdvanceNewArrival | elvis/simulate.py:433-436 | After the arrivals at a step's time, the next event arrives at another time than the last one processed. |
| Simulate.StepChained | elvis/simulate.py:433-447 | The arrivals of one more step, handled in turn, extend a chained trace when the step starts a new arrival time. |
| Simulate.ChainLink | elvis/simulate.py:433-447 | The last arrival of a step, when it shares its time with the one before it in the trace, found the occupancy that one left. |
| Simulate.ChainedSnoc | elvis/simulate.py:433-447 | One more arrival extends a chained trace when, at the time of the one before it, it found the occupancy that one left. |
| Simulate.ExtendTrace | elvis/simulate.py:418-447 | One step's arrivals keep the run's trace decided and chained, add their rejections to its count, and leave the next event at a new arrival time. |
| Simulate.SimulateStep | elvis/simulate.py:405-469 | One loop iteration and its step record. The record starts at the occupancy and stored next-leave time before the step, and the trace grows by its arrivals and stays decided and chained. A success is `StepDone` at t: departures as `DeparturesDone`, where exactly the expired points are handed over or freed; then exactly the events arriving at t (up to `Advance`), handled in turn from the occupancy the departures left (`Arrivals`); then vehicles charged with the assigned powers (`ChargedFrom`). It ends at the new occupancy and records the assigned powers. The index moves as `Advance` does, and the counter is the trace's rejections. Ordered periods stay ordered, the preload had a value, and storage stays valid. |
| Simulate.RunSteps | elvis/simulate.py:405-469 | The `for` loop: the trace is decided and chained even on error. A success stands as `RunSoFar` says after every step, from the site and queue it started with. It processed `ProcessedAt` events with one trace entry each, counts their rejections, and records one power map per step, equal to that step record's. When the steps increase, the charging periods are ordered up to the last step. The preload covered every step. The step records link up from the starting occupancy to the final one, each `StepDone` at its time step. So each record frees or hands over exactly the expired points and takes exactly its step's arrivals. |
| Simulate.SimulateRun | elvis/simulate.py:346-472 | A successful run processes the events `ProcessedUpTo` counts, with one admission each. Every admission is what `handle_car_arrival` decides on the occupancy that arrival found, with the site open as the opening hours say. Within a step, each arrival found what the one before it left. The step records start from every point free, no vehicle and an empty queue. Each later record starts where the one before ended, and each is `StepDone` at its time step: exactly the expired points leave, and exactly the events arriving at that step arrive (`StepTakesItsArrivals`). Two records of a step from the same occupancy reject equally many arrivals (`StepRejectionsDetermined`). The order in which expired points take queued events follows set iteration and is not fixed. The counter is the rejections, and one power record is stored per time step, equal to the step's assigned powers. With no steps there are no charging periods; with increasing steps every period runs from its arrival to its last charge, no later than the last step. Preload covers every step, and storage stays valid. |
| Simulate.PeriodsSoFarStep | elvis/simulate.py:453-454 | A step at the next time step that keeps the periods ordered at its own time keeps `PeriodsSoFar`: with increasing steps the periods stay ordered up to the last step run, and before the first step there are none. |
| Simulate.ProcessedAtIsUpToAll | elvis/simulate.py:405-447 | Counting by position over all the steps agrees with `ProcessedUpTo`. |
| Simulate.DoneAt | elvis/simulate.py:405-469 | A record is done only at a position within the time steps; there it is `StepDone` at that time step, from the event index the earlier steps reached. It takes exactly the events arriving at that step, so the next position starts after them (`StepTakesItsArrivals`). |
| Simulate.RunLinkedSnoc | elvis/simulate.py:405-406 | One more record, done at the next position and starting where the run ended, extends a linked run as its last record. |
| Simulate.TraceOfSnoc | elvis/simulate.py:433-447 | One more step appends its arrivals to the trace, and the occupancies they found to what was seen. |
| Simulate.FirstArrivalConnects | elvis/simulate.py:391-447 | From a site with free points and nothing connected or queued, the first arrival of an open first step is connected. |
| Simulate.StepTakesItsArrivals | elvis/simulate.py:433-436 | In a linked run, the `n`-th record's arrivals are the events from where the earlier steps stopped up to the next step's start, and every one of them arrives at the `n`-th time step. |
| Simulate.DeparturesCounts | elvis/simulate.py:178-190 | While closed every point is freed and the queue emptied. While open, `min(expired, queued)` due points take queued events, the other due points are freed, and the queue keeps the rest. |
| Simulate.RejectedInStep | elvis/simulate.py:418-447 | The closed-form count of a step's rejections: never more than its arrivals, and all of them while closed. |
| Simulate.StepRejections | elvis/simulate.py:418-447 | A step takes exactly the events arriving at its time, and its rejections are `RejectedInStep` of the occupancy it started at: those beyond the free points (the old ones plus the due points not handed over) and the queue's room, or every arrival while closed. |
| Simulate.StepRejectionsDetermined | elvis/simulate.py:418-447 | Two records of a step from the same occupancy take equally many arrivals and reject equally many, whichever due points took the queued events. |
| Simulate.RunChainedStep | elvis/simulate.py:405-469 | A record that starts at the current occupancy and is `StepDone` at the next time step extends the linked records, the trace and the power maps, and moves the run to the record's end occupancy. |
| Simulate.PowersSnoc | elvis/simulate.py:464-466 | The power map recorded at each step stays that step record's when one more step is appended. |
| Simulate.RunSoFarStart | elvis/simulate.py:386-400 | Before the first step, nothing is processed, counted or recorded, and the run stands where it started. |
| Simulate.RunStep | elvis/simulate.py:405-469 | One pass of the loop keeps `RunSoFar` from `pos` to `pos + 1` steps. That covers the trace decided and chained, the counts, the power maps, the periods, the preload, and the records linked up to the new occupancy. The new record frees or hands over exactly the expired points and takes exactly the step's arrivals. On error the trace stays decided and chained. |
| Validation.ReasonText | elvis/config/validation.py:74-246 | Every reason has non-empty wording. |
| Validation.InvalidMessage | elvis/exceptions.py:102 | An invalid-parameter message is non-empty and starts with 'I', as "Invalid value for parameter" does. |
| Validation.Message | elvis/exceptions.py:102-113 | Invalid-parameter messages start with 'I', missing-parameter messages with 'R'. |
| Validation.ValidateSoc | elvis/config/validation.py:57-85 | Accepts exactly numbers in [0, 1] as floats. A non-number is rejected for its type; an out-of-range number is rejected as outside [0, 1]. |
| Validation.ValidateProbability | elvis/config/validation.py:119-147 | The same acceptance and errors as `ValidateSoc`. |
| Validation.ValidateSocAgreesWithEnsureSoc | elvis/config/validation.py:57-85 | The validator and `ensure_soc` accept the same floats, with the same value. |
| Validation.ValidatePower | elvis/config/validation.py:88-116 | Accepts exactly numbers >= 0. A non-number is rejected for its type; a negative number is rejected as negative. |
| Validation.ValidatePowerVersusEnsurePositive | elvis/config/validation.py:88-116 | Power validation and `ensure_positive` agree everywhere except 0, which only the validator accepts. |
| Validation.FirstInvalidProbability | elvis/config/validation.py:175-184 | Finds the first entry that is not a probability, or reports that none is. |
| Validation.ValidateArrivalDistribution | elvis/config/validation.py:150-193 | Accepts exactly non-empty lists of probabilities, unchanged. A non-list and an empty list are rejected, and otherwise the first bad entry is named. |
| Validation.ValidateSchedulingPolicyString | elvis/config/validation.py:196-220 | Accepts exactly strings whose normal form is a policy table name, giving that policy. Rejections name `scheduling_policy`, and a bad string carries the unknown-policy reason. |
| Validation.ValidatePolicyValue | elvis/config/validation.py:196-220 | Every policy's own value is accepted as that policy. |
| Validation.ValidateSampleMethodString | elvis/config/validation.py:223-247 | Accepts exactly strings whose stripped lower case is a method value. Rejections name `sample_method`, and a bad string carries the unknown-method reason. |
| Validation.ValidateSampleMethodValue | elvis/config/validation.py:223-247 | Every sample method's own value is accepted as that method. |
| Validation.ValidationResult.constructor | elvis/config/validation.py:30-33 | A new result is valid with no errors or warnings. |
| Validation.ValidationResult.AddError | elvis/config/validation.py:35-38 | Appends the error and makes the result invalid, keeping warnings. |
| Validation.ValidationResult.AddWarning | elvis/config/validation.py:40-42 | Appends the warning, keeping errors and validity. |
| Validation.ValidationResult.ErrorSummary | elvis/config/validation.py:44-50 | "No validation errors" exactly when there are none; otherwise the counted header followed by one "- message" line per error. |
| Validation.ValidateScenarioConfig | elvis/config/validation.py:250-294 | The errors and warnings recorded are exactly the configuration's findings. |
| Validation.RecordLaterChecks | elvis/config/validation.py:275-287 | The optional SOC checks and the probability-sum warning record the later findings. |
| Validation.InvalidArrivalStopsChecks | elvis/config/validation.py:262-290 | An invalid arrival distribution is the only error recorded, with no warning. |
| Validation.RaisedErrorIsLast | elvis/config/validation.py:262-292 | All but the last error are missing-field errors, and a raised error comes with no warning. |
| Validation.FindingsValidIff | elvis/config/validation.py:259-294 | No errors exactly when every required field is present and every validator accepts. |
| Validation.ProbabilityWarningIff | elvis/config/validation.py:281-287 | A warning is recorded exactly when no validator raised and the vehicle probabilities sum away from 1; it carries that sum. |
| SchedulingConfig.SchedulerOf | elvis/config/scheduling.py:66-72 | Every policy type maps to a built-in scheduler. |
| SchedulingConfig.SchedulerOfInjective | elvis/config/scheduling.py:66-72 | Different policy types get different schedulers. |
| SchedulingConfig.MatchLooseName | elvis/config/scheduling.py:201-220 | A recognised loose name selects its scheduler, anything else Uncontrolled. |
| SchedulingConfig.HandledPolicy | elvis/config/scheduling.py:164-222 | A policy object is kept, and a non-string gets Uncontrolled. A string selects by its loose normal form, Uncontrolled if unmatched. |
| SchedulingConfig.HandleSchedulingPolicy | elvis/config/scheduling.py:164-222 | Sets the realisation's policy to the handled one and nothing else. |
| SchedulingConfig.ChosenPolicy | elvis/config/scheduling.py:28-75 | A policy object is kept, and an enum member maps to its scheduler. Any other input selects by the `from_string` table on its text, with Uncontrolled on failure. |
| SchedulingConfig.WithSchedulingPolicy | elvis/config/scheduling.py:28-75 | Sets the configuration's policy to the chosen one, all else unchanged. |
| SchedulingConfig.TableNamesAgree | elvis/config/scheduling.py:164-222 | Every name of the enum table selects the same scheduler through both setters. |
| SchedulingConfig.LowerWordFixed | elvis/config/scheduling.py:199 | A lower-case word is its own loose normal form. |
| SchedulingConfig.LooseKey | elvis/config/scheduling.py:199-210 | The loose normal form of every table name is a loose name of the same policy. |
| SchedulingConfig.KeyShapes | elvis/enums.py:38-48 | Each table name is either a plain word that is itself a loose name, or two words joined by an underscore. |
| SchedulingConfig.JoinedWords | elvis/config/scheduling.py:199 | The loose normal form drops the underscore between two words. |
| SchedulingConfig.MemberValuesAgree | elvis/config/scheduling.py:28-222 | Every policy's own value, and the member itself, select its scheduler in both setters. |
| SchedulingConfig.JoinedNamesDisagree | elvis/config/scheduling.py:56-63 | A two-word policy written without the underscore is accepted by the realisation handler but falls back to Uncontrolled in `with_scheduling_policy`. |
| SchedulingConfig.TabLedNamesDisagree | elvis/config/scheduling.py:199-220 | A table name led by a tab is accepted by `with_scheduling_policy` but falls back to Uncontrolled in the realisation handler. |
| SchedulingConfig.LooseLeadingTab | elvis/config/scheduling.py:199 | The loose normal form keeps a leading tab. |
| SchedulingConfig.WithQueueLength | elvis/config/scheduling.py:118-136 | Accepts exactly non-negative ints and stores them; otherwise AssertionError, unchanged. |
| SchedulingConfig.WithDisconnectByTime | elvis/config/scheduling.py:138-156 | Accepts exactly booleans and stores them; otherwise AssertionError, unchanged. |
| TimeConfig.OpeningHoursCheck | elvis/config/time.py:34-75 | Accepts exactly None, or a 2-tuple of numbers with 0 <= open <= close <= 24, returning them; otherwise AssertionError. |
| TimeConfig.AcceptedOpeningHours | elvis/config/time.py:53-75 | Accepted hours lie within the day, and the main loop is open exactly between them. |
| TimeConfig.WholeDayIsAlwaysOpen | elvis/config/time.py:34-75 | Hours (0, 24) are accepted and open at every moment, as no hours are. |
| TimeConfig.WithOpeningHours | elvis/config/time.py:34-75 | Stores the checked hours; otherwise AssertionError, unchanged. |
| TimeConfig.HandleOpeningHours | elvis/config/time.py:218-255 | Sets the realisation's hours by the same check; otherwise AssertionError, unchanged. |
| TimeConfig.WithMaxParkingTime | elvis/config/time.py:77-99 | Accepts exactly numbers >= 0 and stores them; otherwise AssertionError, unchanged. |
| TimeConfig.WithMeanPark | elvis/config/time.py:101-121 | Accepts exactly numbers strictly between 0 and 24. |
| TimeConfig.WithStdDeviationPark | elvis/config/time.py:123-145 | Accepts exactly numbers >= 0. |
| TimeConfig.WithMeanSoc | elvis/config/time.py:147-165 | Accepts exactly numbers strictly between 0 and 1. |
| TimeConfig.WithStdDeviationSoc | elvis/config/time.py:167-189 | Accepts exactly numbers >= 0. |
| TimeConfig.MeanSocSetterWithinValidator | elvis/config/time.py:159-162 | Every mean SOC the setter accepts passes `validate_soc`, which adds only the ends 0 and 1. |
| TimeConfig.StdDeviationSocSetterBeyondValidator | elvis/config/time.py:181-189 | A SOC deviation above 1 passes the setter but fails the configuration validator. |
| TimeConfig.WithNumChargingEvents | elvis/config/time.py:191-211 | Accepts exactly positive ints. |
| TimeConfig.Copies | elvis/config/time.py:312 | `[v] * n`: n copies of v, none when n <= 0. |
| TimeConfig.AlignList | elvis/config/time.py:339-360 | A success has at least one value per step. ValueError only for an unparsable time text. Without a resolution or repeat, the list is used when long enough and AssertionError otherwise. |
| TimeConfig.ListBranch | elvis/config/time.py:324-360 | As written: non-numbers are AssertionError, and a list used as is must be strictly longer than the step count. |
| TimeConfig.ListBranchIntended | elvis/config/time.py:335-359 | With the length check at least as many values as steps, non-numbers are still rejected and successes cover every step. |
| TimeConfig.IntendedListIff | elvis/config/time.py:335-359 | A list of numbers used as is passes the intended check exactly when it covers every step. |
| TimeConfig.ExactFitRejected | elvis/config/time.py:335 | Three values for three steps are rejected as written and accepted as intended. |
| TimeConfig.HandleEmissionsScenario | elvis/config/time.py:283-368 | None gives no values and a negative column is AssertionError. A number is repeated once per step, and a list takes the corrected list branch (`ListBranchIntended`). Only an unconvertible type warns, with no values. |
| VehicleConfig.FloatOf | elvis/config/vehicles.py:131-134 | `float(x)`: numbers keep their value and booleans give 1 or 0. ValueError exactly for an unparsable string, and TypeError for anything that is not a plain value. |
| VehicleConfig.StrOf | elvis/config/vehicles.py:109-110 | `str(s)` of a string is itself. |
| VehicleConfig.BatteryFromConfig | elvis/config/vehicles.py:124-174 | A missing key is AssertionError. A built battery has the converted values, meets the range assertions and is valid. It takes the degradation keys when both are given, else start 1 and level 0. |
| VehicleConfig.DefaultDegradationNeedsZeroMin | elvis/config/vehicles.py:139-174 | Without both degradation keys, any built battery has min power 0, and a positive min power is AssertionError. |
| VehicleConfig.LoneDegradationKeyIgnored | elvis/config/vehicles.py:146-149 | A single degradation key is ignored. |
| VehicleConfig.VehicleFromKwargs | elvis/config/vehicles.py:103-177 | A missing key is AssertionError. A built vehicle has a numeric probability in [0, 1], the stringified brand and model, and the given battery object or the one built from the battery dictionary. |
| VehicleConfig.FirstNonVehicle | elvis/config/vehicles.py:87-91 | The first list entry that is not a vehicle instance. |
| VehicleConfig.VehiclesOf | elvis/config/vehicles.py:86-93 | The vehicles of a list of instances, in order. |
| VehicleConfig.AddedBy | elvis/config/vehicles.py:53-178 | A list appends its instances up to the first non-instance, failing there with AssertionError. An instance appends itself, and keyword arguments append the built vehicle or nothing on error. |
| VehicleConfig.AddVehicleTypes | elvis/config/vehicles.py:53-178 | Appends what `AddedBy` says, returns its error, and changes no other field. |
| VehicleConfig.AppendInstances | elvis/config/vehicles.py:86-93 | Appends the instances up to the first non-instance, and raises exactly if there is one. |
| VehicleConfig.EntryAdded | elvis/config/vehicles.py:38-47 | An instance appends itself; an entry that is neither an instance nor a dict is TypeError, appending nothing. |
| VehicleConfig.ErrorSticks | elvis/config/vehicles.py:37-47 | Once an entry raised, later entries change neither what was appended nor the error. |
| VehicleConfig.AllInstancesAdded | elvis/config/vehicles.py:37-48 | A list of instances is appended whole, in order. |
| VehicleConfig.PartialAddOnError | elvis/config/vehicles.py:37-47 | An instance followed by a bad entry stays appended while TypeError is raised. |
| VehicleConfig.WithVehicleTypes | elvis/config/vehicles.py:22-51 | A list appends entry by entry up to the first error. Without a list, the `vehicle_type` keyword (or None) is added as `add_vehicle_types` adds it, with the other keyword arguments; no other field changes. |
| VehicleConfig.AddEntries | elvis/config/vehicles.py:36-48 | Appends what the entries add and returns the first error. |
| VehicleConfig.AddEntry | elvis/config/vehicles.py:38-47 | Appends what one entry adds and returns its error. |
| VehicleConfig.StopsAtError | elvis/config/vehicles.py:37-47 | When a prefix of the list raises, the whole list adds what that prefix adds. |
| VehicleConfig.EntriesAddedStep | elvis/config/vehicles.py:37-47 | One more entry adds what the prefix adds, then what that entry adds. |
| PyText.StripLeft | elvis/enums.py:35 | `lstrip()`: a suffix not starting with whitespace, with only whitespace dropped. |
| PyText.StripRight | elvis/enums.py:35 | `rstrip()`: a prefix not ending with whitespace, with only whitespace dropped. |
| PyText.StripEnds | elvis/enums.py:35 | `strip()` leaves no whitespace at either end. |
| PyText.StripFixed | elvis/enums.py:35 | A string without whitespace at its ends is its own `strip()`. |
| PyText.Lower | elvis/enums.py:35 | `lower()` lowercases each character in place. |
| PyText.LowerFixed | elvis/enums.py:35 | A string without upper-case letters is its own `lower()`. |
| PyText.ReplaceChar | elvis/enums.py:35 | `replace(a, b)` substitutes exactly the occurrences of a. |
| PyText.DeleteChar | elvis/config/scheduling.py:199 | `replace(c, "")` leaves no c, and it leaves a string without c unchanged. |
| PyText.DeleteAbsent | elvis/config/scheduling.py:199 | Deleting a character that does not occur changes nothing. |
| PyText.NatToString | elvis/config/validation.py:181 | `str(n)`: decimal digits, with a leading zero only for 0. |
| PyText.PlainNameFixed | elvis/enums.py:35 | Normalisation leaves a lower-case name without whitespace alone. |

## Left out

- Logging, the `log.log` file and the progress values `simulate_async` yields are left out. The result store (`ElvisResult`) is replaced by the `RunSummary` of a run.
- The scheduling policies' power assignment (`schedule`), charging a vehicle and the storage headroom are collaborators in other files. They are function parameters of the main loop, and their bodies are not modelled.
- The storage-state input that `schedule` receives is left out; the policy sees the points, vehicles and step.
- elvis/vehicle.py is not part of this model: `ElectricVehicle` is a record of brand, model, battery and probability.
- The charging point and charging event classes are not part of this model. Only the connected-vehicle fields the loop reads are kept.
- The waiting queue class is not part of this model. `WaitingQueue` follows the behaviour the loop relies on: append below `maxsize`, FIFO `dequeue`, `empty`, and a stored next-leave time. `Enqueue` brings that time forward to the new event's leaving time when it is earlier, and `determine_next_leaving_time` resets it to the earliest leaving time. The stored time is thus never later than a queued event's leaving time, though it may be earlier than all of them after a dequeue.
- WaitingQueues.WaitingQueue.constructor: a queue that never held an event has no next-leave time (None), and the loop then skips the overdue scan. How the queue class initialises `next_leave` is not part of this model.
- elvis/utility/elvis_general.py is not part of this model. `Batteries.Floor3` follows the rounding down to 3 decimals that `max_discharge_power` calls for.
- Floats are exact reals, with no rounding or overflow. Timestamps and durations are whole seconds, and `timedelta` values are integer seconds.
- Text handling covers ASCII only. `strip`, `lower` and `isspace` ignore non-ASCII characters.
- Python's `bool` is a subclass of `int`, so `isinstance(True, int)` holds. The model keeps booleans apart from numbers in `Values.IsNumber`, so a boolean passed where a number is checked is rejected.
- The pandas DataFrame and Series branches of `handle_emissions_scenario` stand for a given transformation function; `transform_data` is not modelled. The `.iloc[:, col_pos]` column selection, and so its IndexError for a column beyond the frame, lies inside that `transformFrame` parameter.
- `strptime`, `adjust_resolution` and `repeat_data` are function parameters of the alignment.
- `num_time_steps` is the `steps` parameter.
- The `start_date`, `end_date` and `resolution` type assertions of `handle_emissions_scenario` are taken as satisfied.
- `with_df_charging_period` and `handle_df_charging_period` (timedelta and text parsing) are not modelled.
- `str()` of a non-string brand or model and `float()` of a string call into Python's conversions. They are the `text` and `parseFloat` parameters.
- Non-string dictionary keys and a `self` key in `**` unpacking are not modelled.
- Iterables other than lists passed to `with_vehicle_types` are not modelled.
- Simulate.SimulateRun: on an error part-way through, only the trace is stated (still decided and chained); nothing is claimed about the partial counters, periods or powers.
- Simulate.SimulateRun: the rejection count is fixed step by step (`StepRejectionsDetermined`), not for the whole run. Which due point takes which queued event follows set iteration order, and the vehicles' charge comes from the policy and charging parameters, so later departures by SOC depend on those collaborators.
- Simulate.SimulateRun: the time steps are a parameter, so the ordering of the charging periods is stated only when they increase, as those of `SimTypes.GetTimeSteps` do.
- Batteries.MaxPowerPossible: its requires `MaxPowerDefined` leaves out the ZeroDivisionError `max_power_possible` raises for a knee at SOC 1 and a SOC above 1 (elvis/battery.py:90-93). The battery checks allow a knee of 1; the scheduling policies that would ask for the curve are parameters of the loop, so no modelled caller passes a SOC above 1.
- SimTypes.GetTimeSteps: requires a positive resolution unless the end is before the start. For a resolution <= 0 with start <= end the source's `while current <= self.end` never ends, and that non-termination is not modelled.
- Simulate.PowerStep: states the charging periods it returns only as staying ordered, and the storage powers it realises not at all; `ChargeStorage` states those.
- Validation.Message: states only each message kind's first letter, not the whole text.
- Validation.InvalidMessage: states only the first letter; the text also leaves out the offending value that the source's reasons end with (`got {value}`).
- Validation.ReasonText: states only that every reason has wording; the wording itself is in its body.
- Warning texts are the `Warning` datatype, not strings. A `repeat` of None is treated as False.
- ScenarioConfigs.ScenarioRealisation.constructor: the source's constructor raises NotImplementedError. The model starts from an empty realisation so that its handlers can be stated.
- The mixins act on `ScenarioConfig` fields. The fields no modelled setter writes (emissions files, GMM parameters, infrastructure contents) are left out.
- The `InvalidConfigurationError` branch of `validate_scenario_config` is not modelled, because no modelled validator raises anything other than a validation error.

## Findings

| source | as written | input that shows it | evidently intended | confidence | as-written member | corrected member |
|---|---|---|---|---|---|---|
| elvis/simulate.py:111-113 | Overdue events are popped from the waiting queue only inside `if log:`, so a run without logging never removes them. | Queue holding one event with leaving time 5, time step 10, disconnect by time on, logging off: the event stays queued. | Overdue events leave the queue whether or not the step is logged. | not executed | SiteSteps.OverdueKeptExample | SiteSteps.UpdateQueueIntended |
| elvis/battery.py:138 | `"start_power_degradation" and "max_degradation_level" in kwargs` tests only the second key, so the first is read even when absent. | `from_dict` with capacity 50, max 11, min 0, efficiency 0.9 and only `max_degradation_level` 0.5: KeyError. | The degradation parameters are used only when both keys are given, else the defaults. | not executed | Batteries.FromDictKeyErrorExample | Batteries.FromDictIntended |
| elvis/config/time.py:335 | An emissions list used as is must have strictly more values than simulation steps (`<`), while the final check (line 359) needs only as many. | A list of 3 numbers for 3 steps, no resolution, no repeat: AssertionError. | A list with at least one value per step is accepted (`<=`). | not executed | TimeConfig.ExactFitRejected | TimeConfig.ListBranchIntended |

=== FILE: battery.dfy ===
/** Battery models (elvis/battery.py): the stateless capability model shared by vehicle
    batteries, the validated vehicle battery, and the stateful stationary storage battery. */
module Batteries {
  import opened Outcomes
  import SimTypes

  /** `Battery`: capacity (kWh), charge power limits (kW), efficiency, the SOC at which the
      maximum power starts to degrade, and the fraction of it left at SOC 1. */
  datatype Battery = Battery(
    capacity: real,
    maxChargePower: real,
    minChargePower: real,
    efficiency: real,
    startPowerDegradation: real,
    maxDegradationLevel: real)

  /** The conditions `Battery.__init__` asserts. */
  predicate BatteryParamsOk(capacity: real, maxP: real, minP: real, efficiency: real,
                            start: real, level: real)
  {
    && capacity > 0.0
    && 0.0 <= efficiency <= 1.0
    && 0.0 <= start <= 1.0
    && 0.0 <= level <= 1.0
    && level * maxP >= minP
  }

  predicate ValidBattery(b: Battery) {
    BatteryParamsOk(b.capacity, b.maxChargePower, b.minChargePower, b.efficiency,
                    b.startPowerDegradation, b.maxDegradationLevel)
  }

  /** `Battery(capacity, max, min, efficiency, start, level)`: an AssertionError unless the
      parameters are in their domains and the degraded maximum stays at or above the minimum. */
  function NewBattery(capacity: real, maxP: real, minP: real, efficiency: real,
                      start: real, level: real): (r: Result<Battery>)
    ensures r.Ok? <==> BatteryParamsOk(capacity, maxP, minP, efficiency, start, level)
    ensures r.Ok? ==>
      ValidBattery(r.value) && r.value == Battery(capacity, maxP, minP, efficiency, start, level)
    ensures r.Err? ==> r.error == AssertionError
  {
    if BatteryParamsOk(capacity, maxP, minP, efficiency, start, level) then
      Ok(Battery(capacity, maxP, minP, efficiency, start, level))
    else
      Err(AssertionError)
  }

  /** With the default degradation parameters (start 1, level 0) a battery can only be built
      when its minimum charge power is at most 0. */
  lemma DefaultsForceNonPositiveMin(capacity: real, maxP: real, minP: real, efficiency: real)
    requires NewBattery(capacity, maxP, minP, efficiency, 1.0, 0.0).Ok?
    ensures minP <= 0.0
  {
  }

  /** `max_power_possible` is only defined where its division is: for a SOC above the knee the
      knee must lie below 1 (otherwise Python raises ZeroDivisionError, which needs SOC > 1). */
  predicate MaxPowerDefined(b: Battery, soc: real) {
    soc <= b.startPowerDegradation || b.startPowerDegradation != 1.0
  }

  /** `Battery.max_power_possible(soc)`: flat at `maxChargePower` up to the knee, then falling
      linearly to `maxChargePower * maxDegradationLevel` at SOC 1. */
  function MaxPowerPossible(b: Battery, soc: real): real
    requires MaxPowerDefined(b, soc)
  {
    if soc > b.startPowerDegradation then
      var degradation := KneeFraction(b, soc) * b.maxChargePower * (1.0 - b.maxDegradationLevel);
      b.maxChargePower - degradation
    else
      b.maxChargePower
  }

  /** `(soc - start) / (1 - start)`: how far `soc` lies from the knee towards SOC 1. */
  function KneeFraction(b: Battery, soc: real): real
    requires b.startPowerDegradation != 1.0
  {
    (soc - b.startPowerDegradation) / (1.0 - b.startPowerDegradation)
  }

  /** Above the knee and up to SOC 1 the fraction lies in (0, 1] and grows with the SOC. */
  lemma KneeFractionBounds(b: Battery, soc: real)
    requires b.startPowerDegradation < soc <= 1.0
    ensures 0.0 < KneeFraction(b, soc) <= 1.0
    ensures KneeFraction(b, soc) * (1.0 - b.startPowerDegradation) == soc - b.startPowerDegradation
  {
    var d := 1.0 - b.startPowerDegradation;
    var x := soc - b.startPowerDegradation;
    assert KneeFraction(b, soc) == x / d;
    DivMul(x, d);
    DivPos(x, d);
    DivLe(x, d, d);
    DivSelf(d);
  }

  lemma KneeFractionMono(b: Battery, soc1: real, soc2: real)
    requires b.startPowerDegradation < soc1 <= soc2 <= 1.0
    ensures KneeFraction(b, soc1) <= KneeFraction(b, soc2)
  {
    var s := b.startPowerDegradation;
    assert KneeFraction(b, soc1) == (soc1 - s) / (1.0 - s);
    assert KneeFraction(b, soc2) == (soc2 - s) / (1.0 - s);
    DivLe(soc1 - s, soc2 - s, 1.0 - s);
  }

  /** Up to the knee the maximum power is the full `maxChargePower`. */
  lemma MaxPowerFlatBelowKnee(b: Battery, soc: real)
    requires soc <= b.startPowerDegradation
    ensures MaxPowerPossible(b, soc) == b.maxChargePower
  {
  }

  /** At SOC 1 the maximum power has degraded to `maxChargePower * maxDegradationLevel`. */
  lemma MaxPowerAtFull(b: Battery)
    requires b.startPowerDegradation < 1.0
    ensures MaxPowerPossible(b, 1.0) == b.maxChargePower * b.maxDegradationLevel
  {
    var d, m, l := 1.0 - b.startPowerDegradation, b.maxChargePower, b.maxDegradationLevel;
    assert KneeFraction(b, 1.0) == d / d;
    DivSelf(d);
    assert MaxPowerPossible(b, 1.0) == m - 1.0 * m * (1.0 - l);
  }

  /** For a valid battery with a non-negative maximum, `max_power_possible` stays between the
      minimum charge power (through the degraded floor) and the maximum on SOC in [0, 1]. */
  lemma MaxPowerBounds(b: Battery, soc: real)
    requires ValidBattery(b) && b.maxChargePower >= 0.0
    requires 0.0 <= soc <= 1.0
    ensures b.maxChargePower * b.maxDegradationLevel <= MaxPowerPossible(b, soc) <= b.maxChargePower
    ensures b.minChargePower <= MaxPowerPossible(b, soc)
  {
    var m, l := b.maxChargePower, b.maxDegradationLevel;
    if soc > b.startPowerDegradation {
      var t := KneeFraction(b, soc);
      KneeFractionBounds(b, soc);
      MulLe(0.0, t, m);
      MulLe(t, 1.0, m);
      MulLe(0.0, t * m, 1.0 - l);
      MulLe(t * m, m, 1.0 - l);
      assert m * l == m - m * (1.0 - l);
    } else {
      MulLe(l, 1.0, m);
    }
  }

  /** For a non-negative maximum, `max_power_possible` never increases with the SOC on
      [0, 1]. */
  lemma MaxPowerNonIncreasing(b: Battery, soc1: real, soc2: real)
    requires b.maxChargePower >= 0.0 && b.maxDegradationLevel <= 1.0
    requires soc1 <= soc2 <= 1.0
    requires MaxPowerDefined(b, soc1) && MaxPowerDefined(b, soc2)
    ensures MaxPowerPossible(b, soc2) <= MaxPowerPossible(b, soc1)
  {
    var s, m, k := b.startPowerDegradation, b.maxChargePower, 1.0 - b.maxDegradationLevel;
    if soc1 > s {
      var t1, t2 := KneeFraction(b, soc1), KneeFraction(b, soc2);
      KneeFractionMono(b, soc1, soc2);
      MulLe(t1, t2, m);
      MulLe(t1 * m, t2 * m, k);
    } else if soc2 > s {
      var t2 := KneeFraction(b, soc2);
      KneeFractionBounds(b, soc2);
      MulLe(0.0, t2, m);
      MulLe(0.0, t2 * m, k);
    }
  }

  /** The curve is continuous at the knee: just above it the power falls short of the
      maximum by at most `maxChargePower` times the distance from the knee, scaled by the
      length `1 - start` of the falling part. */
  lemma MaxPowerContinuousAtKnee(b: Battery, soc: real)
    requires b.maxChargePower >= 0.0 && 0.0 <= b.maxDegradationLevel <= 1.0
    requires b.startPowerDegradation < soc <= 1.0
    ensures var s := b.startPowerDegradation;
      0.0 <= (MaxPowerPossible(b, s) - MaxPowerPossible(b, soc)) * (1.0 - s)
           <= (soc - s) * b.maxChargePower
  {
    var s, m, k := b.startPowerDegradation, b.maxChargePower, 1.0 - b.maxDegradationLevel;
    var t, d := KneeFraction(b, soc), 1.0 - s;
    KneeFractionBounds(b, soc);
    assert MaxPowerPossible(b, s) - MaxPowerPossible(b, soc) == t * m * k;
    MulLe(0.0, t, m);
    MulLe(0.0, t * m, k);
    MulLe(t * m * k, t * m, d);
    MulLe(0.0, t * m * k, d);
    assert t * m * d == (t * d) * m;
  }

  lemma MulLe(x: real, y: real, c: real)
    requires x <= y && c >= 0.0
    ensures x * c <= y * c
  {
  }

  lemma DivSelf(d: real)
    requires d != 0.0
    ensures d / d == 1.0
  {
  }

  lemma DivPos(x: real, d: real)
    requires x > 0.0 && d > 0.0
    ensures x / d > 0.0
  {
  }

  lemma DivMul(x: real, d: real)
    requires d != 0.0
    ensures x / d * d == x
  {
  }

  /** `Battery.min_power_possible(soc)`: the minimum charge power, whatever the SOC. */
  function MinPowerPossible(b: Battery, soc: real): real {
    b.minChargePower
  }

  /** The minimum never exceeds the maximum anywhere on [0, 1]. */
  lemma MinNeverAboveMax(b: Battery, soc: real)
    requires ValidBattery(b) && b.maxChargePower >= 0.0
    requires 0.0 <= soc <= 1.0
    ensures MinPowerPossible(b, soc) <= MaxPowerPossible(b, soc)
  {
    MaxPowerBounds(b, soc);
  }

  lemma DivLe(a: real, b: real, c: real)
    requires a <= b && c > 0.0
    ensures a / c <= b / c
  {
  }

  /** If `p` is at most the power `x * cap / h` that moves the SOC by `x` in `h` hours, then
      `p` moves the SOC by at most `x`. */
  lemma ScaledStep(p: real, x: real, cap: real, h: real)
    requires cap > 0.0 && h > 0.0 && p <= x * cap / h
    ensures p * h / cap <= x
  {
    MulLe(p, x * cap / h, h);
    DivMul(x * cap, h);
    DivLe(p * h, x * cap, cap);
    assert x * cap / cap == x;
  }

  // ---------------------------------------------------------------------------------------
  // EVBattery

  /** The domain checks `EVBattery.__init__` makes before delegating to `Battery`. */
  predicate EVRangesOk(capacity: real, maxP: real, efficiency: real, start: real, level: real) {
    && SimTypes.EnsurePositive(capacity).Ok?
    && SimTypes.EnsurePositive(maxP).Ok?
    && SimTypes.EnsureProbability(efficiency).Ok?
    && SimTypes.EnsureProbability(start).Ok?
    && SimTypes.EnsureProbability(level).Ok?
  }

  /** `EVBattery(...)`: a failing positivity or probability guard becomes
      `InvalidParameterError("battery_parameter")`; a negative minimum power is
      `InvalidParameterError("min_charge_power")`; otherwise the generic constructor decides. */
  function NewEVBattery(capacity: real, maxP: real, minP: real, efficiency: real,
                        start: real, level: real): (r: Result<Battery>)
    ensures r == Err(InvalidParameterError("battery_parameter")) <==>
      !(capacity > 0.0 && maxP > 0.0 && 0.0 <= efficiency <= 1.0 && 0.0 <= start <= 1.0
        && 0.0 <= level <= 1.0)
    ensures r == Err(InvalidParameterError("min_charge_power")) <==>
      capacity > 0.0 && maxP > 0.0 && 0.0 <= efficiency <= 1.0 && 0.0 <= start <= 1.0
      && 0.0 <= level <= 1.0 && minP < 0.0
    ensures r == Err(AssertionError) <==>
      capacity > 0.0 && maxP > 0.0 && 0.0 <= efficiency <= 1.0 && 0.0 <= start <= 1.0
      && 0.0 <= level <= 1.0 && 0.0 <= minP && level * maxP < minP
    ensures r.Ok? ==> r.value == Battery(capacity, maxP, minP, efficiency, start, level)
    ensures r.Ok? ==> ValidBattery(r.value) && maxP > 0.0 && 0.0 <= minP <= maxP
  {
    if !EVRangesOk(capacity, maxP, efficiency, start, level) then
      Err(InvalidParameterError("battery_parameter"))
    else if minP < 0.0 then
      Err(InvalidParameterError("min_charge_power"))
    else
      MulLe(level, 1.0, maxP);
      NewBattery(capacity, maxP, minP, efficiency, start, level)
  }

  /** With the default degradation parameters an EV battery can only be built with a minimum
      charge power of exactly 0: the generic constructor asks for `0 * max >= min`. */
  lemma EVDefaultsForceZeroMin(capacity: real, maxP: real, minP: real, efficiency: real)
    requires NewEVBattery(capacity, maxP, minP, efficiency, 1.0, 0.0).Ok?
    ensures minP == 0.0
  {
  }

  /** `Battery.to_dict()`: the instance attributes of an EV battery. */
  function ToDict(b: Battery): map<string, real> {
    map[
      "capacity" := b.capacity,
      "max_charge_power" := b.maxChargePower,
      "min_charge_power" := b.minChargePower,
      "efficiency" := b.efficiency,
      "start_power_degradation" := b.startPowerDegradation,
      "max_degradation_level" := b.maxDegradationLevel]
  }

  predicate HasNecessaryKeys(kw: map<string, real>) {
    && "capacity" in kw && "max_charge_power" in kw
    && "min_charge_power" in kw && "efficiency" in kw
  }

  /** `Battery.from_dict(**kwargs)` as written: the degradation branch is taken whenever
      `max_degradation_level` is present (the string `"start_power_degradation"` on the left
      of `and` is always true), so a dictionary holding only that key fails on the lookup of
      `start_power_degradation`. */
  function FromDict(kw: map<string, real>): (r: Result<Battery>)
    ensures !HasNecessaryKeys(kw) ==> r == Err(AssertionError)
    ensures r == Err(KeyError) <==>
      HasNecessaryKeys(kw) && "max_degradation_level" in kw && "start_power_degradation" !in kw
    ensures HasNecessaryKeys(kw) && "start_power_degradation" in kw && "max_degradation_level" in kw
      ==> r == NewEVBattery(kw["capacity"], kw["max_charge_power"], kw["min_charge_power"],
                            kw["efficiency"], kw["start_power_degradation"],
                            kw["max_degradation_level"])
    ensures HasNecessaryKeys(kw) && "max_degradation_level" !in kw
      ==> r == NewEVBattery(kw["capacity"], kw["max_charge_power"], kw["min_charge_power"],
                            kw["efficiency"], 1.0, 0.0)
  {
    if !HasNecessaryKeys(kw) then
      Err(AssertionError)
    else if "max_degradation_level" in kw then
      if "start_power_degradation" !in kw then
        Err(KeyError)
      else
        NewEVBattery(kw["capacity"], kw["max_charge_power"], kw["min_charge_power"],
                     kw["efficiency"], kw["start_power_degradation"], kw["max_degradation_level"])
    else
      NewEVBattery(kw["capacity"], kw["max_charge_power"], kw["min_charge_power"],
                   kw["efficiency"], 1.0, 0.0)
  }

  /** The degradation parameters the intended reading takes: both given, or the defaults. */
  function DegradationStart(kw: map<string, real>): real {
    if "start_power_degradation" in kw && "max_degradation_level" in kw
    then kw["start_power_degradation"] else 1.0
  }

  function DegradationLevel(kw: map<string, real>): real {
    if "start_power_degradation" in kw && "max_degradation_level" in kw
    then kw["max_degradation_level"] else 0.0
  }

  /** `Battery.from_dict` as evidently intended: the degradation parameters are used when both
      are present and the defaults apply otherwise, so no lookup can fail. */
  function FromDictIntended(kw: map<string, real>): (r: Result<Battery>)
    ensures r.Err? ==> r.error != KeyError
    ensures !HasNecessaryKeys(kw) ==> r == Err(AssertionError)
    ensures HasNecessaryKeys(kw) ==>
      r == NewEVBattery(kw["capacity"], kw["max_charge_power"], kw["min_charge_power"],
                        kw["efficiency"], DegradationStart(kw), DegradationLevel(kw))
  {
    if !HasNecessaryKeys(kw) then
      Err(AssertionError)
    else
      NewEVBattery(kw["capacity"], kw["max_charge_power"], kw["min_charge_power"],
                   kw["efficiency"], DegradationStart(kw), DegradationLevel(kw))
  }

  /** The two readings agree on every dictionary except one that names the degradation level
      without the knee. */
  lemma FromDictAgreesWithIntended(kw: map<string, real>)
    requires !("max_degradation_level" in kw && "start_power_degradation" !in kw)
    ensures FromDict(kw) == FromDictIntended(kw)
  {
  }

  /** A dictionary without `start_power_degradation` but with `max_degradation_level` makes
      `from_dict` raise KeyError, while the intended reading builds the battery with the
      default curve. */
  lemma FromDictKeyErrorExample()
    ensures var kw := map["capacity" := 50.0, "max_charge_power" := 11.0,
                          "min_charge_power" := 0.0, "efficiency" := 0.9,
                          "max_degradation_level" := 0.5];
      && FromDict(kw) == Err(KeyError)
      && FromDictIntended(kw) == Ok(Battery(50.0, 11.0, 0.0, 0.9, 1.0, 0.0))
  {
    var kw := map["capacity" := 50.0, "max_charge_power" := 11.0,
                  "min_charge_power" := 0.0, "efficiency" := 0.9,
                  "max_degradation_level" := 0.5];
    assert "start_power_degradation" !in kw;
  }

  /** `from_dict(**to_dict())` rebuilds every EV battery exactly. */
  lemma DictRoundTrip(b: Battery)
    requires NewEVBattery(b.capacity, b.maxChargePower, b.minChargePower, b.efficiency,
                          b.startPowerDegradation, b.maxDegradationLevel).Ok?
    ensures FromDict(ToDict(b)) == Ok(b)
    ensures FromDictIntended(ToDict(b)) == Ok(b)
  {
  }

  // ---------------------------------------------------------------------------------------
  // StationaryBattery

  /** The `floor` helper used by `max_discharge_power`: rounds down to 3 decimal places. */
  function Floor3(x: real): (r: real)
    ensures r <= x < r + 0.001
    ensures x >= 0.0 ==> r >= 0.0
    ensures (r * 1000.0).Floor as real == r * 1000.0
  {
    (x * 1000.0).Floor as real / 1000.0
  }

  /** Length of a simulation step in hours (`step_length.total_seconds() / 3600`). */
  function Hours(stepSeconds: int): real {
    stepSeconds as real / 3600.0
  }

  function RMin(a: real, b: real): real { if a <= b then a else b }
  function RMax(a: real, b: real): real { if a >= b then a else b }

  /** `StationaryBattery.__init__`'s checks in order: each SOC must be a probability (the
      error carries the offending value), the floor may not exceed the start, and then the
      generic constructor's assertions. */
  function StationaryBatteryCheck(capacity: real, maxP: real, minP: real, efficiency: real,
                                  initialSoc: real, minSoc: real, start: real, level: real)
    : (r: Result<()>)
    ensures r.Ok? <==>
      0.0 <= minSoc <= initialSoc <= 1.0
      && BatteryParamsOk(capacity, maxP, minP, efficiency, start, level)
    ensures !(0.0 <= initialSoc <= 1.0) ==> r == Err(InvalidSOCError(initialSoc))
    ensures 0.0 <= initialSoc <= 1.0 && !(0.0 <= minSoc <= 1.0) ==> r == Err(InvalidSOCError(minSoc))
    ensures 0.0 <= initialSoc <= 1.0 && 0.0 <= minSoc <= 1.0 && minSoc > initialSoc
      ==> r == Err(InvalidParameterError("min_soc"))
  {
    if SimTypes.EnsureSoc(initialSoc).Err? then Err(InvalidSOCError(initialSoc))
    else if SimTypes.EnsureSoc(minSoc).Err? then Err(InvalidSOCError(minSoc))
    else if minSoc > initialSoc then Err(InvalidParameterError("min_soc"))
    else match NewBattery(capacity, maxP, minP, efficiency, start, level)
      case Err(e) => Err(e)
      case Ok(_) => Ok(())
  }

  /** A stationary storage battery with its SOC, last realised power and SOC history. */
  class StationaryBattery {
    const battery: Battery
    const minSoc: real
    var soc: real
    var power: real
    var socTime: seq<real>

    /** What `check_soc` enforces after every change, plus the constructor's guarantees. */
    predicate Valid()
      reads this
    {
      && ValidBattery(battery)
      && 0.0 <= minSoc <= 1.0
      && 0.0 <= soc <= 1.0
    }

    /** The floor `discharge` keeps the SOC above (not checked by `check_soc`). */
    predicate AboveMinSoc()
      reads this
    {
      minSoc <= soc
    }

    constructor(capacity: real, maxP: real, minP: real, efficiency: real,
                initialSoc: real, minSoc: real, start: real, level: real)
      requires StationaryBatteryCheck(capacity, maxP, minP, efficiency, initialSoc, minSoc,
                                      start, level).Ok?
      ensures Valid() && AboveMinSoc()
      ensures battery == Battery(capacity, maxP, minP, efficiency, start, level)
      ensures soc == initialSoc && this.minSoc == minSoc && power == 0.0 && socTime == []
    {
      battery := Battery(capacity, maxP, minP, efficiency, start, level);
      this.minSoc := minSoc;
      soc := initialSoc;
      power := 0.0;
      socTime := [];
    }

    /** Power that would bring the SOC to `minSoc` at the end of a step in which `cur` is
        already being discharged. */
    function PowerToEmpty(cur: real, stepSeconds: int): real
      reads this
      requires battery.capacity > 0.0 && stepSeconds > 0
    {
      var h := Hours(stepSeconds);
      (soc - cur / battery.capacity * h - minSoc) * battery.capacity / h
    }

    lemma PowerToEmptyWithNothingAssigned(stepSeconds: int)
      requires battery.capacity > 0.0 && stepSeconds > 0
      ensures PowerToEmpty(0.0, stepSeconds)
              == (soc - minSoc) * battery.capacity / Hours(stepSeconds)
    {
      assert 0.0 / battery.capacity * Hours(stepSeconds) == 0.0;
    }

    /** `max_discharge_power(cur, step)`: the smaller of the power headroom and the power that
        empties the battery down to `minSoc`, at least 0, rounded down to 3 decimals. */
    function MaxDischargePower(cur: real, stepSeconds: int): (p: real)
      reads this
      requires battery.capacity > 0.0 && stepSeconds > 0
      ensures p >= 0.0
      ensures p > 0.0 ==> p <= battery.maxChargePower - cur && p <= PowerToEmpty(cur, stepSeconds)
      ensures RMax(RMin(battery.maxChargePower - cur, PowerToEmpty(cur, stepSeconds)), 0.0)
              < p + 0.001
    {
      Floor3(RMax(RMin(battery.maxChargePower - cur, PowerToEmpty(cur, stepSeconds)), 0.0))
    }

    /** `charge(available, step)`: charges with the least of the power that fills the battery,
        the maximum charge power and the available power. A negative offer is an
        AssertionError before any change; a SOC driven out of [0, 1] (only possible with a
        negative maximum power) is an AssertionError after the SOC has changed. */
    method Charge(available: real, stepSeconds: int) returns (r: Result<real>)
      requires Valid() && stepSeconds > 0
      modifies this
      ensures available < 0.0 ==> r == Err(AssertionError) && unchanged(this)
      ensures available >= 0.0 && battery.maxChargePower >= 0.0 ==> r.Ok?
      ensures r.Ok? ==>
        && r.value == ChargePower(old(soc), battery, Hours(stepSeconds), available)
        && soc == SocAfterCharge(old(soc), battery, Hours(stepSeconds), r.value)
        && power == r.value
        && socTime == old(socTime) + [soc]
      ensures r.Ok? ==> Valid() && r.value <= available && r.value <= battery.maxChargePower
      ensures r.Ok? && battery.maxChargePower >= 0.0 ==> old(soc) <= soc
      ensures r.Ok? && old(AboveMinSoc()) && battery.maxChargePower >= 0.0 ==> AboveMinSoc()
      ensures r.Err? && available >= 0.0 ==>
        && soc == SocAfterCharge(old(soc), battery, Hours(stepSeconds),
                                 ChargePower(old(soc), battery, Hours(stepSeconds), available))
        && !(0.0 <= soc <= 1.0)
        && power == old(power) && socTime == old(socTime)
    {
      if available < 0.0 {
        return Err(AssertionError);
      }
      var h := Hours(stepSeconds);
      var p := ChargePower(soc, battery, h, available);
      ChargeStep(soc, battery, h, available);
      soc := SocAfterCharge(soc, battery, h, p);
      if !(0.0 <= soc <= 1.0) {
        return Err(AssertionError);
      }
      power := p;
      socTime := socTime + [soc];
      return Ok(p);
    }

    /** `discharge(p, step)`: a negative request is an AssertionError and a request above
        `max_discharge_power(0, step)` a ValueError, both before any change; otherwise the
        battery delivers `p`, its SOC falls by `p * h / capacity` and stays at or above
        `minSoc`, so `check_soc` always passes. */
    method Discharge(p: real, stepSeconds: int) returns (r: Result<()>)
      requires Valid() && stepSeconds > 0
      modifies this
      ensures p < 0.0 ==> r == Err(AssertionError)
      ensures p >= 0.0 ==> (r.Err? <==> old(MaxDischargePower(0.0, stepSeconds)) < p)
      ensures p >= 0.0 && r.Err? ==> r.error == ValueError
      ensures r.Err? ==> unchanged(this)
      ensures r.Ok? ==>
        && power == -p
        && soc == old(soc) - p * Hours(stepSeconds) / battery.capacity
        && socTime == old(socTime) + [soc]
      ensures r.Ok? ==> Valid() && soc <= old(soc)
      ensures r.Ok? && (p > 0.0 || old(AboveMinSoc())) ==> AboveMinSoc()
    {
      if p < 0.0 {
        return Err(AssertionError);
      }
      var maxDischarge := MaxDischargePower(0.0, stepSeconds);
      if maxDischarge < p {
        return Err(ValueError);
      }
      var h := Hours(stepSeconds);
      PowerToEmptyWithNothingAssigned(stepSeconds);
      DischargeStep(soc, minSoc, battery, h, p);
      power := -p;
      soc := soc - p * h / battery.capacity;
      socTime := socTime + [soc];
      return Ok(());
    }
  }

  /** The power `charge` realises: `min(max_power_to_full, max_charge_power, available)`. */
  function ChargePower(soc: real, b: Battery, h: real, available: real): real
    requires b.capacity > 0.0 && h > 0.0
  {
    RMin(RMin((1.0 - soc) * b.capacity / h, b.maxChargePower), available)
  }

  /** The SOC after charging with power `p` for `h` hours: the energy `p * h` over the
      capacity. */
  function SocAfterCharge(soc: real, b: Battery, h: real, p: real): real
    requires b.capacity > 0.0
  {
    soc + p * h / b.capacity
  }

  /** Charging never overfills, and with a non-negative maximum it never lowers the SOC. */
  lemma ChargeStep(soc: real, b: Battery, h: real, available: real)
    requires b.capacity > 0.0 && h > 0.0 && 0.0 <= soc <= 1.0 && available >= 0.0
    ensures var p := ChargePower(soc, b, h, available);
      && p <= available && p <= b.maxChargePower
      && SocAfterCharge(soc, b, h, p) <= 1.0
      && (b.maxChargePower >= 0.0 ==> soc <= SocAfterCharge(soc, b, h, p))
  {
    var p := ChargePower(soc, b, h, available);
    ScaledStep(p, 1.0 - soc, b.capacity, h);
    if b.maxChargePower >= 0.0 {
      ChargeNonNegative(soc, b, h, available);
    }
  }

  lemma ChargeNonNegative(soc: real, b: Battery, h: real, available: real)
    requires b.capacity > 0.0 && h > 0.0 && 0.0 <= soc <= 1.0 && available >= 0.0
    requires b.maxChargePower >= 0.0
    ensures 0.0 <= ChargePower(soc, b, h, available) * h / b.capacity
  {
    var p := ChargePower(soc, b, h, available);
    MulLe(0.0, 1.0 - soc, b.capacity);
    DivLe(0.0, (1.0 - soc) * b.capacity, h);
    MulLe(0.0, p, h);
    DivLe(0.0, p * h, b.capacity);
  }

  /** A discharge within `max_discharge_power(0, step)` removes a non-negative amount of SOC
      and no more than lies above `minSoc`. */
  lemma DischargeStep(soc: real, minSoc: real, b: Battery, h: real, p: real)
    requires b.capacity > 0.0 && h > 0.0 && p >= 0.0
    requires p > 0.0 ==> p <= (soc - minSoc) * b.capacity / h
    ensures 0.0 <= p * h / b.capacity
    ensures p == 0.0 ==> p * h / b.capacity == 0.0
    ensures p > 0.0 ==> p * h / b.capacity <= soc - minSoc
  {
    if p > 0.0 {
      ScaledStep(p, soc - minSoc, b.capacity, h);
    }
    MulLe(0.0, p, h);
    DivLe(0.0, p * h, b.capacity);
  }

  /** Builds a stationary battery, or the error its constructor raises. */
  method NewStationaryBattery(capacity: real, maxP: real, minP: real, efficiency: real,
                              initialSoc: real, minSoc: real, start: real, level: real)
    returns (r: Result<StationaryBattery>)
    ensures r.Err? <==> StationaryBatteryCheck(capacity, maxP, minP, efficiency, initialSoc,
                                               minSoc, start, level).Err?
    ensures r.Err? ==> r.error == StationaryBatteryCheck(capacity, maxP, minP, efficiency,
                                                         initialSoc, minSoc, start, level).error
    ensures r.Ok? ==>
      fresh(r.value) && r.value.Valid() && r.value.AboveMinSoc()
      && r.value.soc == initialSoc && r.value.socTime == []
  {
    var check := StationaryBatteryCheck(capacity, maxP, minP, efficiency, initialSoc, minSoc,
                                        start, level);
    if check.Err? {
      return Err(check.error);
    }
    var battery := new StationaryBattery(capacity, maxP, minP, efficiency, initialSoc, minSoc,
                                         start, level);
    return Ok(battery);
  }
}

=== FILE: enums.dfy ===
/** Enumerations of the configuration (elvis/enums.py): scheduling policy types with their
    legacy aliases, and the sampling methods. */
module Enums {
  import opened Outcomes
  import opened PyText

  datatype SchedulingPolicyType = Uncontrolled | DiscriminationFree | Fcfs | WithStorage | Optimized

  /** The enum member's `.value`. */
  function Value(p: SchedulingPolicyType): string {
    match p
    case Uncontrolled => "uncontrolled"
    case DiscriminationFree => "discrimination_free"
    case Fcfs => "fcfs"
    case WithStorage => "with_storage"
    case Optimized => "optimized"
  }

  /** The members in declaration order, the order `for policy in cls` visits them. */
  const Members: seq<SchedulingPolicyType> :=
    [Uncontrolled, DiscriminationFree, Fcfs, WithStorage, Optimized]

  /** `value.strip().lower().replace(" ", "_")`. */
  function Normalize(s: string): string {
    ReplaceChar(Lower(Strip(s)), ' ', '_')
  }

  /** The nine-entry table of names and legacy aliases. */
  const LegacyMappings: map<string, SchedulingPolicyType> := map[
    "uncontrolled" := Uncontrolled,
    "uc" := Uncontrolled,
    "discrimination_free" := DiscriminationFree,
    "df" := DiscriminationFree,
    "fcfs" := Fcfs,
    "with_storage" := WithStorage,
    "ws" := WithStorage,
    "optimized" := Optimized,
    "opt" := Optimized]

  /** The direct value search: the first member of `members` whose value is `s`. */
  function MatchValue(members: seq<SchedulingPolicyType>, s: string)
    : (r: Option<SchedulingPolicyType>)
    ensures r.Some? ==> r.value in members && Value(r.value) == s
    ensures r.None? <==> forall i :: 0 <= i < |members| ==> Value(members[i]) != s
  {
    if members == [] then None
    else if Value(members[0]) == s then Some(members[0])
    else MatchValue(members[1..], s)
  }

  /** `SchedulingPolicyType.from_string(value)`: the table first, then the value search, else
      ValueError. The value search never finds anything the table missed, so exactly the
      strings whose normal form is a table key are accepted. */
  function FromString(s: string): (r: Result<SchedulingPolicyType>)
    ensures r.Ok? <==> Normalize(s) in LegacyMappings
    ensures r.Ok? ==> r.value == LegacyMappings[Normalize(s)]
    ensures r.Err? ==> r.error == ValueError
  {
    var normalized := Normalize(s);
    if normalized in LegacyMappings then
      Ok(LegacyMappings[normalized])
    else
      match MatchValue(Members, normalized)
      case Some(p) =>
        ValueIsKey(p);
        assert false;
        Ok(p)
      case None => Err(ValueError)
  }

  lemma ValueIsKey(p: SchedulingPolicyType)
    ensures Value(p) in LegacyMappings && LegacyMappings[Value(p)] == p
  {
  }

  /** A name already in normal form is looked up as it stands. */
  lemma FromNormalName(s: string)
    requires IsPlainName(s)
    ensures FromString(s) == if s in LegacyMappings then Ok(LegacyMappings[s]) else Err(ValueError)
  {
    NormalFixed(s);
  }

  lemma NormalFixed(s: string)
    requires IsPlainName(s)
    ensures Normalize(s) == s
  {
    PlainNameFixed(s);
  }

  /** Every member's value names that member. */
  lemma FromStringValue(p: SchedulingPolicyType)
    ensures FromString(Value(p)) == Ok(p)
  {
    ValueIsKey(p);
    ValueIsPlainName(p);
    FromNormalName(Value(p));
  }

  lemma ValueIsPlainName(p: SchedulingPolicyType)
    ensures IsPlainName(Value(p))
  {
  }

  lemma KeysArePlainNames(s: string)
    requires s in LegacyMappings
    ensures IsPlainName(s)
  {
    if s == "discrimination_free" {
    } else if s == "uncontrolled" {
    } else if s == "with_storage" {
    } else if s == "optimized" {
    }
  }

  /** Every name in the table, the short aliases `uc`, `df`, `ws` and `opt` included, is
      accepted as it stands and mapped to its entry. */
  lemma FromStringTableNames(s: string)
    requires s in LegacyMappings
    ensures FromString(s) == Ok(LegacyMappings[s])
  {
    KeysArePlainNames(s);
    FromNormalName(s);
  }

  /** Normalising twice is normalising once. */
  lemma NormalizeIdempotent(s: string)
    ensures Normalize(Normalize(s)) == Normalize(s)
  {
    var n := Normalize(s);
    StripEnds(s);
    if n != [] {
      assert !IsSpace(n[0]) && !IsSpace(n[|n| - 1]);
    }
    StripFixed(n);
    assert Lower(n) == n;
    assert ReplaceChar(n, ' ', '_') == n;
  }

  /** `from_string` only sees the normal form of its argument. */
  lemma FromStringOfNormalized(s: string)
    ensures FromString(Normalize(s)) == FromString(s)
  {
    NormalizeIdempotent(s);
  }

  datatype SampleMethod = IndependentNormalDist | Gmm

  function SampleValue(m: SampleMethod): string {
    match m
    case IndependentNormalDist => "independent_normal_dist"
    case Gmm => "gmm"
  }

  const SampleMembers: seq<SampleMethod> := [IndependentNormalDist, Gmm]

  function MatchSampleValue(members: seq<SampleMethod>, s: string): (r: Option<SampleMethod>)
    ensures r.Some? ==> r.value in members && SampleValue(r.value) == s
    ensures r.None? <==> forall i :: 0 <= i < |members| ==> SampleValue(members[i]) != s
  {
    if members == [] then None
    else if SampleValue(members[0]) == s then Some(members[0])
    else MatchSampleValue(members[1..], s)
  }

  /** `SampleMethod.from_string(value)`: strips and lowercases only, then accepts exactly the
      two member values. */
  function SampleFromString(s: string): (r: Result<SampleMethod>)
    ensures r.Ok? <==> Lower(Strip(s)) in {"independent_normal_dist", "gmm"}
    ensures r.Ok? ==> SampleValue(r.value) == Lower(Strip(s))
    ensures r.Err? ==> r.error == ValueError
  {
    match MatchSampleValue(SampleMembers, Lower(Strip(s)))
    case Some(m) => Ok(m)
    case None =>
      assert SampleValue(SampleMembers[0]) != Lower(Strip(s));
      assert SampleValue(SampleMembers[1]) != Lower(Strip(s));
      Err(ValueError)
  }

  lemma SampleFromStringValue(m: SampleMethod)
    ensures SampleFromString(SampleValue(m)) == Ok(m)
  {
    SampleValueIsPlainName(m);
    PlainNameFixed(SampleValue(m));
  }

  lemma SampleValueIsPlainName(m: SampleMethod)
    ensures IsPlainName(SampleValue(m))
  {
  }

  /** Unlike the policy names, a sample method written with a space inside is not accepted:
      neither value holds a space. */
  lemma SampleFromStringKeepsSpaces(s: string)
    requires ' ' in Lower(Strip(s))
    ensures SampleFromString(s).Err?
  {
    var n := Lower(Strip(s));
    var r := SampleFromString(s);
    if r.Ok? {
      var i :| 0 <= i < |n| && n[i] == ' ';
      SampleValueIsPlainName(r.value);
      assert false;
    }
  }
}

=== FILE: events.dfy ===
/** Charging events and the view of a connected vehicle that a charging point exposes
    (`cp.connected_vehicle`). The classes behind them (`ChargingEvent`, `ChargingPoint`)
    are collaborators of the simulation; only the fields the simulation reads are kept. */
module Events {

  /** A vehicle's visit: when it arrives, when it must leave, its SOC on arrival and the SOC
      it wants to reach. Timestamps are seconds. */
  datatype ChargingEvent = ChargingEvent(
    id: nat,
    arrivalTime: int,
    leavingTime: int,
    soc: real,
    socTarget: real)

  /** `cp.connected_vehicle`: the dict with `id`, `soc`, `soc_target` and `leaving_time`. */
  datatype VehicleView = VehicleView(id: nat, soc: real, socTarget: real, leavingTime: int)

  /** What `cp.connect_vehicle(event)` makes visible at the point. */
  function ViewOf(e: ChargingEvent): (v: VehicleView)
    ensures v.id == e.id && v.leavingTime == e.leavingTime
    ensures v.soc == e.soc && v.socTarget == e.socTarget
  {
    VehicleView(e.id, e.soc, e.socTarget, e.leavingTime)
  }
}

=== FILE: outcomes.dfy ===
/** Error outcomes shared by every module of the model.
    Python exceptions become `Err` values; the exception class is kept in `Error`. */
module Outcomes {

  /** The exception classes the modelled code raises. */
  datatype Error =
    | AssertionError          // a failed `assert` statement
    | ValueError              // ValueError raised explicitly or by a helper
    | TypeError
    | KeyError                // a missing dictionary key
    | IndexError              // a list index out of range
    | ZeroDivisionError
    | InvalidParameterError(parameter: string)
    | InvalidSOCError(value: real)

  datatype Result<+T> = Ok(value: T) | Err(error: Error) {
    /** The members `:-` uses to pass an error on. */
    predicate IsFailure() {
      Err?
    }

    function PropagateFailure<U>(): Result<U>
      requires Err?
    {
      Err(error)
    }

    function Extract(): T
      requires Ok?
    {
      value
    }
  }

  datatype Option<+T> = None | Some(value: T)
}

=== FILE: scenario_config.dfy ===
/** The configuration objects the setter mixins of elvis/config write to: the fields of
    `ScenarioConfig` that the scheduling, time, vehicle and validation components read or set,
    and the two fields of a scenario realisation that its handlers set. */
module ScenarioConfigs {
  import opened Outcomes
  import opened Values
  import Batteries

  /** A vehicle type: brand, model, battery and the probability weight of the type. */
  datatype ElectricVehicle = ElectricVehicle(
    brand: string,
    model: string,
    battery: Batteries.Battery,
    probability: real)

  /** A scheduling policy object: one of the five built-in schedulers, or an instance of some
      other scheduling policy class (identified by its class name). */
  datatype Scheduler =
    | UncontrolledScheduler
    | DiscriminationFreeScheduler
    | FcfsScheduler
    | WithStorageScheduler
    | OptimizedScheduler
    | UserScheduler(className: string)

  /** All fields of a configuration at one moment, so that a setter can say which one it
      changed and that the others kept their values. */
  datatype ConfigState = ConfigState(
    arrivalDistribution: Option<Value>,
    vehicleTypes: seq<ElectricVehicle>,
    meanPark: Option<real>,
    stdDeviationPark: Option<real>,
    meanSoc: Option<real>,
    stdDeviationSoc: Option<real>,
    maxParkingTime: real,
    numChargingEvents: Option<int>,
    infrastructure: Option<Value>,
    queueLength: Option<int>,
    disconnectByTime: Option<bool>,
    openingHours: Option<(real, real)>,
    schedulingPolicy: Option<Scheduler>)

  class ScenarioConfig {
    var arrivalDistribution: Option<Value>
    var vehicleTypes: seq<ElectricVehicle>
    var meanPark: Option<real>
    var stdDeviationPark: Option<real>
    var meanSoc: Option<real>
    var stdDeviationSoc: Option<real>
    var maxParkingTime: real
    var numChargingEvents: Option<int>
    var infrastructure: Option<Value>
    var queueLength: Option<int>
    var disconnectByTime: Option<bool>
    var openingHours: Option<(real, real)>
    var schedulingPolicy: Option<Scheduler>

    function State(): ConfigState
      reads this
    {
      ConfigState(arrivalDistribution, vehicleTypes, meanPark, stdDeviationPark, meanSoc,
                  stdDeviationSoc, maxParkingTime, numChargingEvents, infrastructure,
                  queueLength, disconnectByTime, openingHours, schedulingPolicy)
    }

    /** `ScenarioConfig()` without keyword arguments: every optional field unset, no vehicle
        types, and a maximum parking time of 24 hours. */
    constructor()
      ensures State() == ConfigState(None, [], None, None, None, None, 24.0, None, None,
                                     None, None, None, None)
    {
      arrivalDistribution := None;
      vehicleTypes := [];
      meanPark := None;
      stdDeviationPark := None;
      meanSoc := None;
      stdDeviationSoc := None;
      maxParkingTime := 24.0;
      numChargingEvents := None;
      infrastructure := None;
      queueLength := None;
      disconnectByTime := None;
      openingHours := None;
      schedulingPolicy := None;
    }
  }

  /** The fields of a scenario realisation that its opening-hours and scheduling handlers
      set. */
  class ScenarioRealisation {
    var openingHours: Option<(real, real)>
    var schedulingPolicy: Option<Scheduler>

    constructor()
      ensures openingHours == None && schedulingPolicy == None
    {
      openingHours := None;
      schedulingPolicy := None;
    }
  }
}

=== FILE: scheduling.dfy ===
/** Scheduling configuration (elvis/config/scheduling.py): choosing the scheduling policy of a
    configuration or of a realisation from a policy object, a policy type or a name, and the
    queue-length and disconnection-mode setters. The two ways of reading a policy name
    normalise it differently; `JoinedNamesDisagree` and `TabLedNamesDisagree` show names on
    which they part. */
module SchedulingConfig {
  import opened Outcomes
  import opened Values
  import opened PyText
  import Enums
  import Validation
  import opened ScenarioConfigs

  /** The argument of the policy setters: an object that already is a scheduling policy, a
      member of `SchedulingPolicyType`, a `str`, or any other object together with the text
      `str()` gives for it. */
  datatype PolicyArg =
    | PolicyInstance(scheduler: Scheduler)
    | PolicyMember(policy: Enums.SchedulingPolicyType)
    | PolicyStr(s: string)
    | PolicyOther(text: string)

  /** `policy_mapping`: the scheduler built for each policy type. */
  function SchedulerOf(p: Enums.SchedulingPolicyType): (r: Scheduler)
    ensures !r.UserScheduler?
  {
    match p
    case Uncontrolled => UncontrolledScheduler
    case DiscriminationFree => DiscriminationFreeScheduler
    case Fcfs => FcfsScheduler
    case WithStorage => WithStorageScheduler
    case Optimized => OptimizedScheduler
  }

  /** Different policy types get different schedulers. */
  lemma SchedulerOfInjective(p: Enums.SchedulingPolicyType, q: Enums.SchedulingPolicyType)
    ensures SchedulerOf(p) == SchedulerOf(q) ==> p == q
  {
  }

  /** The normal form `handle_scheduling_policy` compares: lowercased, with every space and
      every underscore deleted (other whitespace is kept). */
  function LooseNormalize(s: string): string {
    DeleteChar(DeleteChar(Lower(s), ' '), '_')
  }

  /** The names the `if`/`elif` chain of `handle_scheduling_policy` recognises. */
  const LooseNames: map<string, Enums.SchedulingPolicyType> := map[
    "uncontrolled" := Enums.Uncontrolled,
    "uc" := Enums.Uncontrolled,
    "discriminationfree" := Enums.DiscriminationFree,
    "df" := Enums.DiscriminationFree,
    "fcfs" := Enums.Fcfs,
    "withstorage" := Enums.WithStorage,
    "ws" := Enums.WithStorage,
    "optimized" := Enums.Optimized,
    "opt" := Enums.Optimized]

  /** The `if`/`elif` chain on a normalised name; an unmatched name gets the default. */
  function MatchLooseName(n: string): (r: Scheduler)
    ensures r == if n in LooseNames then SchedulerOf(LooseNames[n]) else UncontrolledScheduler
  {
    if n in {"uncontrolled", "uc"} then UncontrolledScheduler
    else if n in {"discriminationfree", "df"} then DiscriminationFreeScheduler
    else if n == "fcfs" then FcfsScheduler
    else if n in {"withstorage", "ws"} then WithStorageScheduler
    else if n in {"optimized", "opt"} then OptimizedScheduler
    else UncontrolledScheduler
  }

  /** The policy `handle_scheduling_policy` assigns. It never fails: a policy object is kept,
      anything that is not a `str` (a policy type member included) gets Uncontrolled, and a
      string is matched in its loose normal form, with Uncontrolled for an unknown name. */
  function HandledPolicy(arg: PolicyArg): (r: Scheduler)
    ensures arg.PolicyInstance? ==> r == arg.scheduler
    ensures arg.PolicyMember? || arg.PolicyOther? ==> r == UncontrolledScheduler
    ensures arg.PolicyStr? ==>
      r == (if LooseNormalize(arg.s) in LooseNames
            then SchedulerOf(LooseNames[LooseNormalize(arg.s)]) else UncontrolledScheduler)
    ensures !arg.PolicyInstance? ==> !r.UserScheduler?
  {
    match arg
    case PolicyInstance(s) => s
    case PolicyStr(s) => MatchLooseName(LooseNormalize(s))
    case _ => UncontrolledScheduler
  }

  /** `SchedulingRealisationHandler.handle_scheduling_policy(realisation, input)`. */
  method HandleSchedulingPolicy(realisation: ScenarioRealisation, arg: PolicyArg)
    modifies realisation
    ensures realisation.schedulingPolicy == Some(HandledPolicy(arg))
    ensures realisation.openingHours == old(realisation.openingHours)
  {
    realisation.schedulingPolicy := Some(HandledPolicy(arg));
  }

  /** The policy `with_scheduling_policy` assigns: a policy object is kept, a policy type is
      mapped to its scheduler, and anything else is turned into text and validated as a
      policy name in the strict normal form of `from_string`; a name that fails validation
      falls back to Uncontrolled. */
  function ChosenPolicy(arg: PolicyArg): (r: Scheduler)
    ensures arg.PolicyInstance? ==> r == arg.scheduler
    ensures arg.PolicyMember? ==> r == SchedulerOf(arg.policy)
    ensures arg.PolicyStr? || arg.PolicyOther? ==>
      var text := if arg.PolicyStr? then arg.s else arg.text;
      r == (if Enums.Normalize(text) in Enums.LegacyMappings
            then SchedulerOf(Enums.LegacyMappings[Enums.Normalize(text)])
            else UncontrolledScheduler)
    ensures !arg.PolicyInstance? ==> !r.UserScheduler?
  {
    match arg
    case PolicyInstance(s) => s
    case PolicyMember(p) => SchedulerOf(p)
    case PolicyStr(s) => FromText(s)
    case PolicyOther(text) => FromText(text)
  }

  function FromText(text: string): Scheduler {
    match Validation.ValidateSchedulingPolicyString(StrV(text))
    case Accepted(p) => SchedulerOf(p)
    case Rejected(_) => UncontrolledScheduler
  }

  /** `with_scheduling_policy(input)`: sets the policy and nothing else. */
  method WithSchedulingPolicy(c: ScenarioConfig, arg: PolicyArg)
    modifies c
    ensures c.State() == old(c.State()).(schedulingPolicy := Some(ChosenPolicy(arg)))
  {
    c.schedulingPolicy := Some(ChosenPolicy(arg));
  }

  /** Every name of the `from_string` table, written as it stands, selects the same scheduler
      through both setters. */
  lemma TableNamesAgree(k: string)
    requires k in Enums.LegacyMappings
    ensures HandledPolicy(PolicyStr(k)) == SchedulerOf(Enums.LegacyMappings[k])
    ensures ChosenPolicy(PolicyStr(k)) == SchedulerOf(Enums.LegacyMappings[k])
  {
    Enums.FromStringTableNames(k);
    LooseKey(k);
  }

  /** A name of lower-case letters only. */
  predicate IsLowerWord(s: string) {
    forall i :: 0 <= i < |s| ==> 'a' <= s[i] <= 'z'
  }

  /** Such a name is its own loose and strict normal form. */
  lemma LowerWordFixed(s: string)
    requires IsLowerWord(s)
    ensures LooseNormalize(s) == s && IsPlainName(s)
  {
    LowerFixed(s);
    DeleteAbsent(s, ' ');
    DeleteAbsent(s, '_');
  }

  /** The loose normal form of a table name is the loose name of the same policy. */
  lemma LooseKey(k: string)
    requires k in Enums.LegacyMappings
    ensures LooseNormalize(k) in LooseNames
    ensures LooseNames[LooseNormalize(k)] == Enums.LegacyMappings[k]
  {
    KeyShapes(k);
    if IsLowerWord(k) {
      LowerWordFixed(k);
    } else {
      var a, b :| JoinedKey(k, a, b);
      JoinedWords(a, b);
    }
  }

  /** `k` is the words `a` and `b` joined by an underscore, and the two words written together
      are the loose name of the policy `k` names. */
  predicate JoinedKey(k: string, a: string, b: string)
    requires k in Enums.LegacyMappings
  {
    && IsLowerWord(a) && IsLowerWord(b) && k == a + "_" + b
    && a + b in LooseNames && LooseNames[a + b] == Enums.LegacyMappings[k]
  }

  /** A table name is either a plain word that is itself a loose name, or two words joined by
      an underscore. */
  lemma KeyShapes(k: string)
    requires k in Enums.LegacyMappings
    ensures IsLowerWord(k) ==> k in LooseNames && LooseNames[k] == Enums.LegacyMappings[k]
    ensures !IsLowerWord(k) ==> (exists a, b :: JoinedKey(k, a, b)) && (|k| == 19 || |k| == 12)
  {
    if k == "discrimination_free" {
      JoinedTableKeys();
      JoinedShape(k, "discrimination", "free");
    } else if k == "with_storage" {
      JoinedTableKeys();
      JoinedShape(k, "with", "storage");
    } else {
      OtherKeysAreWords(k);
    }
  }

  /** The two table names with an underscore, split at it. */
  lemma JoinedTableKeys()
    ensures "discrimination_free" in Enums.LegacyMappings
    ensures JoinedKey("discrimination_free", "discrimination", "free")
    ensures "with_storage" in Enums.LegacyMappings
    ensures JoinedKey("with_storage", "with", "storage")
  {
    assert "discrimination_free" == "discrimination" + "_" + "free";
    assert "discrimination" + "free" == "discriminationfree";
    assert "with_storage" == "with" + "_" + "storage";
    assert "with" + "storage" == "withstorage";
  }

  lemma JoinedShape(k: string, a: string, b: string)
    requires k in Enums.LegacyMappings && JoinedKey(k, a, b)
    ensures !IsLowerWord(k)
  {
    assert k[|a|] == '_';
  }

  /** The table names other than the two with an underscore are plain words. */
  lemma OtherKeysAreWords(k: string)
    requires k in Enums.LegacyMappings && k != "discrimination_free" && k != "with_storage"
    ensures IsLowerWord(k)
  {
    if k == "uncontrolled" {
    } else if k == "optimized" {
    }
  }

  /** Two words joined by an underscore lose the underscore in the loose normal form. */
  lemma JoinedWords(a: string, b: string)
    requires IsLowerWord(a) && IsLowerWord(b)
    ensures LooseNormalize(a + "_" + b) == a + b
  {
    var u := ['_'] + b;
    var s := a + u;
    assert a + "_" + b == s;
    assert Lower(s) == s by {
      forall i | 0 <= i < |s|
        ensures !('A' <= s[i] <= 'Z')
      {
        if i < |a| { assert s[i] == a[i]; }
        else if i == |a| { assert s[i] == '_'; }
        else { assert s[i] == b[i - |a| - 1]; }
      }
      LowerFixed(s);
    }
    assert DeleteChar(s, ' ') == s by {
      forall i | 0 <= i < |s|
        ensures s[i] != ' '
      {
        if i < |a| { assert s[i] == a[i]; }
        else if i == |a| { assert s[i] == '_'; }
        else { assert s[i] == b[i - |a| - 1]; }
      }
      DeleteAbsent(s, ' ');
    }
    assert DeleteChar(s, '_') == a + b by {
      DeleteCharAppend(a, u, '_');
      DeleteAbsent(a, '_');
      assert DeleteChar(u, '_') == b by {
        assert u[0] == '_' && u[1..] == b;
        DeleteAbsent(b, '_');
      }
    }
  }

  /** Deleting a character distributes over concatenation. */
  lemma {:induction false} DeleteCharAppend(a: string, b: string, c: char)
    ensures DeleteChar(a + b, c) == DeleteChar(a, c) + DeleteChar(b, c)
  {
    if a == [] {
      assert a + b == b;
    } else {
      assert (a + b)[0] == a[0] && (a + b)[1..] == a[1..] + b;
      DeleteCharAppend(a[1..], b, c);
    }
  }

  /** In particular every policy type's own value selects its scheduler through both. */
  lemma MemberValuesAgree(p: Enums.SchedulingPolicyType)
    ensures HandledPolicy(PolicyStr(Enums.Value(p))) == SchedulerOf(p)
    ensures ChosenPolicy(PolicyStr(Enums.Value(p))) == SchedulerOf(p)
    ensures ChosenPolicy(PolicyMember(p)) == SchedulerOf(p)
  {
    Enums.ValueIsKey(p);
    TableNamesAgree(Enums.Value(p));
  }

  /** The two normalisations part in both directions. A two-word policy name written without
      its underscore ("discriminationfree", "withstorage") is known to the realisation
      handler but makes the configuration setter fall back to Uncontrolled. */
  lemma JoinedNamesDisagree(a: string, b: string)
    requires IsLowerWord(a) && IsLowerWord(b)
    requires a + "_" + b in Enums.LegacyMappings
    ensures HandledPolicy(PolicyStr(a + b)) == SchedulerOf(Enums.LegacyMappings[a + "_" + b])
    ensures ChosenPolicy(PolicyStr(a + b)) == UncontrolledScheduler
  {
    JoinedNameHandled(a, b);
    JoinedNameNotChosen(a, b);
  }

  /** The realisation handler finds the joined name under its key. */
  lemma JoinedNameHandled(a: string, b: string)
    requires IsLowerWord(a) && IsLowerWord(b)
    requires a + "_" + b in Enums.LegacyMappings
    ensures HandledPolicy(PolicyStr(a + b)) == SchedulerOf(Enums.LegacyMappings[a + "_" + b])
  {
    var k := a + "_" + b;
    assert IsLowerWord(a + b);
    LowerWordFixed(a + b);
    LooseKey(k);
    JoinedWords(a, b);
  }

  /** The configuration setter does not know the joined name. */
  lemma JoinedNameNotChosen(a: string, b: string)
    requires IsLowerWord(a) && IsLowerWord(b)
    requires a + "_" + b in Enums.LegacyMappings
    ensures ChosenPolicy(PolicyStr(a + b)) == UncontrolledScheduler
  {
    var k := a + "_" + b;
    assert !IsLowerWord(k) by {
      assert k[|a|] == '_';
    }
    KeyShapes(k);
    assert IsLowerWord(a + b);
    LowerWordFixed(a + b);
    Enums.NormalFixed(a + b);
    assert a + b !in Enums.LegacyMappings by {
      NameLengths();
    }
  }

  /** And a name led by a tab (or any whitespace other than a space) is stripped by the
      configuration setter, but the realisation handler keeps the tab and falls back to
      Uncontrolled. */
  lemma TabLedNamesDisagree(k: string)
    requires k in Enums.LegacyMappings
    ensures ChosenPolicy(PolicyStr(['\t'] + k)) == SchedulerOf(Enums.LegacyMappings[k])
    ensures HandledPolicy(PolicyStr(['\t'] + k)) == UncontrolledScheduler
  {
    Enums.KeysArePlainNames(k);
    var t := ['\t'] + k;
    StripLeftSpace('\t', k);
    PlainNameFixed(k);
    assert Strip(t) == k by {
      assert k == [] || !IsSpace(k[0]);
      assert StripLeft(k) == k;
    }
    Enums.FromStringTableNames(k);
    Enums.NormalFixed(k);
    assert Enums.Normalize(t) == k;
    assert t[0] == '\t';
    LooseLeadingTab(k);
    LooseNamesStartWithLetters();
  }

  /** The loose normal form keeps a leading tab. */
  lemma LooseLeadingTab(s: string)
    ensures |LooseNormalize(['\t'] + s)| > 0 && LooseNormalize(['\t'] + s)[0] == '\t'
  {
    var t := ['\t'] + s;
    assert Lower(t) == ['\t'] + Lower(s) by {
      assert Lower(t)[0] == '\t';
      assert |Lower(t)| == |['\t'] + Lower(s)|;
    }
    DeleteCharAppend(['\t'], Lower(s), ' ');
    assert DeleteChar(['\t'], ' ') == ['\t'];
    DeleteCharAppend(['\t'], DeleteChar(Lower(s), ' '), '_');
    assert DeleteChar(['\t'], '_') == ['\t'];
  }

  /** Every loose name starts with a letter. */
  lemma LooseNamesStartWithLetters()
    ensures forall n :: n in LooseNames ==> |n| > 0 && 'a' <= n[0] <= 'z'
  {
  }

  /** The lengths of the names of the `from_string` table. */
  lemma NameLengths()
    ensures forall k :: k in Enums.LegacyMappings ==> |k| in {12, 2, 19, 4, 9, 3}
  {
  }

  lemma StripLeftSpace(c: char, s: string)
    requires IsSpace(c)
    ensures StripLeft([c] + s) == StripLeft(s)
  {
    assert ([c] + s)[1..] == s;
  }

  /** `with_queue_length(queue_length)`: accepts exactly the integers that are not negative
      and stores them; anything else is an AssertionError and changes nothing. */
  method WithQueueLength(c: ScenarioConfig, v: Value) returns (r: Result<()>)
    modifies c
    ensures r.Ok? <==> v.IntV? && v.i >= 0
    ensures r.Err? ==> r.error == AssertionError && c.State() == old(c.State())
    ensures r.Ok? ==> c.State() == old(c.State()).(queueLength := Some(v.i))
  {
    if !v.IntV? || v.i < 0 {
      return Err(AssertionError);
    }
    c.queueLength := Some(v.i);
    return Ok(());
  }

  /** `with_disconnect_by_time(disconnect_by_time)`: accepts only booleans and stores them. */
  method WithDisconnectByTime(c: ScenarioConfig, v: Value) returns (r: Result<()>)
    modifies c
    ensures r.Ok? <==> v.BoolV?
    ensures r.Err? ==> r.error == AssertionError && c.State() == old(c.State())
    ensures r.Ok? ==> c.State() == old(c.State()).(disconnectByTime := Some(v.b))
  {
    if !v.BoolV? {
      return Err(AssertionError);
    }
    c.disconnectByTime := Some(v.b);
    return Ok(());
  }
}

=== FILE: sim_types.dfy ===
/** Simulation time grid and numeric guards (elvis/types.py). Timestamps and durations are
    whole seconds. */
module SimTypes {
  import opened Outcomes
  import opened Values

  /** `SimulationTime(start, end, resolution)`. */
  datatype SimulationTime = SimulationTime(start: int, end: int, resolution: int)

  function Abs(x: int): nat {
    if x < 0 then -x else x
  }

  /** `int(a / b)` in Python: the quotient rounded toward zero. */
  function TruncDiv(a: int, b: int): (q: int)
    requires b != 0
    ensures Abs(q) * Abs(b) <= Abs(a) < (Abs(q) + 1) * Abs(b)
    ensures q != 0 ==> ((q < 0) <==> ((a < 0) != (b < 0)))
  {
    var m := Abs(a) / Abs(b);
    FloorDivBounds(Abs(a), Abs(b));
    if (a < 0) == (b < 0) then m else -m
  }

  lemma FloorDivBounds(x: nat, y: nat)
    requires y > 0
    ensures (x / y) * y <= x < (x / y + 1) * y
  {
    var q, r := x / y, x % y;
    assert x == q * y + r && 0 <= r < y;
    assert (q + 1) * y == q * y + y;
  }

  /** `SimulationTime.duration()`. */
  function Duration(t: SimulationTime): (d: int)
    ensures t.start + d == t.end
  {
    t.end - t.start
  }

  /** `SimulationTime.num_steps`: `int(duration / resolution) + 1`; a zero resolution raises
      ZeroDivisionError. */
  function NumSteps(t: SimulationTime): (r: Result<int>)
    ensures r.Err? <==> t.resolution == 0
    ensures r.Err? ==> r.error == ZeroDivisionError
    ensures r.Ok? && t.resolution > 0 && t.start <= t.end ==>
      r.value >= 1 && t.start + (r.value - 1) * t.resolution <= t.end < t.start + r.value * t.resolution
  {
    if t.resolution == 0 then Err(ZeroDivisionError)
    else Ok(TruncDiv(Duration(t), t.resolution) + 1)
  }

  /** The time steps strictly increase. */
  predicate Ascending(steps: seq<int>) {
    forall i, j :: 0 <= i < j < |steps| ==> steps[i] < steps[j]
  }

  /** `SimulationTime.get_time_steps()`: every `start + k * resolution` up to and including
      `end`, in increasing order; it agrees with `num_steps` whenever `start <= end`. An end
      before the start gives no steps whatever the resolution; a resolution that is not
      positive loops forever once `start <= end`, so the grid needs a positive one there. */
  method GetTimeSteps(t: SimulationTime) returns (steps: seq<int>)
    requires t.resolution > 0 || t.start > t.end
    ensures forall i :: 0 <= i < |steps| ==> steps[i] == t.start + i * t.resolution
    ensures forall i :: 0 <= i < |steps| ==> steps[i] <= t.end
    ensures t.start + |steps| * t.resolution > t.end
    ensures t.start <= t.end ==> NumSteps(t) == Ok(|steps|)
    ensures t.start > t.end ==> steps == []
    ensures Ascending(steps)
  {
    steps := [];
    if t.start > t.end {
      return;
    }
    var current := t.start;
    while current <= t.end
      invariant current == t.start + |steps| * t.resolution
      invariant forall i :: 0 <= i < |steps| ==> steps[i] == t.start + i * t.resolution
      invariant forall i :: 0 <= i < |steps| ==> steps[i] <= t.end
      invariant |steps| > 0 ==> current - t.resolution <= t.end
      invariant Ascending(steps) && (|steps| > 0 ==> steps[|steps| - 1] < current)
      decreases t.end - current
    {
      GridNext(t.start, |steps|, t.resolution);
      steps := steps + [current];
      current := current + t.resolution;
    }
    StepCountIsNumSteps(t, |steps|);
  }

  /** The number of grid points up to `end` is the one `num_steps` computes. */
  lemma StepCountIsNumSteps(t: SimulationTime, n: nat)
    requires t.resolution > 0 && t.start <= t.end
    requires t.start + n * t.resolution > t.end
    requires n == 0 || t.start + (n - 1) * t.resolution <= t.end
    ensures NumSteps(t) == Ok(n)
  {
    var q := NumSteps(t).value;
    if n < q {
      MulMono(n, q - 1, t.resolution);
    } else if q < n {
      MulMono(q, n - 1, t.resolution);
    }
  }

  lemma GridNext(start: int, n: int, res: int)
    ensures start + n * res + res == start + (n + 1) * res
  {
  }

  lemma MulMono(a: int, b: int, c: int)
    requires a <= b && c > 0
    ensures a * c <= b * c
  {
  }

  /** With `end` before `start` the grid is empty but `num_steps` truncates toward zero and
      still reports one step. */
  lemma NumStepsWhenEndBeforeStart()
    ensures NumSteps(SimulationTime(10, 5, 10)) == Ok(1)
  {
    assert TruncDiv(-5, 10) == 0;
  }

  /** `ensure_positive`: raises ValueError iff `value <= 0`, otherwise returns it unchanged. */
  function EnsurePositive(value: real): (r: Result<real>)
    ensures r.Ok? <==> value > 0.0
    ensures r.Ok? ==> r.value == value
    ensures r.Err? ==> r.error == ValueError
  {
    if value <= 0.0 then Err(ValueError) else Ok(value)
  }

  /** `ensure_probability`: raises ValueError iff `value` lies outside [0, 1], otherwise
      returns it as a float. */
  function EnsureProbability(value: real): (r: Result<real>)
    ensures r.Ok? <==> 0.0 <= value <= 1.0
    ensures r.Ok? ==> r.value == value
    ensures r.Err? ==> r.error == ValueError
  {
    if !(0.0 <= value <= 1.0) then Err(ValueError) else Ok(value)
  }

  /** `ensure_soc`: delegates to `ensure_probability`. */
  function EnsureSoc(value: real): (r: Result<real>)
    ensures r.Ok? <==> 0.0 <= value <= 1.0
    ensures r.Ok? ==> r.value == value
  {
    EnsureProbability(value)
  }

  /** `is_config_dict`: a dict whose keys are all strings. */
  predicate IsConfigDict(v: Value) {
    v.DictV? && forall k :: k in v.entries ==> k.StrV?
  }

  /** Storing one more entry keeps a configuration dict one exactly when the key is a string. */
  lemma ConfigDictInsert(m: map<Value, Value>, k: Value, x: Value)
    ensures IsConfigDict(DictV(m[k := x])) <==> IsConfigDict(DictV(m)) && k.StrV?
    ensures IsConfigDict(DictV(map[]))
  {
    if IsConfigDict(DictV(m[k := x])) {
      assert k in m[k := x];
      forall j | j in m ensures j.StrV? {
        assert j in m[k := x];
      }
    }
  }
}

=== FILE: simulate.dfy ===
/** The rest of elvis/simulate.py: bookkeeping of charging periods, charging the stationary
    storage, the opening-hours test, the arrival index and the main loop of a run. */
module Simulate {
  import opened Outcomes
  import opened Events
  import opened WaitingQueues
  import opened SiteSteps
  import opened Batteries
  import SimTypes

  /** The entry `charging_periods` keeps per vehicle: when it was first charged and when it
      was charged last. */
  datatype ChargingTimes = ChargingTimes(arrival: int, lastCharged: int)

  /** The ids of the connected vehicles whose points `powers` gives a positive power. */
  function IdsOf(cps: set<nat>, vehicles: map<nat, VehicleView>): set<nat> {
    set cp | cp in cps && cp in vehicles :: vehicles[cp].id
  }

  /** `{k: v for k, v in assign_power_cps.items() if v > 0}`, by its keys. */
  function PoweredPoints(powers: map<nat, real>): set<nat> {
    set cp | cp in powers && powers[cp] > 0.0
  }

  /** Every period starts no later than it was last charged, and no later than `t`. */
  predicate PeriodsOrdered(times: map<nat, ChargingTimes>, t: int) {
    forall id :: id in times ==> times[id].arrival <= times[id].lastCharged <= t
  }

  /** The charging periods after the first `pos` time steps: none before the first step and,
      when the time steps increase, each ordered up to the last step run. */
  predicate PeriodsSoFar(times: map<nat, ChargingTimes>, timeSteps: seq<int>, pos: nat) {
    && pos <= |timeSteps|
    && forall id :: id in times ==>
         0 < pos && (SimTypes.Ascending(timeSteps) ==>
                       times[id].arrival <= times[id].lastCharged <= timeSteps[pos - 1])
  }

  /** A step at the next time step that keeps the periods ordered up to its own time keeps
      `PeriodsSoFar`: the earlier periods, ordered up to an earlier step, are ordered up to
      this one. */
  lemma PeriodsSoFarStep(times: map<nat, ChargingTimes>, next: map<nat, ChargingTimes>,
                         timeSteps: seq<int>, pos: nat)
    ensures && PeriodsSoFar(times, timeSteps, pos) && pos < |timeSteps|
            && (PeriodsOrdered(times, timeSteps[pos]) ==> PeriodsOrdered(next, timeSteps[pos]))
            ==> PeriodsSoFar(next, timeSteps, pos + 1)
  {
    if PeriodsSoFar(times, timeSteps, pos) && pos < |timeSteps| && SimTypes.Ascending(timeSteps) {
      if 0 < pos {
        assert timeSteps[pos - 1] < timeSteps[pos];
      }
      assert PeriodsOrdered(times, timeSteps[pos]);
    }
  }

  /** The entry for vehicle `id` after a step at `t` in which it was charged. */
  function Touched(times: map<nat, ChargingTimes>, id: nat, t: int): ChargingTimes {
    ChargingTimes(if id in times then times[id].arrival else t, t)
  }

  /** `update_last_charged`: every vehicle at a point with positive power gets `last_charged`
      set to `t`, and `arrival` set to `t` as well when it is seen for the first time. A
      powered point without a vehicle is a TypeError (`None["id"]`). */
  method UpdateLastCharged(times: map<nat, ChargingTimes>, powers: map<nat, real>,
                           vehicles: map<nat, VehicleView>, t: int)
    returns (r: Result<map<nat, ChargingTimes>>)
    ensures r.Err? <==> exists cp :: cp in PoweredPoints(powers) && cp !in vehicles
    ensures r.Err? ==> r.error == TypeError
    ensures r.Ok? ==> r.value.Keys == times.Keys + IdsOf(PoweredPoints(powers), vehicles)
    ensures r.Ok? ==> forall id :: id in r.value ==>
      r.value[id] == if id in IdsOf(PoweredPoints(powers), vehicles) then Touched(times, id, t)
                     else times[id]
    ensures r.Ok? && PeriodsOrdered(times, t) ==> PeriodsOrdered(r.value, t)
  {
    var powered := PoweredPoints(powers);
    var updated := times;
    var remaining := powered;
    while remaining != {}
      invariant remaining <= powered
      invariant forall cp :: cp in powered && cp !in remaining ==> cp in vehicles
      invariant PeriodsFollow(times, updated, IdsOf(powered - remaining, vehicles), t)
      decreases remaining
    {
      var cp :| cp in remaining;
      if cp !in vehicles {
        return Err(TypeError);
      }
      var ce := vehicles[cp].id;
      ghost var before := updated;
      if ce !in updated {
        updated := updated[ce := ChargingTimes(t, t)];
      } else {
        updated := updated[ce := updated[ce].(lastCharged := t)];
      }
      TouchFollows(times, before, IdsOf(powered - remaining, vehicles), ce, t);
      IdsOfAdd(powered - remaining, cp, vehicles);
      assert powered - (remaining - {cp}) == (powered - remaining) + {cp};
      remaining := remaining - {cp};
    }
    assert powered - remaining == powered;
    r := Ok(updated);
    if PeriodsOrdered(times, t) {
      forall id | id in updated
        ensures updated[id].arrival <= updated[id].lastCharged <= t
      {
        if id in times {
          assert times[id].arrival <= times[id].lastCharged <= t;
        }
      }
    }
  }

  /** `updated` is `times` with exactly the vehicles `ids` touched at `t`. */
  ghost predicate PeriodsFollow(times: map<nat, ChargingTimes>, updated: map<nat, ChargingTimes>,
                                ids: set<nat>, t: int)
  {
    && updated.Keys == times.Keys + ids
    && forall id :: id in updated ==>
         updated[id] == if id in ids then Touched(times, id, t) else times[id]
  }

  /** Touching one more vehicle: a new entry starts at `t`, a known one keeps its arrival. */
  lemma TouchFollows(times: map<nat, ChargingTimes>, updated: map<nat, ChargingTimes>,
                     ids: set<nat>, id: nat, t: int)
    requires PeriodsFollow(times, updated, ids, t)
    ensures PeriodsFollow(times,
                          if id !in updated then updated[id := ChargingTimes(t, t)]
                          else updated[id := updated[id].(lastCharged := t)],
                          ids + {id}, t)
  {
  }

  lemma IdsOfAdd(cps: set<nat>, cp: nat, vehicles: map<nat, VehicleView>)
    requires cp in vehicles
    ensures IdsOf(cps + {cp}, vehicles) == IdsOf(cps, vehicles) + {vehicles[cp].id}
  {
    assert vehicles[cp].id in IdsOf(cps + {cp}, vehicles);
  }

  function RAbs(x: real): (r: real)
    ensures r >= 0.0 && (r == x || r == -x)
  {
    if x < 0.0 then -x else x
  }

  /** `max_discharge_power(0, step)` of storage `s` at state of charge `soc`. */
  function MaxDischargeAt(s: StationaryBattery, soc: real, stepSeconds: int): real
    requires s.battery.capacity > 0.0 && stepSeconds > 0
  {
    var h := Hours(stepSeconds);
    var toEmpty := (soc - 0.0 / s.battery.capacity * h - s.minSoc) * s.battery.capacity / h;
    Floor3(RMax(RMin(s.battery.maxChargePower - 0.0, toEmpty), 0.0))
  }

  /** Whether `charge_storage` can serve the entry `p` of storage `s` at state of charge
      `soc`: an entry of 0 needs a headroom that is not negative and a battery that charges;
      any other entry must be within what `s` can discharge in one step. */
  predicate StorageFeasible(s: StationaryBattery, soc: real, p: real, available: real,
                            stepSeconds: int)
  {
    && s.battery.capacity > 0.0 && stepSeconds > 0
    && if p == 0.0 then available >= 0.0 && s.battery.maxChargePower >= 0.0
       else RAbs(p) <= MaxDischargeAt(s, soc, stepSeconds)
  }

  /** What serving entry `p` left in storage `s`, which held `socBefore` and was offered
      `available`: an entry of 0 charged the battery with the power `charge` computes, which
      is what `out` records; any other entry discharged it by the magnitude of `p`, and `out`
      is `p` unchanged. */
  ghost predicate Served(s: StationaryBattery, p: real, out: real, socBefore: real,
                         available: real, stepSeconds: int)
    reads s
    requires s.battery.capacity > 0.0 && stepSeconds > 0
  {
    var h := Hours(stepSeconds);
    if p == 0.0 then
      && out == ChargePower(socBefore, s.battery, h, available)
      && s.power == out
      && s.soc == socBefore + out * h / s.battery.capacity
    else
      && out == p
      && s.power == -RAbs(p)
      && s.soc == socBefore - RAbs(p) * h / s.battery.capacity
  }

  /** `MaxDischargeAt` at the storage's current SOC is its `max_discharge_power(0, step)`. */
  lemma MaxDischargeAtNow(s: StationaryBattery, stepSeconds: int)
    requires s.battery.capacity > 0.0 && stepSeconds > 0
    ensures MaxDischargeAt(s, s.soc, stepSeconds) == s.MaxDischargePower(0.0, stepSeconds)
  {
  }

  /** The charging half of `ServeStorage`, for an entry of 0. */
  method ServeCharge(s: StationaryBattery, available: real, stepSeconds: int)
    returns (r: Result<real>)
    requires s.Valid() && stepSeconds > 0
    modifies s
    ensures r.Ok? ==> s.Valid() && Served(s, 0.0, r.value, old(s.soc), available, stepSeconds)
    ensures StorageFeasible(s, old(s.soc), 0.0, available, stepSeconds) ==> r.Ok?
  {
    r := s.Charge(available, stepSeconds);
  }

  /** The discharging half of `ServeStorage`, for an entry other than 0. */
  method ServeDischarge(s: StationaryBattery, p: real, available: real, stepSeconds: int)
    returns (r: Result<real>)
    requires s.Valid() && stepSeconds > 0 && p != 0.0
    modifies s
    ensures r.Ok? ==> s.Valid() && Served(s, p, r.value, old(s.soc), available, stepSeconds)
    ensures StorageFeasible(s, old(s.soc), p, available, stepSeconds) ==> r.Ok?
  {
    ghost var feasible := StorageFeasible(s, s.soc, p, available, stepSeconds);
    assert feasible ==> RAbs(p) <= s.MaxDischargePower(0.0, stepSeconds) by {
      MaxDischargeAtNow(s, stepSeconds);
    }
    ghost var socBefore := s.soc;
    var done := s.Discharge(RAbs(p), stepSeconds);
    if done.Ok? {
      assert s.soc == socBefore - RAbs(p) * Hours(stepSeconds) / s.battery.capacity;
    }
    r := if done.Ok? then Ok(p) else Err(done.error);
  }

  /** One entry of `charge_storage`: charge with the headroom when the entry is 0, discharge
      by its magnitude otherwise. */
  method ServeStorage(s: StationaryBattery, p: real, available: real, stepSeconds: int)
    returns (r: Result<real>)
    requires s.Valid() && stepSeconds > 0
    modifies s
    ensures r.Ok? ==> s.Valid() && Served(s, p, r.value, old(s.soc), available, stepSeconds)
    ensures StorageFeasible(s, old(s.soc), p, available, stepSeconds) ==> r.Ok?
  {
    if p == 0.0 {
      r := ServeCharge(s, available, stepSeconds);
    } else {
      r := ServeDischarge(s, p, available, stepSeconds);
    }
  }

  /** `charge_storage`: a storage system assigned 0 is charged with the headroom its
      transformer leaves (`headroom`) and its entry becomes the power actually charged; any
      other entry discharges the storage by its magnitude and stays as it is. The first
      storage that cannot follow its entry ends the call with the error of `charge` or
      `discharge`. */
  method ChargeStorage(requested: map<StationaryBattery, real>, cpsPower: map<nat, real>,
                       preload: real, stepSeconds: int,
                       headroom: (StationaryBattery, map<nat, real>, real) -> real)
    returns (r: Result<map<StationaryBattery, real>>)
    requires stepSeconds > 0
    requires forall s :: s in requested ==> s.Valid()
    modifies requested.Keys
    ensures r.Ok? ==> r.value.Keys == requested.Keys
    ensures r.Ok? ==> forall s :: s in requested ==>
      && s.Valid()
      && Served(s, requested[s], r.value[s], old(s.soc), headroom(s, cpsPower, preload),
                stepSeconds)
    ensures (forall s :: s in requested ==>
              StorageFeasible(s, old(s.soc), requested[s], headroom(s, cpsPower, preload),
                              stepSeconds))
            ==> r.Ok?
    ensures r.Err? ==> exists s :: (s in requested &&
      !StorageFeasible(s, old(s.soc), requested[s], headroom(s, cpsPower, preload), stepSeconds))
  {
    var realised := requested;
    var remaining := requested.Keys;
    while remaining != {}
      invariant remaining <= requested.Keys && realised.Keys == requested.Keys
      invariant forall s :: s in requested ==> s.Valid()
      invariant forall s :: s in remaining ==> s.soc == old(s.soc)
      invariant forall s :: s in requested && s !in remaining ==>
        Served(s, requested[s], realised[s], old(s.soc), headroom(s, cpsPower, preload),
               stepSeconds)
      decreases remaining
    {
      var s :| s in remaining;
      var served := ServeStorage(s, requested[s], headroom(s, cpsPower, preload), stepSeconds);
      if served.Err? {
        return Err(served.error);
      }
      realised := realised[s := served.value];
      remaining := remaining - {s};
    }
    return Ok(realised);
  }

  /** The hour of the day of timestamp `t` (seconds): its second of the day over 3600. */
  function DayHours(t: int): real {
    (t % 86400) as real / 3600.0
  }

  /** `DayHours` is the hour of the day as the main loop computes it,
      `hour + minute / 60 + second / 60 / 60` of the time of day, and it lies in [0, 24). */
  lemma DayHoursIsClockTime(t: int)
    ensures var s := t % 86400;
      DayHours(t) ==
        (s / 3600) as real + ((s % 3600) / 60) as real / 60.0 + (s % 60) as real / 60.0 / 60.0
    ensures 0.0 <= DayHours(t) < 24.0
  {
    var s := t % 86400;
    var a, b, c := s / 3600, (s % 3600) / 60, s % 60;
    assert s == 3600 * a + 60 * b + c;
  }

  /** `within_opening_hours`: always when there are no opening hours, otherwise iff the hour
      of the day lies in the closed interval. */
  predicate WithinOpeningHours(openingHours: Option<(real, real)>, t: int) {
    openingHours.None? || openingHours.value.0 <= DayHours(t) <= openingHours.value.1
  }

  /** The same test on the second of the day. */
  lemma OpeningHoursInSeconds(open: real, close: real, t: int)
    ensures WithinOpeningHours(Some((open, close)), t) <==>
      open * 3600.0 <= (t % 86400) as real <= close * 3600.0
  {
    DayHoursIsClockTime(t);
  }

  /** The inner `while` of the main loop: the event index moves past every event at `idx`
      and after that arrives exactly at `t`, and stops at the first that does not. */
  function Advance(events: seq<ChargingEvent>, idx: nat, t: int): (r: nat)
    requires idx <= |events|
    ensures idx <= r <= |events|
    ensures forall k :: idx <= k < r ==> events[k].arrivalTime == t
    ensures r == |events| || events[r].arrivalTime != t
    decreases |events| - idx
  {
    if idx < |events| && events[idx].arrivalTime == t then Advance(events, idx + 1, t) else idx
  }

  /** The event index after the steps `steps`, starting from 0. */
  function ProcessedUpTo(events: seq<ChargingEvent>, steps: seq<int>): (r: nat)
    ensures r <= |events|
  {
    if steps == [] then 0
    else Advance(events, ProcessedUpTo(events, steps[..|steps| - 1]), steps[|steps| - 1])
  }

  /** One more step moves the event index as `Advance` does at that step's time. */
  lemma ProcessedStep(events: seq<ChargingEvent>, steps: seq<int>, pos: nat)
    requires pos < |steps|
    ensures ProcessedUpTo(events, steps[..pos + 1]) ==
      Advance(events, ProcessedUpTo(events, steps[..pos]), steps[pos])
  {
    assert steps[..pos + 1][..pos] == steps[..pos];
  }

  /** The event index after the first `pos` of `steps`, counted by position rather than by
      prefix. */
  function ProcessedAt(events: seq<ChargingEvent>, steps: seq<int>, pos: nat): (r: nat)
    requires pos <= |steps|
    ensures r <= |events|
    decreases pos
  {
    if pos == 0 then 0 else Advance(events, ProcessedAt(events, steps, pos - 1), steps[pos - 1])
  }

  /** Counting by position agrees with `ProcessedUpTo` on the prefix. */
  lemma {:induction false} ProcessedAtIsUpTo(events: seq<ChargingEvent>, steps: seq<int>, pos: nat)
    requires pos <= |steps|
    ensures ProcessedAt(events, steps, pos) == ProcessedUpTo(events, steps[..pos])
    decreases pos
  {
    if pos > 0 {
      ProcessedAtIsUpTo(events, steps, pos - 1);
      ProcessedStep(events, steps, pos - 1);
    }
  }

  /** After every step, the position-indexed count is the count over all the steps. */
  lemma ProcessedAtIsUpToAll(events: seq<ChargingEvent>, steps: seq<int>)
    ensures ProcessedAt(events, steps, |steps|) == ProcessedUpTo(events, steps)
  {
    ProcessedAtIsUpTo(events, steps, |steps|);
    assert steps[..|steps|] == steps;
  }

  /** Only events arriving exactly on a step are ever processed: an event whose arrival
      misses every step holds back itself and every event after it. */
  lemma {:induction false} ProcessedArriveOnSteps(events: seq<ChargingEvent>, steps: seq<int>)
    ensures forall k :: 0 <= k < ProcessedUpTo(events, steps) ==> events[k].arrivalTime in steps
  {
    if steps != [] {
      var init := steps[..|steps| - 1];
      ProcessedArriveOnSteps(events, init);
      forall k | 0 <= k < ProcessedUpTo(events, steps)
        ensures events[k].arrivalTime in steps
      {
        if k < ProcessedUpTo(events, init) {
          assert events[k].arrivalTime in init;
        } else {
          assert events[k].arrivalTime == steps[|steps| - 1];
        }
      }
    }
  }

  predicate ArrivalsSorted(events: seq<ChargingEvent>) {
    forall a, b :: 0 <= a <= b < |events| ==> events[a].arrivalTime <= events[b].arrivalTime
  }

  predicate StrictlyIncreasing(steps: seq<int>) {
    forall a, b :: 0 <= a < b < |steps| ==> steps[a] < steps[b]
  }

  /** With the events sorted by arrival and every arrival on a step of an increasing grid,
      the run processes every event. */
  lemma AllProcessed(events: seq<ChargingEvent>, steps: seq<int>)
    requires ArrivalsSorted(events) && StrictlyIncreasing(steps)
    requires forall k :: 0 <= k < |events| ==> events[k].arrivalTime in steps
    ensures ProcessedUpTo(events, steps) == |events|
  {
    if steps == [] {
      NoStepsNoEvents(events, steps);
    } else {
      ProcessedThrough(events, steps, |steps|);
      assert steps[..|steps|] == steps;
      forall k | 0 <= k < |events|
        ensures events[k].arrivalTime <= steps[|steps| - 1]
      {
        var j :| 0 <= j < |steps| && steps[j] == events[k].arrivalTime;
        if j < |steps| - 1 {
          assert steps[j] < steps[|steps| - 1];
        }
      }
    }
  }

  lemma NoStepsNoEvents(events: seq<ChargingEvent>, steps: seq<int>)
    requires forall k :: 0 <= k < |events| ==> events[k].arrivalTime in steps
    ensures steps == [] ==> events == []
  {
    if events != [] {
      assert events[0].arrivalTime in steps;
    }
  }

  /** After the first `i` steps, the processed events are exactly those arriving at or
      before step `i - 1`. */
  lemma {:induction false} ProcessedThrough(events: seq<ChargingEvent>, steps: seq<int>, i: nat)
    requires ArrivalsSorted(events) && StrictlyIncreasing(steps)
    requires forall k :: 0 <= k < |events| ==> events[k].arrivalTime in steps
    requires 1 <= i <= |steps|
    ensures forall k :: 0 <= k < ProcessedUpTo(events, steps[..i]) ==>
      events[k].arrivalTime <= steps[i - 1]
    ensures ProcessedUpTo(events, steps[..i]) == |events| ||
      events[ProcessedUpTo(events, steps[..i])].arrivalTime > steps[i - 1]
  {
    var t := steps[i - 1];
    var prefix := steps[..i - 1];
    assert steps[..i][..i - 1] == prefix;
    var p := ProcessedUpTo(events, prefix);
    var p' := ProcessedUpTo(events, steps[..i]);
    assert p' == Advance(events, p, t);
    if i > 1 {
      ProcessedThrough(events, steps, i - 1);
      assert steps[..i - 1] == prefix;
    }
    forall k | 0 <= k < p'
      ensures events[k].arrivalTime <= t
    {
      if k < p {
        assert i > 1;
        assert events[k].arrivalTime <= steps[i - 2];
      }
    }
    if p' < |events| {
      var next := events[p'].arrivalTime;
      var j :| 0 <= j < |steps| && steps[j] == next;
      if p' == p {
        if i > 1 {
          assert next > steps[i - 2];
        }
        assert j >= i - 1;
      } else {
        assert events[p' - 1].arrivalTime == t;
      }
    }
  }

  /** The number of rejections in a trace of admissions. */
  function Rejections(trace: seq<Admission>): (n: nat)
    ensures n <= |trace|
  {
    if trace == [] then 0
    else Rejections(trace[..|trace| - 1]) + if trace[|trace| - 1].Rejected? then 1 else 0
  }

  lemma {:induction false} RejectionsAppend(a: seq<Admission>, b: seq<Admission>)
    ensures Rejections(a + b) == Rejections(a) + Rejections(b)
    decreases |b|
  {
    if b != [] {
      var init := b[..|b| - 1];
      assert (a + b)[..|a + b| - 1] == a + init;
      RejectionsAppend(a, init);
    } else {
      assert a + b == a;
    }
  }

  /** The places left in a queue of length `maxsize` holding `queued` events. */
  function Room(queued: nat, maxsize: int): nat {
    if maxsize > queued then maxsize - queued else 0
  }

  /** The fate of the `j`-th arrival (from 0) of one step at a site that had `free` free
      points and `queued` queued events before the first: while open, the first `free`
      arrivals take a point, the next ones fill the queue, and the rest are rejected; while
      closed, every arrival is rejected. */
  function FateAt(free: nat, queued: nat, maxsize: int, open: bool, j: nat): Fate {
    if !open then Reject
    else if j < free then Connect
    else if j - free < Room(queued, maxsize) then Queue
    else Reject
  }

  /** The free points left after the first `j` arrivals of the step. */
  function FreeAfter(free: nat, open: bool, j: nat): nat {
    if !open then free else if j < free then free - j else 0
  }

  /** The queued events after the first `j` arrivals of the step. */
  function QueuedAfter(free: nat, queued: nat, maxsize: int, open: bool, j: nat): nat {
    if !open || j <= free then queued
    else if j - free < Room(queued, maxsize) then queued + (j - free)
    else queued + Room(queued, maxsize)
  }

  /** Deciding arrival `j` on the counts the earlier arrivals left gives its fate in closed
      form, for any queue a valid `WaitingQueue` can hold. */
  lemma FateAtDecides(free: nat, queued: nat, maxsize: int, open: bool, j: nat)
    requires queued <= maxsize || queued == 0
    ensures Decide(FreeAfter(free, open, j), QueuedAfter(free, queued, maxsize, open, j),
                   maxsize, open) == FateAt(free, queued, maxsize, open, j)
  {
  }

  function Max0(x: int): nat {
    if x > 0 then x else 0
  }

  /** Among the `n` arrivals of a step, those beyond the free points and the queue's room are
      rejected while open, and all of them while closed. */
  lemma {:induction false} RejectionsOfStep(admitted: seq<Admission>, free: nat, queued: nat,
                                            maxsize: int, open: bool)
    requires forall j :: 0 <= j < |admitted| ==>
      FateOf(admitted[j]) == FateAt(free, queued, maxsize, open, j)
    ensures Rejections(admitted) ==
      if open then Max0(|admitted| - free - Room(queued, maxsize)) else |admitted|
  {
    if admitted != [] {
      var n := |admitted|;
      var init := admitted[..n - 1];
      assert forall j :: 0 <= j < |init| ==> init[j] == admitted[j];
      RejectionsOfStep(init, free, queued, maxsize, open);
      assert admitted[n - 1].Rejected? <==> FateAt(free, queued, maxsize, open, n - 1) == Reject;
    }
  }

  /** Each of the outcomes `admitted` is the closed form `FateAt` of the counts `free` and
      `queued` at the start of the step. */
  predicate FatesFollow(admitted: seq<Admission>, free: nat, queued: nat, maxsize: int,
                        open: bool)
  {
    forall j :: 0 <= j < |admitted| ==> FateOf(admitted[j]) == FateAt(free, queued, maxsize, open, j)
  }

  /** The arrivals `events[from..]` of one step so far, handled in turn from occupancy `o0`:
      the `j`-th of them found occupancy `seen[j]` (the one the earlier outcomes left), its
      outcome `admitted[j]` is what `handle_car_arrival` decides on that occupancy and is
      the closed form `FateAt` of the counts of `o0`, and `now` is the occupancy the last
      outcome left. */
  ghost predicate Arrivals(o0: Occupancy, events: seq<ChargingEvent>, from: nat,
                           admitted: seq<Admission>, seen: seq<Occupancy>,
                           maxsize: int, open: bool, now: Occupancy)
    decreases |admitted|
  {
    if admitted == [] then seen == [] && now == o0 && from <= |events|
    else
      var n := |admitted| - 1;
      && |seen| == |admitted| && from + n < |events|
      && Arrivals(o0, events, from, admitted[..n], seen[..n], maxsize, open, seen[n])
      && ArrivalDecided(admitted[n], seen[n], maxsize, open)
      && FateOf(admitted[n]) == FateAt(|o0.free|, |o0.queue|, maxsize, open, n)
      && now == Admit(seen[n], events[from + n], admitted[n])
  }

  /** The counts of the occupancy the arrivals so far left, in closed form. */
  lemma {:induction false} ArrivalsCounts(o0: Occupancy, events: seq<ChargingEvent>, from: nat,
                                          admitted: seq<Admission>, seen: seq<Occupancy>,
                                          maxsize: int, open: bool,
                                          now: Occupancy)
    requires Arrivals(o0, events, from, admitted, seen, maxsize, open, now)
    ensures |seen| == |admitted| && from + |admitted| <= |events|
    ensures |now.free| == FreeAfter(|o0.free|, open, |admitted|)
    ensures |now.queue| == QueuedAfter(|o0.free|, |o0.queue|, maxsize, open, |admitted|)
    decreases |admitted|
  {
    if admitted != [] {
      var n := |admitted| - 1;
      ArrivalsCounts(o0, events, from, admitted[..n], seen[..n], maxsize, open, seen[n]);
      CountsAdvance(|o0.free|, |o0.queue|, maxsize, open, n, seen[n], events[from + n],
                    admitted[n]);
    }
  }

  /** The arrivals so far, one by one: each was decided on the occupancy it found, and the
      fates follow the closed form. */
  lemma {:induction false} ArrivalsAt(o0: Occupancy, events: seq<ChargingEvent>, from: nat,
                                      admitted: seq<Admission>, seen: seq<Occupancy>,
                                      maxsize: int, open: bool,
                                      now: Occupancy)
    requires Arrivals(o0, events, from, admitted, seen, maxsize, open, now)
    ensures |seen| == |admitted|
    ensures forall j :: 0 <= j < |admitted| ==>
      ArrivalDecided(admitted[j], seen[j], maxsize, open)
    ensures FatesFollow(admitted, |o0.free|, |o0.queue|, maxsize, open)
    decreases |admitted|
  {
    if admitted != [] {
      var n := |admitted| - 1;
      ArrivalsAt(o0, events, from, admitted[..n], seen[..n], maxsize, open, seen[n]);
      forall j | 0 <= j < n
        ensures ArrivalDecided(admitted[j], seen[j], maxsize, open)
        ensures FateOf(admitted[j]) == FateAt(|o0.free|, |o0.queue|, maxsize, open, j)
      {
        assert admitted[..n][j] == admitted[j] && seen[..n][j] == seen[j];
      }
    }
  }

  /** One more arrival, decided on the occupancy the earlier ones left, extends the step. */
  lemma ArrivalsStep(o0: Occupancy, events: seq<ChargingEvent>, from: nat,
                     admitted: seq<Admission>, seen: seq<Occupancy>,
                     maxsize: int, open: bool, now: Occupancy, a: Admission)
    requires Arrivals(o0, events, from, admitted, seen, maxsize, open, now)
    requires from + |admitted| < |events|
    requires |o0.queue| <= maxsize || o0.queue == []
    requires ArrivalDecided(a, now, maxsize, open)
    ensures Arrivals(o0, events, from, admitted + [a], seen + [now], maxsize, open,
                     Admit(now, events[from + |admitted|], a))
  {
    var n := |admitted|;
    ArrivalsCounts(o0, events, from, admitted, seen, maxsize, open, now);
    FateAtDecides(|o0.free|, |o0.queue|, maxsize, open, n);
    assert (admitted + [a])[..n] == admitted && (seen + [now])[..n] == seen;
  }

  /** The counts of the occupancy after one more arrival, in closed form. */
  lemma CountsAdvance(free: nat, queued: nat, maxsize: int, open: bool, n: nat,
                      now: Occupancy, e: ChargingEvent, a: Admission)
    requires |now.free| == FreeAfter(free, open, n)
    requires |now.queue| == QueuedAfter(free, queued, maxsize, open, n)
    requires FateOf(a) == FateAt(free, queued, maxsize, open, n)
    requires a.Connected? ==> a.cp in now.free
    ensures |Admit(now, e, a).free| == FreeAfter(free, open, n + 1)
    ensures |Admit(now, e, a).queue| == QueuedAfter(free, queued, maxsize, open, n + 1)
  {
    CountsStep(free, queued, maxsize, open, n);
    if a.Connected? {
      assert |now.free - {a.cp}| == |now.free| - 1;
    }
  }

  /** How one more arrival moves the counts: a connection takes one free point, queueing
      fills one place, a rejection changes neither. */
  lemma CountsStep(free: nat, queued: nat, maxsize: int, open: bool, n: nat)
    ensures var f := FateAt(free, queued, maxsize, open, n);
      && FreeAfter(free, open, n + 1) + (if f == Connect then 1 else 0) == FreeAfter(free, open, n)
      && QueuedAfter(free, queued, maxsize, open, n + 1)
         == QueuedAfter(free, queued, maxsize, open, n) + (if f == Queue then 1 else 0)
  {
  }

  /** The arrivals of one step, handled one after the other: `admitted[j]` is what happened
      to the `j`-th of them and `seen[j]` the occupancy it found, each decided as
      `handle_car_arrival` decides, and the final occupancy is the one the last outcome left
      (`Arrivals`). While open, the arrivals beyond the free points and the queue's room are
      the rejected ones; while closed, all are. */
  method HandleArrivals(site: Site, q: WaitingQueue, events: seq<ChargingEvent>, idx: nat,
                        t: int, counter: nat, open: bool, log: bool)
    returns (idxOut: nat, counterOut: nat, ghost admitted: seq<Admission>,
             ghost seen: seq<Occupancy>)
    requires site.Valid() && q.Valid() && idx <= |events|
    modifies site, q
    ensures site.Valid() && q.Valid()
    ensures idxOut == Advance(events, idx, t) && |admitted| == idxOut - idx
    ensures counterOut == counter + Rejections(admitted)
    ensures counterOut == counter +
      if open then Max0(|admitted| - |old(site.free)| - Room(|old(q.queue)|, q.maxsize))
      else |admitted|
    ensures Arrivals(old(Snapshot(site, q)), events, idx, admitted, seen, q.maxsize, open, Snapshot(site, q))
  {
    ghost var o0 := Snapshot(site, q);
    ghost var now := o0;
    idxOut, counterOut, admitted, seen := idx, counter, [], [];
    while idxOut < |events| && events[idxOut].arrivalTime == t
      invariant site.Valid() && q.Valid()
      invariant idx <= idxOut <= |events| && |admitted| == idxOut - idx
      invariant Advance(events, idxOut, t) == Advance(events, idx, t)
      invariant counterOut == counter + Rejections(admitted)
      invariant now == Snapshot(site, q)
      invariant Arrivals(o0, events, idx, admitted, seen, q.maxsize, open, now)
      decreases |events| - idxOut
    {
      ghost var outcome: Admission;
      var e := events[idxOut];
      assert e == events[idx + |admitted|];
      counterOut, outcome := HandleCarArrival(site, q, e, counterOut, open, log);
      assert Snapshot(site, q) == Admit(now, e, outcome);
      ArrivalsStep(o0, events, idx, admitted, seen, q.maxsize, open, now, outcome);
      assert (admitted + [outcome])[..|admitted|] == admitted;
      admitted, seen, now := admitted + [outcome], seen + [now], Admit(now, e, outcome);
      idxOut := idxOut + 1;
    }
    ArrivalsAt(o0, events, idx, admitted, seen, q.maxsize, open, now);
    RejectionsOfStep(admitted, |o0.free|, |o0.queue|, q.maxsize, open);
  }

  /** What a scheduling policy returns: a power per charging point and per storage. */
  datatype Assignment = Assignment(cps: map<nat, real>, storage: map<StationaryBattery, real>)

  /** The departures of a step, from occupancy `o` with stored next-leave time `nextLeave`
      to `departed`: `pruned` is the queue after the overdue events left; while closed every
      point is freed and the queue emptied; while open, the points freed and those in
      `taken` are exactly the due ones, each once, the points in `taken` took the oldest
      queued events in order, every other busy point keeps its vehicle, points are freed
      only once the queue ran dry, and when disconnecting by time no
      connected vehicle and no queued event is overdue. */
  ghost predicate DeparturesDone(o: Occupancy, nextLeave: Option<int>, departed: Occupancy,
                                 taken: seq<nat>, t: int, byTime: bool, open: bool)
  {
    var pruned := QueueAfterUpdateIntended(o.queue, nextLeave, t, byTime, open);
    && departed.vehicles.Keys == departed.busy
    && (!open ==> departed == Occupancy(o.free + o.busy, {}, map[], []))
    && (open ==> |taken| <= |pruned| && departed.queue == pruned[|taken|..])
    && (open ==> forall j :: 0 <= j < |taken| ==>
          taken[j] in departed.busy && departed.vehicles[taken[j]] == ViewOf(pruned[j]))
    && (open ==> departed.busy <= o.busy && departed.free == o.free + (o.busy - departed.busy))
    && (open ==> (o.busy - departed.busy) + Elements(taken)
                   == ExpiredPoints(o.busy, o.vehicles, t, byTime))
    && (open ==> Distinct(taken))
    && (open && departed.free != o.free ==> departed.queue == [])
    && (forall cp :: cp in departed.busy && cp !in taken ==>
          && cp in o.vehicles && departed.vehicles[cp] == o.vehicles[cp]
          && !Expired(o.vehicles[cp], t, byTime))
    && (byTime ==>
          && (forall i :: 0 <= i < |departed.queue| ==> t < departed.queue[i].leavingTime)
          && (forall cp :: cp in departed.busy ==> t < departed.vehicles[cp].leavingTime))
  }

  /** While open, a connected vehicle that is not due keeps its point through the
      departures: it is neither freed nor swapped for a queued event. */
  lemma NotDueStays(o: Occupancy, nextLeave: Option<int>, departed: Occupancy, taken: seq<nat>,
                    t: int, byTime: bool, cp: nat)
    requires DeparturesDone(o, nextLeave, departed, taken, t, byTime, true)
    requires cp in o.busy && cp in o.vehicles && !Expired(o.vehicles[cp], t, byTime)
    ensures cp in departed.busy && cp !in taken && departed.vehicles[cp] == o.vehicles[cp]
  {
    assert cp !in ExpiredPoints(o.busy, o.vehicles, t, byTime);
    assert cp !in Elements(taken);
  }

  /** The first half of a step: `update_queue` (overdue events leave whether or not the step
      is logged) and then `update_cps`. */
  method Departures(site: Site, q: WaitingQueue, t: int, open: bool, byTime: bool, log: bool)
    returns (ghost departed: Occupancy, ghost taken: seq<nat>)
    requires site.Valid() && q.Valid()
    modifies site, q
    ensures site.Valid() && q.Valid() && departed == Snapshot(site, q)
    ensures DeparturesDone(old(Snapshot(site, q)), old(q.nextLeave), departed, taken, t, byTime,
                           open)
  {
    ghost var o := Snapshot(site, q);
    UpdateQueueIntended(q, t, byTime, open);
    ghost var pruned := q.queue;
    ghost var freed;
    freed, taken := UpdateCps(site, q, t, byTime, open, log);
    departed := Snapshot(site, q);
    if byTime {
      forall cp | cp in departed.busy
        ensures t < departed.vehicles[cp].leavingTime
      {
        if open && cp in taken {
          var j :| 0 <= j < |taken| && taken[j] == cp;
          assert pruned[j] in pruned;
        }
      }
    }
  }

  /** The occupancy half of a step: the departures (`departed` is the occupancy they leave,
      `DeparturesDone`), then the step's arrivals, decided on what each of them found
      (`Arrivals`). */
  method OccupancyStep(site: Site, q: WaitingQueue, events: seq<ChargingEvent>, idx: nat,
                       counter: nat, t: int, open: bool, byTime: bool, log: bool)
    returns (idxOut: nat, counterOut: nat, ghost departed: Occupancy, ghost taken: seq<nat>,
             ghost admitted: seq<Admission>, ghost seen: seq<Occupancy>)
    requires site.Valid() && q.Valid() && idx <= |events|
    modifies site, q
    ensures site.Valid() && q.Valid()
    ensures idxOut == Advance(events, idx, t) && |admitted| == idxOut - idx
    ensures counterOut == counter + Rejections(admitted)
    ensures DeparturesDone(old(Snapshot(site, q)), old(q.nextLeave), departed, taken, t, byTime,
                           open)
    ensures Arrivals(departed, events, idx, admitted, seen, q.maxsize, open,
                     Snapshot(site, q))
  {
    departed, taken := Departures(site, q, t, open, byTime, log);
    idxOut, counterOut, admitted, seen := HandleArrivals(site, q, events, idx, t, counter, open, log);
  }

  /** The power half of a step, once the policy has assigned `assign`: record the charging
      periods (only while some point is busy), charge the vehicles, read the preload, charge
      or discharge the storage. Returns the new periods and the realised storage powers. */
  method PowerStep(site: Site, storage: set<StationaryBattery>,
                   periods: map<nat, ChargingTimes>, assign: Assignment, pos: nat, t: int,
                   resolution: int, preload: Option<seq<real>>,
                   chargeVehicle: (VehicleView, real, int) -> VehicleView,
                   headroom: (StationaryBattery, map<nat, real>, real) -> real)
    returns (r: Result<(map<nat, ChargingTimes>, map<StationaryBattery, real>)>)
    requires site.Valid() && resolution > 0
    requires forall s :: s in storage ==> s.Valid()
    requires assign.storage.Keys <= storage
    modifies site, storage
    ensures site.Valid() && site.free == old(site.free) && site.busy == old(site.busy)
    ensures r.Ok? ==> forall cp :: cp in site.busy ==>
      cp in assign.cps &&
      site.vehicles[cp] == chargeVehicle(old(site.vehicles)[cp], assign.cps[cp], resolution)
    ensures r.Ok? ==> preload.None? || pos < |preload.value|
    ensures r.Ok? ==> forall s :: s in storage ==> s.Valid()
    ensures r.Ok? && PeriodsOrdered(periods, t) ==> PeriodsOrdered(r.value.0, t)
  {
    var periodsNext := periods;
    if site.busy != {} {
      var updated := UpdateLastCharged(periods, assign.cps, site.vehicles, t);
      if updated.Err? {
        return Err(updated.error);
      }
      periodsNext := updated.value;
    }
    ghost var chargedPoints;
    var charged;
    charged, chargedPoints := ChargeConnectedVehicles(site, assign.cps, resolution, chargeVehicle);
    if charged.Err? {
      return Err(charged.error);
    }
    var load := 0.0;
    if preload.Some? {
      if pos >= |preload.value| {
        return Err(IndexError);
      }
      load := preload.value[pos];
    }
    var realised := ChargeStorage(assign.storage, assign.cps, load, resolution, headroom);
    if realised.Err? {
      return Err(realised.error);
    }
    r := Ok((periodsNext, realised.value));
  }

  /** Every arrival of `trace`, the first `|trace|` of `events`, was decided as
      `handle_car_arrival` decides on the occupancy `seen` records for it, with the site
      open or closed at its arrival time as the opening hours say. */
  ghost predicate Decided(trace: seq<Admission>, seen: seq<Occupancy>, events: seq<ChargingEvent>,
                          maxsize: int, openingHours: Option<(real, real)>)
  {
    && |seen| == |trace| <= |events|
    && forall k :: 0 <= k < |trace| ==>
         ArrivalDecided(trace[k], seen[k], maxsize,
                        WithinOpeningHours(openingHours, events[k].arrivalTime))
  }

  /** The arrivals of one more step, all arriving at its time `t` and handled in turn
      (`Arrivals`), extend a trace of decided arrivals. */
  lemma {:induction false} StepDecided(trace: seq<Admission>, seen: seq<Occupancy>,
                                       departed: Occupancy, admitted: seq<Admission>,
                                       seenStep: seq<Occupancy>, now: Occupancy,
                                       events: seq<ChargingEvent>, t: int,
                                       maxsize: int, openingHours: Option<(real, real)>)
    requires Decided(trace, seen, events, maxsize, openingHours)
    requires Arrivals(departed, events, |trace|, admitted, seenStep, maxsize, WithinOpeningHours(openingHours, t),
                      now)
    requires |trace| + |admitted| <= |events|
    requires forall k :: |trace| <= k < |trace| + |admitted| ==> events[k].arrivalTime == t
    ensures Decided(trace + admitted, seen + seenStep, events, maxsize, openingHours)
    decreases |admitted|
  {
    if admitted == [] {
      assert trace + admitted == trace && seen + seenStep == seen;
    } else {
      var n := |admitted| - 1;
      var m := |trace| + n;
      var before, seenBefore := trace + admitted[..n], seen + seenStep[..n];
      assert Arrivals(departed, events, |trace|, admitted[..n], seenStep[..n], maxsize,
                      WithinOpeningHours(openingHours, t), seenStep[n]);
      assert Decided(before, seenBefore, events, maxsize, openingHours) by {
        StepDecided(trace, seen, departed, admitted[..n], seenStep[..n], seenStep[n], events, t,
                    maxsize, openingHours);
      }
      assert |before| == m && events[m].arrivalTime == t;
      DecidedSnoc(before, seenBefore, events, maxsize, openingHours, admitted[n], seenStep[n]);
      SnocSplit(trace, admitted);
      SnocSplit(seen, seenStep);
    }
  }

  /** `a + b` is `a` and all of `b` but its last element, then that last element. */
  lemma SnocSplit<T>(a: seq<T>, b: seq<T>)
    requires b != []
    ensures (a + b[..|b| - 1]) + [b[|b| - 1]] == a + b
  {
    assert b[..|b| - 1] + [b[|b| - 1]] == b;
  }

  /** One more arrival, decided on the occupancy it found, extends a decided trace. */
  lemma DecidedSnoc(trace: seq<Admission>, seen: seq<Occupancy>, events: seq<ChargingEvent>,
                    maxsize: int, openingHours: Option<(real, real)>, a: Admission, o: Occupancy)
    requires Decided(trace, seen, events, maxsize, openingHours)
    requires |trace| < |events|
    requires ArrivalDecided(a, o, maxsize, WithinOpeningHours(openingHours, events[|trace|].arrivalTime))
    ensures Decided(trace + [a], seen + [o], events, maxsize, openingHours)
  {
    var n := |trace|;
    assert forall k :: 0 <= k < n ==> (trace + [a])[k] == trace[k] && (seen + [o])[k] == seen[k];
    assert (trace + [a])[n] == a && (seen + [o])[n] == o;
  }

  /** Event `idx` is the first of its arrival time among those from `idx` on: the one before
      it arrived at another time. */
  predicate NewArrival(events: seq<ChargingEvent>, idx: nat) {
    idx == 0 || idx >= |events| || events[idx - 1].arrivalTime != events[idx].arrivalTime
  }

  /** After the arrivals at `t`, the next event arrives at another time than the last one
      processed. */
  lemma AdvanceNewArrival(events: seq<ChargingEvent>, idx: nat, t: int)
    requires idx <= |events| && NewArrival(events, idx)
    ensures NewArrival(events, Advance(events, idx, t))
  {
    var r := Advance(events, idx, t);
    if idx < r < |events| {
      assert events[r - 1].arrivalTime == t;
    }
  }

  /** Within a step the arrivals are handled one after the other: an arrival at the same
      time as the one before it found the occupancy that one left. */
  ghost predicate Chained(trace: seq<Admission>, seen: seq<Occupancy>,
                          events: seq<ChargingEvent>)
  {
    && |seen| == |trace| <= |events|
    && forall k :: 0 < k < |trace| && events[k - 1].arrivalTime == events[k].arrivalTime ==>
         seen[k] == Admit(seen[k - 1], events[k - 1], trace[k - 1])
  }

  /** The arrivals of one more step, handled in turn (`Arrivals`), extend a chained trace
      when the step's first arrival is not at the time of the last one before it. */
  lemma {:induction false} StepChained(trace: seq<Admission>, seen: seq<Occupancy>,
                                       departed: Occupancy, admitted: seq<Admission>,
                                       seenStep: seq<Occupancy>, now: Occupancy,
                                       events: seq<ChargingEvent>, maxsize: int, open: bool)
    requires Chained(trace, seen, events)
    requires Arrivals(departed, events, |trace|, admitted, seenStep, maxsize, open, now)
    requires |trace| + |admitted| <= |events|
    requires admitted == [] || NewArrival(events, |trace|)
    ensures Chained(trace + admitted, seen + seenStep, events)
    decreases |admitted|
  {
    if admitted == [] {
      assert trace + admitted == trace && seen + seenStep == seen;
    } else {
      var n := |admitted| - 1;
      var m := |trace| + n;
      var before, seenBefore := trace + admitted[..n], seen + seenStep[..n];
      assert Arrivals(departed, events, |trace|, admitted[..n], seenStep[..n], maxsize, open,
                      seenStep[n]);
      assert Chained(before, seenBefore, events) by {
        StepChained(trace, seen, departed, admitted[..n], seenStep[..n], seenStep[n], events,
                    maxsize, open);
      }
      ChainLink(trace, seen, departed, admitted, seenStep, events, maxsize, open);
      ChainedSnoc(before, seenBefore, events, admitted[n], seenStep[n]);
      SnocSplit(trace, admitted);
      SnocSplit(seen, seenStep);
    }
  }

  /** The last arrival of a step, when it shares its time with the arrival before it in the
      whole trace, found the occupancy that one left. */
  lemma ChainLink(trace: seq<Admission>, seen: seq<Occupancy>, departed: Occupancy,
                  admitted: seq<Admission>, seenStep: seq<Occupancy>, events: seq<ChargingEvent>,
                  maxsize: int, open: bool)
    requires admitted != [] && |seenStep| == |admitted| && |seen| == |trace|
    requires NewArrival(events, |trace|)
    requires var n := |admitted| - 1;
      Arrivals(departed, events, |trace|, admitted[..n], seenStep[..n], maxsize, open,
               seenStep[n])
    requires |trace| + |admitted| <= |events|
    ensures var n := |admitted| - 1; var m := |trace| + n;
      var before, seenBefore := trace + admitted[..n], seen + seenStep[..n];
      |before| == m &&
      (before != [] && events[m - 1].arrivalTime == events[m].arrivalTime ==>
        seenStep[n] == Admit(seenBefore[m - 1], events[m - 1], before[m - 1]))
  {
    var n := |admitted| - 1;
    var m := |trace| + n;
    var before, seenBefore := trace + admitted[..n], seen + seenStep[..n];
    if n > 0 {
      ArrivalsLast(departed, events, |trace|, admitted[..n], seenStep[..n], maxsize, open,
                   seenStep[n]);
      assert admitted[..n][n - 1] == admitted[n - 1] && seenStep[..n][n - 1] == seenStep[n - 1];
      assert before[m - 1] == admitted[n - 1] && seenBefore[m - 1] == seenStep[n - 1];
    }
  }

  /** The occupancy after a non-empty run of arrivals is what the last of them left. */
  lemma ArrivalsLast(o0: Occupancy, events: seq<ChargingEvent>, from: nat,
                     admitted: seq<Admission>, seen: seq<Occupancy>,
                     maxsize: int, open: bool, now: Occupancy)
    requires Arrivals(o0, events, from, admitted, seen, maxsize, open, now) && admitted != []
    ensures |seen| == |admitted| && from + |admitted| <= |events|
    ensures now == Admit(seen[|admitted| - 1], events[from + |admitted| - 1],
                         admitted[|admitted| - 1])
  {
  }

  /** One more arrival extends a chained trace when, arriving at the time of the one before
      it, it found the occupancy that one left. */
  lemma ChainedSnoc(trace: seq<Admission>, seen: seq<Occupancy>, events: seq<ChargingEvent>,
                    a: Admission, o: Occupancy)
    requires Chained(trace, seen, events) && |trace| < |events|
    requires trace != [] && events[|trace| - 1].arrivalTime == events[|trace|].arrivalTime ==>
      o == Admit(seen[|trace| - 1], events[|trace| - 1], trace[|trace| - 1])
    ensures Chained(trace + [a], seen + [o], events)
  {
    var n := |trace|;
    assert forall k :: 0 <= k < n ==> (trace + [a])[k] == trace[k] && (seen + [o])[k] == seen[k];
    assert (trace + [a])[n] == a && (seen + [o])[n] == o;
  }

  /** The arrivals of one step, handled in turn from the occupancy the departures left,
      extend the run's trace: still decided, still chained, counted, and the next event
      starts a new arrival time. */
  lemma ExtendTrace(trace: seq<Admission>, seen: seq<Occupancy>, departed: Occupancy,
                    admitted: seq<Admission>, seenStep: seq<Occupancy>, now: Occupancy,
                    events: seq<ChargingEvent>, t: int, maxsize: int,
                    openingHours: Option<(real, real)>)
    requires |trace| <= |events| && NewArrival(events, |trace|)
    requires Decided(trace, seen, events, maxsize, openingHours) && Chained(trace, seen, events)
    requires Arrivals(departed, events, |trace|, admitted, seenStep, maxsize,
                      WithinOpeningHours(openingHours, t), now)
    requires |trace| + |admitted| == Advance(events, |trace|, t)
    ensures Decided(trace + admitted, seen + seenStep, events, maxsize, openingHours)
    ensures Chained(trace + admitted, seen + seenStep, events)
    ensures NewArrival(events, |trace + admitted|)
    ensures Rejections(trace + admitted) == Rejections(trace) + Rejections(admitted)
  {
    StepDecided(trace, seen, departed, admitted, seenStep, now, events, t, maxsize, openingHours);
    StepChained(trace, seen, departed, admitted, seenStep, now, events, maxsize,
                WithinOpeningHours(openingHours, t));
    AdvanceNewArrival(events, |trace|, t);
    RejectionsAppend(trace, admitted);
  }

  /** What one step of the main loop hands on: the event index, the rejection counter, the
      charging periods, and the powers it recorded. */
  datatype StepOutput = StepOutput(
    idx: nat,
    counter: nat,
    periods: map<nat, ChargingTimes>,
    cpsPower: map<nat, real>,
    storagePower: map<StationaryBattery, real>)

  /** What one completed step of the main loop went through: the occupancy `start` it began
      from, with stored next-leave time `nextLeave`; the occupancy `departed` the departures
      left, `taken` being the points handed to queued events; the step's arrivals `admitted`
      and the occupancies `seen` they found; the occupancy `arrived` after them; the powers
      `powers` the policy gave the points; and the occupancy `end` once the connected
      vehicles were charged. */
  datatype StepRecord = StepRecord(
    start: Occupancy,
    nextLeave: Option<int>,
    departed: Occupancy,
    taken: seq<nat>,
    admitted: seq<Admission>,
    seen: seq<Occupancy>,
    arrived: Occupancy,
    powers: map<nat, real>,
    end: Occupancy)

  /** Charging changes only the connected vehicles: the point sets and the queue stay, and
      each busy point's vehicle is charged with that point's power for one step. */
  ghost predicate ChargedFrom(before: Occupancy, after: Occupancy, powers: map<nat, real>,
                              chargeVehicle: (VehicleView, real, int) -> VehicleView,
                              resolution: int)
  {
    && after.free == before.free && after.busy == before.busy && after.queue == before.queue
    && after.vehicles.Keys == before.vehicles.Keys
    && forall cp :: cp in after.busy ==>
         && cp in powers && cp in before.vehicles
         && after.vehicles[cp] == chargeVehicle(before.vehicles[cp], powers[cp], resolution)
  }

  /** Step record `s` is one step at time `t` whose arrivals start at event `idx`: the stored
      next-leave time is no later than any queued leaving time, the departures are as
      `DeparturesDone` says, the arrivals are handled in turn from the occupancy the
      departures left (`Arrivals`), which are exactly the events arriving at `t`, and
      charging took `arrived` to `end`. */
  ghost predicate StepDone(s: StepRecord, events: seq<ChargingEvent>, idx: nat, t: int,
                           maxsize: int, byTime: bool, openingHours: Option<(real, real)>,
                           chargeVehicle: (VehicleView, real, int) -> VehicleView,
                           resolution: int)
  {
    var open := WithinOpeningHours(openingHours, t);
    && LeavesNoEarlier(s.nextLeave, s.start.queue)
    && DeparturesDone(s.start, s.nextLeave, s.departed, s.taken, t, byTime, open)
    && idx <= |events| && idx + |s.admitted| == Advance(events, idx, t)
    && Arrivals(s.departed, events, idx, s.admitted, s.seen, maxsize, open, s.arrived)
    && ChargedFrom(s.arrived, s.end, s.powers, chargeVehicle, resolution)
  }

  /** The `n`-th step of a run: `StepDone` at the `n`-th time step of `timeSteps`, its
      arrivals starting at the event index the earlier steps reached. */
  ghost function DoneAt(events: seq<ChargingEvent>, timeSteps: seq<int>, maxsize: int,
                        byTime: bool, openingHours: Option<(real, real)>,
                        chargeVehicle: (VehicleView, real, int) -> VehicleView,
                        resolution: int): (done: (StepRecord, nat) -> bool)
    ensures forall s: StepRecord, n: nat :: done(s, n) ==> n < |timeSteps|
  {
    (s: StepRecord, n: nat) =>
      n < |timeSteps|
      && StepDone(s, events, ProcessedAt(events, timeSteps, n), timeSteps[n], maxsize, byTime,
                  openingHours, chargeVehicle, resolution)
  }

  /** The steps `steps` ran one after the other from occupancy `init` with stored next-leave
      time `initLeave`: the first starts there, each later one starts from the occupancy the
      one before it ended in, and the `n`-th satisfies `done` at position `n` (in a run,
      `done` is `DoneAt`). */
  ghost predicate RunLinked(steps: seq<StepRecord>, init: Occupancy, initLeave: Option<int>,
                            done: (StepRecord, nat) -> bool)
  {
    && (steps != [] ==> steps[0].start == init && steps[0].nextLeave == initLeave)
    && (forall i, j :: 0 <= i && j == i + 1 < |steps| ==> steps[j].start == steps[i].end)
    && forall n :: 0 <= n < |steps| ==> done(steps[n], n)
  }

  /** One more step, done at the next position and starting where the run so far ended,
      extends a linked run. */
  lemma RunLinkedSnoc(steps: seq<StepRecord>, s: StepRecord, init: Occupancy,
                      initLeave: Option<int>, done: (StepRecord, nat) -> bool)
    requires RunLinked(steps, init, initLeave, done)
    requires done(s, |steps|)
    requires steps == [] ==> s.start == init && s.nextLeave == initLeave
    requires steps != [] ==> s.start == steps[|steps| - 1].end
    ensures RunLinked(steps + [s], init, initLeave, done)
    ensures |steps + [s]| == |steps| + 1 && (steps + [s])[|steps|] == s
  {
    var all := steps + [s];
    assert all[|steps|] == s;
    assert forall n :: 0 <= n < |steps| ==> all[n] == steps[n];
  }

  /** The arrivals of the steps `steps`, in order. */
  function TraceOf(steps: seq<StepRecord>): seq<Admission>
    decreases |steps|
  {
    if steps == [] then [] else TraceOf(steps[..|steps| - 1]) + steps[|steps| - 1].admitted
  }

  /** The occupancies the arrivals of the steps `steps` found, in order. */
  function SeenOf(steps: seq<StepRecord>): seq<Occupancy>
    decreases |steps|
  {
    if steps == [] then [] else SeenOf(steps[..|steps| - 1]) + steps[|steps| - 1].seen
  }

  /** One more step appends its arrivals and what they found. */
  lemma TraceOfSnoc(steps: seq<StepRecord>, s: StepRecord)
    ensures TraceOf(steps + [s]) == TraceOf(steps) + s.admitted
    ensures SeenOf(steps + [s]) == SeenOf(steps) + s.seen
  {
    assert (steps + [s])[..|steps|] == steps;
  }

  /** A run from an empty site with `points` free: if the first step is open and has
      arrivals, the first of them is connected, so a site with free points never turns its
      first arrival away while open. */
  lemma {:induction false} FirstArrivalConnects(steps: seq<StepRecord>, points: set<nat>,
                                                events: seq<ChargingEvent>, timeSteps: seq<int>,
                                                maxsize: int, byTime: bool,
                                                openingHours: Option<(real, real)>,
                                                chargeVehicle: (VehicleView, real, int) -> VehicleView,
                                                resolution: int)
    requires RunLinked(steps, Occupancy(points, {}, map[], []), None,
                       DoneAt(events, timeSteps, maxsize, byTime, openingHours, chargeVehicle,
                              resolution))
    requires steps != [] && steps[0].admitted != [] && points != {}
    requires WithinOpeningHours(openingHours, timeSteps[0])
    ensures steps[0].admitted[0].Connected?
  {
    var s := steps[0];
    assert DoneAt(events, timeSteps, maxsize, byTime, openingHours, chargeVehicle, resolution)(s, 0);
    assert ProcessedAt(events, timeSteps, 0) == 0;
    var open := WithinOpeningHours(openingHours, timeSteps[0]);
    assert s.departed.free == points;
    ArrivalsAt(s.departed, events, 0, s.admitted, s.seen, maxsize, open, s.arrived);
    assert FateOf(s.admitted[0]) == FateAt(|points|, |s.departed.queue|, maxsize, open, 0);
  }

  /** In a run linked under `DoneAt`, the `n`-th record takes exactly the events arriving at
      the `n`-th time step: they follow on from the earlier steps' events, and the next step
      starts at the first event after them. */
  lemma StepTakesItsArrivals(steps: seq<StepRecord>, init: Occupancy,
                               initLeave: Option<int>,
                               events: seq<ChargingEvent>, timeSteps: seq<int>,
                               maxsize: int, byTime: bool,
                               openingHours: Option<(real, real)>,
                               chargeVehicle: (VehicleView, real, int) -> VehicleView,
                               resolution: int, n: nat)
    requires RunLinked(steps, init, initLeave,
                       DoneAt(events, timeSteps, maxsize, byTime, openingHours, chargeVehicle,
                              resolution))
    requires n < |steps|
    ensures n < |timeSteps|
    ensures ProcessedAt(events, timeSteps, n) + |steps[n].admitted|
              == ProcessedAt(events, timeSteps, n + 1)
    ensures forall j ::
              ProcessedAt(events, timeSteps, n) <= j < ProcessedAt(events, timeSteps, n + 1) ==>
              events[j].arrivalTime == timeSteps[n]
  {
  }

  /** A sequence without repeats has as many elements as entries. */
  lemma {:induction false} DistinctElements(s: seq<nat>)
    requires Distinct(s)
    ensures |Elements(s)| == |s|
  {
    if s != [] {
      var init := s[..|s| - 1];
      assert Distinct(init);
      DistinctElements(init);
      assert Elements(s) == Elements(init) + {s[|s| - 1]};
      assert s[|s| - 1] !in Elements(init);
    }
  }

  /** The departures of a step fix how many points are freed and how many queued events
      remain: whichever expired points take the queue's events, `min(expired, queued)` of
      them are handed over and the rest freed. */
  lemma DeparturesCounts(o: Occupancy, nextLeave: Option<int>, departed: Occupancy,
                         taken: seq<nat>, t: int, byTime: bool, open: bool)
    requires DeparturesDone(o, nextLeave, departed, taken, t, byTime, open)
    requires o.free !! o.busy
    ensures var pruned := QueueAfterUpdateIntended(o.queue, nextLeave, t, byTime, open);
            var expired := |ExpiredPoints(o.busy, o.vehicles, t, byTime)|;
            && (!open ==> |departed.free| == |o.free| + |o.busy| && departed.queue == [])
            && (open ==> |departed.free| == |o.free| + expired - |taken|)
            && (open ==> |taken| == if expired <= |pruned| then expired else |pruned|)
            && (open ==> |departed.queue| == |pruned| - |taken|)
  {
    if open {
      var pruned := QueueAfterUpdateIntended(o.queue, nextLeave, t, byTime, open);
      var freed := o.busy - departed.busy;
      var expired := ExpiredPoints(o.busy, o.vehicles, t, byTime);
      assert freed !! Elements(taken) by {
        forall j | 0 <= j < |taken| ensures taken[j] !in freed {
          assert taken[j] in departed.busy;
        }
      }
      DistinctElements(taken);
      assert |expired| == |freed| + |taken|;
      assert |departed.free| == |o.free| + |freed|;
    }
  }

  /** How many of `arrivals` arrivals a step rejects when it starts with `free` free points,
      `expired` due vehicles and `pruned` events left in the queue: `min(expired, pruned)`
      due points take queued events and the others are freed, then the arrivals beyond the
      free points and the queue's room are rejected; while closed, all of them. */
  function RejectedInStep(arrivals: nat, free: nat, expired: nat, pruned: nat, maxsize: int,
                          open: bool): (n: nat)
    ensures n <= arrivals
    ensures !open ==> n == arrivals
  {
    var handed := if expired <= pruned then expired else pruned;
    if open then Max0(arrivals - (free + expired - handed) - Room(pruned - handed, maxsize))
    else arrivals
  }

  /** The rejections of one step in closed form, from the occupancy the step started at:
      with `expired` due points and `pruned` events left in the queue, `min(expired,
      pruned)` points take queued events and the rest are freed; the step's arrivals are
      the events arriving at `t`, and those beyond the free points and the queue's room are
      rejected (all of them while closed). */
  lemma StepRejections(s: StepRecord, events: seq<ChargingEvent>, idx: nat, t: int,
                       maxsize: int, byTime: bool, openingHours: Option<(real, real)>,
                       chargeVehicle: (VehicleView, real, int) -> VehicleView,
                       resolution: int)
    requires StepDone(s, events, idx, t, maxsize, byTime, openingHours, chargeVehicle, resolution)
    requires s.start.free !! s.start.busy
    ensures idx <= |events| && |s.admitted| == Advance(events, idx, t) - idx
    ensures var o, open := s.start, WithinOpeningHours(openingHours, t);
            Rejections(s.admitted) ==
              RejectedInStep(|s.admitted|, |o.free|,
                             |ExpiredPoints(o.busy, o.vehicles, t, byTime)|,
                             |QueueAfterUpdateIntended(o.queue, s.nextLeave, t, byTime, open)|,
                             maxsize, open)
  {
    var open := WithinOpeningHours(openingHours, t);
    DeparturesCounts(s.start, s.nextLeave, s.departed, s.taken, t, byTime, open);
    ArrivalsAt(s.departed, events, idx, s.admitted, s.seen, maxsize, open, s.arrived);
    RejectionsOfStep(s.admitted, |s.departed.free|, |s.departed.queue|, maxsize, open);
  }

  /** Two records of the same step from the same occupancy reject equally many arrivals,
      whichever due points took the queued events. */
  lemma StepRejectionsDetermined(s1: StepRecord, s2: StepRecord, events: seq<ChargingEvent>,
                                 idx: nat, t: int, maxsize: int, byTime: bool,
                                 openingHours: Option<(real, real)>,
                                 chargeVehicle: (VehicleView, real, int) -> VehicleView,
                                 resolution: int)
    requires StepDone(s1, events, idx, t, maxsize, byTime, openingHours, chargeVehicle, resolution)
    requires StepDone(s2, events, idx, t, maxsize, byTime, openingHours, chargeVehicle, resolution)
    requires s1.start == s2.start && s1.nextLeave == s2.nextLeave && s1.start.free !! s1.start.busy
    ensures |s1.admitted| == |s2.admitted|
    ensures Rejections(s1.admitted) == Rejections(s2.admitted)
  {
    StepRejections(s1, events, idx, t, maxsize, byTime, openingHours, chargeVehicle, resolution);
    StepRejections(s2, events, idx, t, maxsize, byTime, openingHours, chargeVehicle, resolution);
  }

  /** One iteration of the main loop, at time `t`, the `pos`-th step: the occupancy half
      (departures, then the arrivals at `t`), the policy's assignment on the occupancy that
      leaves, then the power half. The step's arrivals and the occupancies they found extend
      the decided trace; `rec` records the step from the occupancy it started at, and a
      step that succeeds is `StepDone` and ends at the site's and queue's new occupancy; an
      error leaves the step unfinished. */
  method SimulateStep(site: Site, q: WaitingQueue, storage: set<StationaryBattery>,
                      events: seq<ChargingEvent>, idx: nat, counter: nat,
                      periods: map<nat, ChargingTimes>, pos: nat, t: int, resolution: int,
                      openingHours: Option<(real, real)>, byTime: bool,
                      preload: Option<seq<real>>,
                      schedule: (set<nat>, set<nat>, map<nat, VehicleView>, nat) -> Assignment,
                      chargeVehicle: (VehicleView, real, int) -> VehicleView,
                      headroom: (StationaryBattery, map<nat, real>, real) -> real,
                      log: bool, ghost trace: seq<Admission>, ghost seen: seq<Occupancy>)
    returns (r: Result<StepOutput>, ghost traceOut: seq<Admission>,
             ghost seenOut: seq<Occupancy>, ghost rec: StepRecord)
    requires site.Valid() && q.Valid() && resolution > 0
    requires forall s :: s in storage ==> s.Valid()
    requires forall free, busy, vehicles, pos ::
      schedule(free, busy, vehicles, pos).storage.Keys <= storage
    requires |trace| == idx <= |events| && counter == Rejections(trace)
    requires Decided(trace, seen, events, q.maxsize, openingHours)
    requires Chained(trace, seen, events) && NewArrival(events, idx)
    modifies site, q, storage
    ensures site.Valid() && q.Valid()
    ensures Decided(traceOut, seenOut, events, q.maxsize, openingHours)
    ensures Chained(traceOut, seenOut, events)
    ensures r.Ok? ==> r.value.idx == Advance(events, idx, t) == |traceOut|
    ensures r.Ok? ==> NewArrival(events, r.value.idx)
    ensures r.Ok? ==> r.value.counter == Rejections(traceOut)
    ensures r.Ok? ==> preload.None? || pos < |preload.value|
    ensures r.Ok? ==> forall s :: s in storage ==> s.Valid()
    ensures rec.start == old(Snapshot(site, q)) && rec.nextLeave == old(q.nextLeave)
    ensures traceOut == trace + rec.admitted && seenOut == seen + rec.seen
    ensures r.Ok? ==> StepDone(rec, events, idx, t, q.maxsize, byTime, openingHours,
                               chargeVehicle, resolution)
    ensures r.Ok? ==> rec.end == Snapshot(site, q) && rec.powers == r.value.cpsPower
    ensures r.Ok? && PeriodsOrdered(periods, t) ==> PeriodsOrdered(r.value.periods, t)
  {
    ghost var start, startLeave := Snapshot(site, q), q.nextLeave;
    var open := WithinOpeningHours(openingHours, t);
    ghost var departed, taken, admitted, seenStep;
    var idxNext, counterNext;
    idxNext, counterNext, departed, taken, admitted, seenStep :=
      OccupancyStep(site, q, events, idx, counter, t, open, byTime, log);
    ExtendTrace(trace, seen, departed, admitted, seenStep, Snapshot(site, q), events, t,
                q.maxsize, openingHours);
    traceOut, seenOut := trace + admitted, seen + seenStep;
    ghost var arrived := Snapshot(site, q);
    var assign := schedule(site.free, site.busy, site.vehicles, pos);
    rec := StepRecord(start, startLeave, departed, taken, admitted, seenStep, arrived, assign.cps,
                      arrived);
    var powered := PowerStep(site, storage, periods, assign, pos, t, resolution, preload,
                             chargeVehicle, headroom);
    if powered.Err? {
      return Err(powered.error), traceOut, seenOut, rec;
    }
    rec := rec.(end := Snapshot(site, q));
    r := Ok(StepOutput(idxNext, counterNext, powered.value.0, assign.cps, powered.value.1));
  }

  /** What a run leaves behind: the rejection counter, the charging periods, how many events
      were processed, and the powers recorded at every step. */
  datatype RunSummary = RunSummary(
    counterRejections: nat,
    chargingPeriods: map<nat, ChargingTimes>,
    processed: nat,
    cpsPowers: seq<map<nat, real>>,
    storagePowers: seq<map<StationaryBattery, real>>)

  /** The main loop of `simulate_async` over the time steps. The site starts with every
      point free and an empty queue of length `queueLength`. Each step prunes the queue,
      disconnects due vehicles, admits the step's arrivals, asks the policy for powers,
      records the charging periods, charges vehicles and storage, and records the powers.
      The first error ends the run. `trace` lists what happened to each processed arrival,
      in order, and `seen` the occupancy each of them found: every arrival's fate is what
      `handle_car_arrival` decides on that occupancy, so the rejection counter counts
      exactly the arrivals that came while the site was closed, or found no free point and
      the queue disabled or full. `steps` records each step: the first starts with every
      point free and the queue empty, each later one where the one before ended, and each
      is `StepDone` at its time step: exactly the due points are freed or handed over, and
      exactly the events arriving at that step arrive. */
  method SimulateRun(points: set<nat>, queueLength: int, storage: set<StationaryBattery>,
                     events: seq<ChargingEvent>, timeSteps: seq<int>, resolution: int,
                     openingHours: Option<(real, real)>, byTime: bool,
                     preload: Option<seq<real>>,
                     schedule: (set<nat>, set<nat>, map<nat, VehicleView>, nat) -> Assignment,
                     chargeVehicle: (VehicleView, real, int) -> VehicleView,
                     headroom: (StationaryBattery, map<nat, real>, real) -> real,
                     log: bool)
    returns (r: Result<RunSummary>, ghost trace: seq<Admission>, ghost seen: seq<Occupancy>,
             ghost steps: seq<StepRecord>)
    requires resolution > 0
    requires forall s :: s in storage ==> s.Valid()
    requires forall free, busy, vehicles, pos ::
      schedule(free, busy, vehicles, pos).storage.Keys <= storage
    modifies storage
    ensures r.Ok? ==> r.value.processed == ProcessedUpTo(events, timeSteps)
    ensures r.Ok? ==> |trace| == r.value.processed == |seen|
    ensures r.Ok? ==> r.value.counterRejections == Rejections(trace)
    ensures r.Ok? ==> forall k :: 0 <= k < |trace| ==> ArrivalDecided(
      trace[k], seen[k], queueLength, WithinOpeningHours(openingHours, events[k].arrivalTime))
    ensures r.Ok? ==> forall k :: 0 < k < |trace| && events[k - 1].arrivalTime == events[k].arrivalTime ==>
      seen[k] == Admit(seen[k - 1], events[k - 1], trace[k - 1])
    ensures r.Ok? ==> |r.value.cpsPowers| == |timeSteps| == |r.value.storagePowers|
    ensures r.Ok? && timeSteps == [] ==> r.value.chargingPeriods.Keys == {}
    ensures r.Ok? && SimTypes.Ascending(timeSteps) && timeSteps != [] ==>
      PeriodsOrdered(r.value.chargingPeriods, timeSteps[|timeSteps| - 1])
    ensures r.Ok? ==> preload.None? || |timeSteps| <= |preload.value|
    ensures r.Ok? ==> forall s :: s in storage ==> s.Valid()
    ensures r.Ok? ==> |steps| == |timeSteps|
    ensures r.Ok? ==> RunLinked(steps, Occupancy(points, {}, map[], []), None,
                                DoneAt(events, timeSteps, queueLength, byTime, openingHours,
                                       chargeVehicle, resolution))
    ensures r.Ok? ==> trace == TraceOf(steps) && seen == SeenOf(steps)
    ensures r.Ok? ==> forall i :: 0 <= i < |steps| ==> r.value.cpsPowers[i] == steps[i].powers
  {
    var site := new Site(points);
    var q := new WaitingQueue(queueLength);
    r, trace, seen, steps := RunSteps(site, q, storage, events, timeSteps, resolution, openingHours,
                               byTime, preload, schedule, chargeVehicle, headroom, log);
    ProcessedAtIsUpToAll(events, timeSteps);
  }

  /** The step records of the first `|steps|` steps link up from `init` (with next-leave
      time `initLeave`) to the current occupancy `now`, make up the trace, and hold the
      power maps recorded. */
  ghost predicate RunChained(cpsPowers: seq<map<nat, real>>, trace: seq<Admission>,
                             seen: seq<Occupancy>, steps: seq<StepRecord>, init: Occupancy,
                             initLeave: Option<int>, now: Occupancy, nowLeave: Option<int>,
                             events: seq<ChargingEvent>, timeSteps: seq<int>, maxsize: int,
                             byTime: bool, openingHours: Option<(real, real)>,
                             chargeVehicle: (VehicleView, real, int) -> VehicleView,
                             resolution: int)
  {
    && |cpsPowers| == |steps|
    && RunLinked(steps, init, initLeave,
                 DoneAt(events, timeSteps, maxsize, byTime, openingHours, chargeVehicle,
                        resolution))
    && trace == TraceOf(steps) && seen == SeenOf(steps)
    && (steps == [] ==> now == init && nowLeave == initLeave)
    && (steps != [] ==> steps[|steps| - 1].end == now)
    && forall i :: 0 <= i < |steps| ==> cpsPowers[i] == steps[i].powers
  }

  /** One more step record `rec`, starting at `now` and done as `StepDone` says, keeps
      `RunChained` with the step's trace and power map appended. (Stated as one implication,
      so that a caller only supplies what it already knows.) */
  lemma RunChainedStep(cpsPowers: seq<map<nat, real>>, trace: seq<Admission>,
                       seen: seq<Occupancy>, steps: seq<StepRecord>, init: Occupancy,
                       initLeave: Option<int>, now: Occupancy, nowLeave: Option<int>,
                       events: seq<ChargingEvent>, timeSteps: seq<int>, maxsize: int,
                       byTime: bool, openingHours: Option<(real, real)>,
                       chargeVehicle: (VehicleView, real, int) -> VehicleView,
                       resolution: int, idx: nat, rec: StepRecord, end: Occupancy,
                       endLeave: Option<int>)
    ensures && RunChained(cpsPowers, trace, seen, steps, init, initLeave, now, nowLeave,
                          events, timeSteps, maxsize, byTime, openingHours, chargeVehicle,
                          resolution)
            && |steps| < |timeSteps| && idx == ProcessedAt(events, timeSteps, |steps|)
            && rec.start == now && rec.nextLeave == nowLeave && rec.end == end
            && StepDone(rec, events, idx, timeSteps[|steps|], maxsize, byTime, openingHours,
                        chargeVehicle, resolution)
            ==> RunChained(cpsPowers + [rec.powers], trace + rec.admitted, seen + rec.seen,
                           steps + [rec], init, initLeave, end, endLeave, events, timeSteps,
                           maxsize, byTime, openingHours, chargeVehicle, resolution)
  {
    if && RunChained(cpsPowers, trace, seen, steps, init, initLeave, now, nowLeave, events,
                     timeSteps, maxsize, byTime, openingHours, chargeVehicle, resolution)
       && |steps| < |timeSteps| && idx == ProcessedAt(events, timeSteps, |steps|)
       && rec.start == now && rec.nextLeave == nowLeave && rec.end == end
       && StepDone(rec, events, idx, timeSteps[|steps|], maxsize, byTime, openingHours,
                   chargeVehicle, resolution)
    {
      var done := DoneAt(events, timeSteps, maxsize, byTime, openingHours, chargeVehicle,
                         resolution);
      assert done(rec, |steps|);
      RunLinkedSnoc(steps, rec, init, initLeave, done);
      TraceOfSnoc(steps, rec);
      PowersSnoc(cpsPowers, steps, rec);
    }
  }

  /** The power maps recorded per step stay those of the step records when one more step
      is appended to both. */
  lemma PowersSnoc(cpsPowers: seq<map<nat, real>>, steps: seq<StepRecord>, rec: StepRecord)
    requires |cpsPowers| == |steps|
    requires forall i :: 0 <= i < |steps| ==> cpsPowers[i] == steps[i].powers
    ensures forall i :: 0 <= i <= |steps| ==>
      (cpsPowers + [rec.powers])[i] == (steps + [rec])[i].powers
  {
  }

  /** Where a run stands after its first `pos` steps, from occupancy `init` (with next-leave
      time `initLeave`) to the current occupancy `now` (with `nowLeave`): `acc` counts the
      events those steps processed; the processed arrivals `trace`, with the occupancies
      `seen` they found, are decided and handled in turn, and the counter counts their
      rejections; one power map per step is recorded; the charging periods are as
      `PeriodsSoFar` says; the preload covered every step; and the step records `steps` link
      up from `init` to `now`. */
  ghost predicate RunSoFar(acc: RunSummary, pos: nat, trace: seq<Admission>,
                           seen: seq<Occupancy>, steps: seq<StepRecord>, init: Occupancy,
                           initLeave: Option<int>, now: Occupancy, nowLeave: Option<int>,
                           events: seq<ChargingEvent>, timeSteps: seq<int>, maxsize: int,
                           byTime: bool, openingHours: Option<(real, real)>,
                           chargeVehicle: (VehicleView, real, int) -> VehicleView,
                           resolution: int, preload: Option<seq<real>>)
  {
    && pos <= |timeSteps|
    && acc.processed == ProcessedAt(events, timeSteps, pos) == |trace|
    && Decided(trace, seen, events, maxsize, openingHours)
    && Chained(trace, seen, events) && NewArrival(events, acc.processed)
    && acc.counterRejections == Rejections(trace)
    && |acc.cpsPowers| == pos == |acc.storagePowers|
    && PeriodsSoFar(acc.chargingPeriods, timeSteps, pos)
    && (preload.Some? ==> pos <= |preload.value|)
    && RunChained(acc.cpsPowers, trace, seen, steps, init, initLeave, now, nowLeave, events,
                  timeSteps, maxsize, byTime, openingHours, chargeVehicle, resolution)
  }

  /** Before the first step nothing is processed, counted or recorded. */
  lemma RunSoFarStart(init: Occupancy, initLeave: Option<int>, events: seq<ChargingEvent>,
                      timeSteps: seq<int>, maxsize: int, byTime: bool,
                      openingHours: Option<(real, real)>,
                      chargeVehicle: (VehicleView, real, int) -> VehicleView,
                      resolution: int, preload: Option<seq<real>>)
    ensures RunSoFar(RunSummary(0, map[], 0, [], []), 0, [], [], [], init, initLeave, init,
                     initLeave, events, timeSteps, maxsize, byTime, openingHours, chargeVehicle,
                     resolution, preload)
  {
  }

  /** One pass of the `for` loop of `simulate_async`, at the `pos`-th time step: `SimulateStep`,
      then the step's powers and its record appended to what the run recorded so far. It
      keeps `RunSoFar` from `pos` to `pos + 1` steps. (`RunSoFar` is required as a single
      fact, `== true`, so that the loop hands it over whole rather than conjunct by
      conjunct.) */
  method RunStep(site: Site, q: WaitingQueue, storage: set<StationaryBattery>,
                 events: seq<ChargingEvent>, timeSteps: seq<int>, pos: nat, acc: RunSummary,
                 resolution: int, openingHours: Option<(real, real)>, byTime: bool,
                 preload: Option<seq<real>>,
                 schedule: (set<nat>, set<nat>, map<nat, VehicleView>, nat) -> Assignment,
                 chargeVehicle: (VehicleView, real, int) -> VehicleView,
                 headroom: (StationaryBattery, map<nat, real>, real) -> real,
                 log: bool, ghost trace: seq<Admission>, ghost seen: seq<Occupancy>,
                 ghost steps: seq<StepRecord>, ghost init: Occupancy,
                 ghost initLeave: Option<int>)
    returns (r: Result<RunSummary>, ghost traceOut: seq<Admission>,
             ghost seenOut: seq<Occupancy>, ghost stepsOut: seq<StepRecord>)
    requires site.Valid() && q.Valid() && resolution > 0 && pos < |timeSteps|
    requires forall s :: s in storage ==> s.Valid()
    requires forall free, busy, vehicles, pos ::
      schedule(free, busy, vehicles, pos).storage.Keys <= storage
    requires (RunSoFar(acc, pos, trace, seen, steps, init, initLeave, Snapshot(site, q),
                       q.nextLeave, events, timeSteps, q.maxsize, byTime, openingHours,
                       chargeVehicle, resolution, preload) == true)
    modifies site, q, storage
    ensures site.Valid() && q.Valid()
    ensures Decided(traceOut, seenOut, events, q.maxsize, openingHours)
    ensures Chained(traceOut, seenOut, events)
    ensures r.Ok? ==> RunSoFar(r.value, pos + 1, traceOut, seenOut, stepsOut, init, initLeave,
                               Snapshot(site, q), q.nextLeave, events, timeSteps, q.maxsize,
                               byTime, openingHours, chargeVehicle, resolution, preload)
    ensures r.Ok? ==> forall s :: s in storage ==> s.Valid()
  {
    ghost var now, nowLeave := Snapshot(site, q), q.nextLeave;
    var step;
    ghost var rec;
    step, traceOut, seenOut, rec := SimulateStep(site, q, storage, events, acc.processed,
                                                 acc.counterRejections, acc.chargingPeriods,
                                                 pos, timeSteps[pos], resolution, openingHours,
                                                 byTime, preload, schedule, chargeVehicle,
                                                 headroom, log, trace, seen);
    stepsOut := steps + [rec];
    if step.Err? {
      return Err(step.error), traceOut, seenOut, stepsOut;
    }
    PeriodsSoFarStep(acc.chargingPeriods, step.value.periods, timeSteps, pos);
    RunChainedStep(acc.cpsPowers, trace, seen, steps, init, initLeave, now, nowLeave, events,
                   timeSteps, q.maxsize, byTime, openingHours, chargeVehicle, resolution,
                   acc.processed, rec, Snapshot(site, q), q.nextLeave);
    r := Ok(RunSummary(step.value.counter, step.value.periods, step.value.idx,
                       acc.cpsPowers + [step.value.cpsPower],
                       acc.storagePowers + [step.value.storagePower]));
  }

  /** The `for` loop of `simulate_async` from a valid site and queue: one `SimulateStep` per
      time step, ending at the first error. The arrivals processed are decided (`Decided`)
      and handled in turn within each step (`Chained`), whether the run ends or fails; a run
      that ends stands as `RunSoFar` says after all its steps, from the site and queue it
      started with. */
  method RunSteps(site: Site, q: WaitingQueue, storage: set<StationaryBattery>,
                  events: seq<ChargingEvent>, timeSteps: seq<int>, resolution: int,
                  openingHours: Option<(real, real)>, byTime: bool,
                  preload: Option<seq<real>>,
                  schedule: (set<nat>, set<nat>, map<nat, VehicleView>, nat) -> Assignment,
                  chargeVehicle: (VehicleView, real, int) -> VehicleView,
                  headroom: (StationaryBattery, map<nat, real>, real) -> real,
                  log: bool)
    returns (r: Result<RunSummary>, ghost trace: seq<Admission>, ghost seen: seq<Occupancy>,
             ghost steps: seq<StepRecord>)
    requires site.Valid() && q.Valid() && resolution > 0
    requires forall s :: s in storage ==> s.Valid()
    requires forall free, busy, vehicles, pos ::
      schedule(free, busy, vehicles, pos).storage.Keys <= storage
    modifies site, q, storage
    ensures Decided(trace, seen, events, q.maxsize, openingHours)
    ensures Chained(trace, seen, events)
    ensures r.Ok? ==> (RunSoFar(r.value, |timeSteps|, trace, seen, steps, old(Snapshot(site, q)),
                               old(q.nextLeave), Snapshot(site, q), q.nextLeave, events,
                               timeSteps, q.maxsize, byTime, openingHours, chargeVehicle,
                               resolution, preload) == true)
    ensures r.Ok? ==> forall s :: s in storage ==> s.Valid()
  {
    ghost var init, initLeave := Snapshot(site, q), q.nextLeave;
    var acc := RunSummary(0, map[], 0, [], []);
    trace, seen, steps := [], [], [];
    RunSoFarStart(init, initLeave, events, timeSteps, q.maxsize, byTime, openingHours,
                  chargeVehicle, resolution, preload);
    var pos := 0;
    while pos < |timeSteps|
      invariant 0 <= pos <= |timeSteps|
      invariant site.Valid() && q.Valid()
      invariant forall s :: s in storage ==> s.Valid()
      invariant (RunSoFar(acc, pos, trace, seen, steps, init, initLeave, Snapshot(site, q),
                          q.nextLeave, events, timeSteps, q.maxsize, byTime, openingHours,
                          chargeVehicle, resolution, preload) == true)
      invariant Decided(trace, seen, events, q.maxsize, openingHours)
      invariant Chained(trace, seen, events)
      decreases |timeSteps| - pos
    {
      var next;
      next, trace, seen, steps := RunStep(site, q, storage, events, timeSteps, pos, acc,
                                          resolution, openingHours, byTime, preload, schedule,
                                          chargeVehicle, headroom, log, trace, seen, steps,
                                          init, initLeave);
      if next.Err? {
        return Err(next.error), trace, seen, steps;
      }
      acc := next.value;
      pos := pos + 1;
    }
    r := Ok(acc);
  }
}

=== FILE: site_steps.dfy ===
/** The per-step updates of a charging site (elvis/simulate.py): admitting an arrival,
    pruning the waiting queue, disconnecting vehicles and charging the connected ones.
    Charging points are identified by number; which vehicle each busy point holds is kept
    in one map, the `connected_vehicle` of every point. */
module SiteSteps {
  import opened Outcomes
  import opened Events
  import opened WaitingQueues

  /** The free and busy charging points of the infrastructure and the vehicle each busy
      point holds. */
  class Site {
    const points: set<nat>
    var free: set<nat>
    var busy: set<nat>
    var vehicles: map<nat, VehicleView>

    /** The two sets partition the points, and exactly the busy points hold a vehicle. */
    predicate Valid()
      reads this
    {
      && free * busy == {}
      && free + busy == points
      && vehicles.Keys == busy
    }

    /** All points start free, as `set(set_up_infrastructure(...))` and `set()`. */
    constructor(points: set<nat>)
      ensures Valid()
      ensures this.points == points && free == points && busy == {} && vehicles == map[]
    {
      this.points := points;
      free := points;
      busy := {};
      vehicles := map[];
    }
  }

  /** What happened to one arrival. */
  datatype Admission = Connected(cp: nat) | Queued | Rejected

  /** The occupancy of a site at one moment: its free and busy points, the vehicle each busy
      point holds, and the queued events. */
  datatype Occupancy = Occupancy(free: set<nat>, busy: set<nat>,
                                 vehicles: map<nat, VehicleView>, queue: seq<ChargingEvent>)

  function Snapshot(site: Site, q: WaitingQueue): Occupancy
    reads site, q
  {
    Occupancy(site.free, site.busy, site.vehicles, q.queue)
  }

  /** The occupancy after arrival `e` met outcome `a`: a connection moves its point from
      free to busy with the new vehicle, queueing appends the event, a rejection changes
      nothing. */
  function Admit(o: Occupancy, e: ChargingEvent, a: Admission): Occupancy {
    match a
    case Connected(cp) =>
      o.(free := o.free - {cp}, busy := o.busy + {cp}, vehicles := o.vehicles[cp := ViewOf(e)])
    case Queued => o.(queue := o.queue + [e])
    case Rejected => o
  }

  /** What `handle_car_arrival` does with an arrival, leaving aside which point it picks. */
  datatype Fate = Connect | Queue | Reject

  function FateOf(a: Admission): Fate {
    match a
    case Connected(_) => Connect
    case Queued => Queue
    case Rejected => Reject
  }

  /** The rule of `handle_car_arrival` on what it looks at: the number of free points, the
      number of queued events, the queue length and whether the site is open. */
  function Decide(free: nat, queued: nat, maxsize: int, open: bool): Fate {
    if free > 0 && open then Connect
    else if queued != maxsize && maxsize > 0 && open then Queue
    else Reject
  }

  /** Arrival outcome `a` is what `handle_car_arrival` decides for an arrival that found
      occupancy `o` with the site open or closed as `open` says, and a connection takes a
      point that was free. */
  predicate ArrivalDecided(a: Admission, o: Occupancy, maxsize: int, open: bool) {
    && FateOf(a) == Decide(|o.free|, |o.queue|, maxsize, open)
    && (a.Connected? ==> a.cp in o.free)
  }

  /** `handle_car_arrival`: while open, a free point (any one, as `set.pop()` chooses) takes
      the vehicle; otherwise the event joins the queue when the site is open, queueing is
      enabled and the queue is not full; in every other case the rejection counter rises by
      one. */
  method HandleCarArrival(site: Site, q: WaitingQueue, event: ChargingEvent, counter: nat,
                          open: bool, log: bool)
    returns (counterOut: nat, ghost outcome: Admission)
    requires site.Valid() && q.Valid()
    modifies site, q
    ensures site.Valid() && q.Valid()
    ensures FateOf(outcome) == Decide(|old(site.free)|, |old(q.queue)|, q.maxsize, open)
    ensures outcome.Connected? ==> outcome.cp in old(site.free)
    ensures Snapshot(site, q) == Admit(old(Snapshot(site, q)), event, outcome)
    ensures q.nextLeave ==
      if outcome.Queued? then Some(Earlier(old(q.nextLeave), event.leavingTime))
      else old(q.nextLeave)
    ensures counterOut == if outcome.Rejected? then counter + 1 else counter
  {
    if |site.free| > 0 && open {
      var cp :| cp in site.free;
      site.free := site.free - {cp};
      site.vehicles := site.vehicles[cp := ViewOf(event)];
      site.busy := site.busy + {cp};
      return counter, Connected(cp);
    }
    if |q.queue| != q.maxsize && q.maxsize > 0 && open {
      q.Enqueue(event);
      return counter, Queued;
    }
    return counter + 1, Rejected;
  }

  /** The queued events that may still wait at `now`, in queue order. */
  function Waiting(q: seq<ChargingEvent>, now: int): seq<ChargingEvent>
  {
    if q == [] then []
    else (if now < q[0].leavingTime then [q[0]] else []) + Waiting(q[1..], now)
  }

  lemma {:induction false} WaitingAppend(a: seq<ChargingEvent>, b: seq<ChargingEvent>, now: int)
    ensures Waiting(a + b, now) == Waiting(a, now) + Waiting(b, now)
  {
    if a == [] {
      assert a + b == b;
    } else {
      var head := if now < a[0].leavingTime then [a[0]] else [];
      assert a + b == [a[0]] + (a[1..] + b);
      WaitingCons(a[0], a[1..] + b, now);
      WaitingCons(a[0], a[1..], now);
      assert [a[0]] + a[1..] == a;
      WaitingAppend(a[1..], b, now);
      assert head + (Waiting(a[1..], now) + Waiting(b, now))
          == (head + Waiting(a[1..], now)) + Waiting(b, now);
    }
  }

  lemma WaitingCons(e: ChargingEvent, s: seq<ChargingEvent>, now: int)
    ensures Waiting([e] + s, now) == (if now < e.leavingTime then [e] else []) + Waiting(s, now)
  {
    assert ([e] + s)[0] == e && ([e] + s)[1..] == s;
  }

  lemma {:induction false} WaitingKeepsAll(s: seq<ChargingEvent>, now: int)
    requires forall i :: 0 <= i < |s| ==> now < s[i].leavingTime
    ensures Waiting(s, now) == s
  {
    if s != [] {
      WaitingKeepsAll(s[1..], now);
    }
  }

  /** Whether `update_queue` looks for overdue events: disconnecting by time and the stored
      next-leave time has come. */
  predicate Scanned(nextLeave: Option<int>, now: int, byTime: bool) {
    byTime && nextLeave.Some? && now >= nextLeave.value
  }

  /** The queue `update_queue` leaves, as written: closed hours empty it, and the overdue
      events are removed only when `log` is set, since the removal happens inside the
      logging call. */
  function QueueAfterUpdate(queue: seq<ChargingEvent>, nextLeave: Option<int>, now: int,
                            byTime: bool, open: bool, log: bool): seq<ChargingEvent>
  {
    var start := if open then queue else [];
    if Scanned(nextLeave, now, byTime) && log then Waiting(start, now) else start
  }

  /** The queue `update_queue` is meant to leave: the overdue events go whether or not the
      step is logged. */
  function QueueAfterUpdateIntended(queue: seq<ChargingEvent>, nextLeave: Option<int>,
                                    now: int, byTime: bool, open: bool): seq<ChargingEvent>
  {
    var start := if open then queue else [];
    if Scanned(nextLeave, now, byTime) then Waiting(start, now) else start
  }

  /** As written, a scan without logging leaves every overdue event in the queue. */
  lemma OverdueKeptWithoutLog(queue: seq<ChargingEvent>, nextLeave: Option<int>, now: int)
    requires Scanned(nextLeave, now, true)
    ensures QueueAfterUpdate(queue, nextLeave, now, true, true, false) == queue
    ensures forall e :: e in queue && e.leavingTime <= now ==>
      e in QueueAfterUpdate(queue, nextLeave, now, true, true, false)
  {
  }

  /** A concrete queue: one event that had to leave at 5 is still queued at 10 after a
      non-logged scan, while the intended update removes it. */
  lemma OverdueKeptExample()
    ensures var e := ChargingEvent(1, 0, 5, 0.2, 0.8);
      && QueueAfterUpdate([e], Some(5), 10, true, true, false) == [e]
      && QueueAfterUpdateIntended([e], Some(5), 10, true, true) == []
  {
    var e := ChargingEvent(1, 0, 5, 0.2, 0.8);
    assert Waiting([e], 10) == [] + Waiting([], 10);
  }

  /** After an intended scan no queued event is overdue, and nothing that may wait is lost. */
  lemma IntendedScanLeavesNoOverdue(queue: seq<ChargingEvent>, nextLeave: Option<int>,
                                    now: int)
    requires Scanned(nextLeave, now, true)
    ensures var r := QueueAfterUpdateIntended(queue, nextLeave, now, true, true);
      && (forall e :: e in r ==> now < e.leavingTime)
      && (forall e :: e in queue && now < e.leavingTime ==> e in r)
  {
    WaitingMembers(queue, now);
  }

  /** Closed hours leave an empty queue, logged or not. */
  lemma ClosedEmptiesQueue(queue: seq<ChargingEvent>, nextLeave: Option<int>, now: int,
                           byTime: bool, log: bool)
    ensures QueueAfterUpdate(queue, nextLeave, now, byTime, false, log) == []
    ensures QueueAfterUpdateIntended(queue, nextLeave, now, byTime, false) == []
  {
    assert Waiting([], now) == [];
  }

  predicate Descending(s: seq<nat>) {
    forall j, k :: 0 <= j < k < |s| ==> s[j] > s[k]
  }

  /** The `to_delete` list: the overdue positions, each inserted at the front, so highest
      first. */
  method OverdueIndices(queue: seq<ChargingEvent>, now: int) returns (toDelete: seq<nat>)
    ensures Descending(toDelete)
    ensures forall k :: 0 <= k < |toDelete| ==> toDelete[k] < |queue|
    ensures forall i :: 0 <= i < |queue| ==> (i in toDelete <==> queue[i].leavingTime <= now)
  {
    toDelete := [];
    for i := 0 to |queue|
      invariant Descending(toDelete)
      invariant forall k :: 0 <= k < |toDelete| ==> toDelete[k] < i
      invariant forall j :: 0 <= j < |queue| ==>
        (j in toDelete <==> j < i && queue[j].leavingTime <= now)
    {
      if queue[i].leavingTime <= now {
        toDelete := [i] + toDelete;
      }
    }
  }

  /** How far the queue is already pruned after popping the first `k` positions. */
  function Cut(toDelete: seq<nat>, k: nat, n: nat): nat
    requires k <= |toDelete|
  {
    if k == 0 then n else toDelete[k - 1]
  }

  /** Popping the overdue positions highest first removes exactly the overdue events: each
      pop leaves the positions still to be popped where they were. */
  method PopIndices(q: WaitingQueue, toDelete: seq<nat>, now: int)
    requires q.Valid()
    requires Descending(toDelete)
    requires forall k :: 0 <= k < |toDelete| ==> toDelete[k] < |q.queue|
    requires forall i :: 0 <= i < |q.queue| ==> (i in toDelete <==> q.queue[i].leavingTime <= now)
    modifies q
    ensures q.Valid()
    ensures q.queue == Waiting(old(q.queue), now) && q.nextLeave == old(q.nextLeave)
  {
    ghost var orig := q.queue;
    ghost var c := |orig|;
    for k := 0 to |toDelete|
      invariant q.nextLeave == old(q.nextLeave)
      invariant c <= |orig|
      invariant k == 0 ==> c == |orig|
      invariant k > 0 ==> c == toDelete[k - 1]
      invariant q.queue == orig[..c] + Waiting(orig[c..], now)
    {
      var d := toDelete[k];
      BetweenNotOverdue(orig, toDelete, k, c, now);
      PopStep(orig, d, c, now);
      PopSplit(orig, c, Waiting(orig[c..], now), d);
      q.queue := q.queue[..d] + q.queue[d + 1..];
      c := d;
    }
    LowNotOverdue(orig, toDelete, c, now);
    WaitingKeepsAll(orig[..c], now);
    WaitingAppend(orig[..c], orig[c..], now);
    assert orig == orig[..c] + orig[c..];
    WaitingLength(orig, now);
    WaitingMembers(orig, now);
    assert forall i :: 0 <= i < |q.queue| ==> q.queue[i] in orig;
  }

  lemma {:induction false} WaitingLength(s: seq<ChargingEvent>, now: int)
    ensures |Waiting(s, now)| <= |s|
  {
    if s != [] {
      WaitingLength(s[1..], now);
    }
  }

  /** The events left waiting are exactly the queued ones whose leaving time lies after
      `now`. */
  lemma {:induction false} WaitingMembers(s: seq<ChargingEvent>, now: int)
    ensures forall e :: e in Waiting(s, now) <==> e in s && now < e.leavingTime
  {
    if s != [] {
      WaitingMembers(s[1..], now);
      assert s == [s[0]] + s[1..];
    }
  }

  /** Between the next position to pop and the last one popped nothing is overdue. */
  lemma BetweenNotOverdue(orig: seq<ChargingEvent>, toDelete: seq<nat>, k: nat, c: nat, now: int)
    requires Descending(toDelete) && k < |toDelete|
    requires forall i :: 0 <= i < |orig| ==> (i in toDelete <==> orig[i].leavingTime <= now)
    requires forall m :: 0 <= m < |toDelete| ==> toDelete[m] < |orig|
    requires c <= |orig| && (k == 0 ==> c == |orig|) && (k > 0 ==> c == toDelete[k - 1])
    ensures toDelete[k] < c && orig[toDelete[k]].leavingTime <= now
    ensures forall j :: toDelete[k] < j < c ==> now < orig[j].leavingTime
  {
    forall j | toDelete[k] < j < c
      ensures now < orig[j].leavingTime
    {
      forall m | 0 <= m < |toDelete|
        ensures toDelete[m] != j
      {
        if m < k {
          assert toDelete[m] >= toDelete[k - 1];
        } else if m > k {
          assert toDelete[m] < toDelete[k];
        }
      }
      assert j !in toDelete;
    }
  }

  /** Below the last position popped nothing is overdue. */
  lemma LowNotOverdue(orig: seq<ChargingEvent>, toDelete: seq<nat>, c: nat, now: int)
    requires Descending(toDelete)
    requires forall i :: 0 <= i < |orig| ==> (i in toDelete <==> orig[i].leavingTime <= now)
    requires c <= |orig|
    requires |toDelete| == 0 ==> c == |orig|
    requires |toDelete| > 0 ==> c == toDelete[|toDelete| - 1]
    ensures forall j :: 0 <= j < |orig[..c]| ==> now < orig[..c][j].leavingTime
  {
    forall j | 0 <= j < c
      ensures now < orig[j].leavingTime
    {
      forall m | 0 <= m < |toDelete|
        ensures toDelete[m] != j
      {
        if m < |toDelete| - 1 {
          assert toDelete[m] > toDelete[|toDelete| - 1];
        }
      }
      assert j !in toDelete;
    }
  }

  /** `list.pop(d)` on a queue split at `c > d`. */
  lemma PopSplit(orig: seq<ChargingEvent>, c: nat, rest: seq<ChargingEvent>, d: nat)
    requires d < c <= |orig|
    ensures var s := orig[..c] + rest;
      s[..d] + s[d + 1..] == orig[..d] + (orig[d + 1..c] + rest)
  {
    var s := orig[..c] + rest;
    assert s[..d] == orig[..d];
    assert s[d + 1..] == orig[d + 1..c] + rest;
  }

  /** Removing the overdue event at `d` when the events up to `c` are not overdue. */
  lemma PopStep(orig: seq<ChargingEvent>, d: nat, c: nat, now: int)
    requires d < c <= |orig|
    requires orig[d].leavingTime <= now
    requires forall j :: d < j < c ==> now < orig[j].leavingTime
    ensures Waiting(orig[d..], now) == orig[d + 1..c] + Waiting(orig[c..], now)
  {
    assert orig[d..] == [orig[d]] + (orig[d + 1..c] + orig[c..]);
    WaitingAppend([orig[d]], orig[d + 1..c] + orig[c..], now);
    WaitingAppend(orig[d + 1..c], orig[c..], now);
    var mid := orig[d + 1..c];
    forall j | 0 <= j < |mid|
      ensures now < mid[j].leavingTime
    {
      assert mid[j] == orig[d + 1 + j];
    }
    WaitingKeepsAll(mid, now);
    assert Waiting([orig[d]], now) == [] + Waiting([], now);
  }

  /** `update_queue` as written. */
  method UpdateQueue(q: WaitingQueue, now: int, byTime: bool, open: bool, log: bool)
    requires q.Valid()
    modifies q
    ensures q.Valid()
    ensures q.queue == QueueAfterUpdate(old(q.queue), old(q.nextLeave), now, byTime, open, log)
    ensures q.nextLeave ==
      if Scanned(old(q.nextLeave), now, byTime) then MinLeaving(q.queue) else old(q.nextLeave)
    ensures byTime && log ==> forall i :: 0 <= i < |q.queue| ==> now < q.queue[i].leavingTime
  {
    if !open {
      q.Empty();
    }
    if byTime && q.nextLeave.Some? && now >= q.nextLeave.value {
      var toDelete := OverdueIndices(q.queue, now);
      if |toDelete| > 0 && log {
        PopIndices(q, toDelete, now);
      } else if log {
        WaitingKeepsAll(q.queue, now);
      }
      if log {
        WaitingMembers(old(q.queue), now);
      }
      q.DetermineNextLeavingTime();
    } else if byTime {
      NothingDueBeforeStored(q.nextLeave, q.queue, now);
    }
  }

  /** `update_queue` with the overdue events removed whether or not the step is logged. */
  method UpdateQueueIntended(q: WaitingQueue, now: int, byTime: bool, open: bool)
    requires q.Valid()
    modifies q
    ensures q.Valid()
    ensures q.queue == QueueAfterUpdateIntended(old(q.queue), old(q.nextLeave), now, byTime, open)
    ensures q.nextLeave ==
      if Scanned(old(q.nextLeave), now, byTime) then MinLeaving(q.queue) else old(q.nextLeave)
    ensures byTime ==> forall i :: 0 <= i < |q.queue| ==> now < q.queue[i].leavingTime
  {
    if !open {
      q.Empty();
    }
    if byTime && q.nextLeave.Some? && now >= q.nextLeave.value {
      ghost var pruned := q.queue;
      var toDelete := OverdueIndices(q.queue, now);
      if |toDelete| > 0 {
        PopIndices(q, toDelete, now);
      } else {
        WaitingKeepsAll(q.queue, now);
      }
      WaitingMembers(pruned, now);
      q.DetermineNextLeavingTime();
    } else if byTime {
      NothingDueBeforeStored(q.nextLeave, q.queue, now);
    }
  }

  /** Python's `round(y)`: the nearest integer, halves to the even neighbour. */
  function RoundHalfEven(y: real): (n: int)
    ensures y - 0.5 <= n as real <= y + 0.5
    ensures (n as real == y - 0.5 || n as real == y + 0.5) ==> n % 2 == 0
  {
    var f := y.Floor;
    var d := y - f as real;
    if d < 0.5 then f
    else if d > 0.5 then f + 1
    else if f % 2 == 0 then f
    else f + 1
  }

  /** `round(x, 3)`, over the reals. */
  function Round3(x: real): (r: real)
    ensures x - 0.0005 <= r <= x + 0.0005
  {
    RoundHalfEven(x * 1000.0) as real / 1000.0
  }

  /** Against a target on the 0.001 grid, the rounded SOC reaches the target exactly when the
      SOC is above the target less half a step of the grid (a tie goes to the even side). */
  lemma Round3Threshold(soc: real, k: int)
    ensures soc * 1000.0 > k as real - 0.5 ==> Round3(soc) >= k as real / 1000.0
    ensures soc * 1000.0 < k as real - 0.5 ==> Round3(soc) < k as real / 1000.0
  {
    var n := RoundHalfEven(soc * 1000.0);
    if soc * 1000.0 > k as real - 0.5 {
      assert n as real > k as real - 1.0;
      assert n >= k;
    }
    if soc * 1000.0 < k as real - 0.5 {
      assert n as real < k as real;
      assert n < k;
    }
  }

  /** The disconnection rule of `update_cps`: the leaving time has come when disconnecting by
      time, the rounded SOC has reached the target otherwise. */
  predicate Expired(v: VehicleView, now: int, byTime: bool) {
    if byTime then v.leavingTime <= now else Round3(v.soc) >= v.socTarget
  }

  /** The busy points whose vehicle is due to leave. */
  function ExpiredPoints(busy: set<nat>, vehicles: map<nat, VehicleView>, now: int,
                         byTime: bool): set<nat>
  {
    set cp | cp in busy && cp in vehicles && Expired(vehicles[cp], now, byTime)
  }

  /** `update_cps`. Outside opening hours every vehicle is disconnected. Otherwise each busy
      point (in any order, as a set is iterated) whose vehicle is due is disconnected; while
      the queue holds events the point takes the next one at once and stays busy (`taken`
      says which queue position went where), and the rest (`freed`) become free. Points
      whose vehicle is not due keep it. */
  method UpdateCps(site: Site, q: WaitingQueue, now: int, byTime: bool, open: bool, log: bool)
    returns (ghost freed: set<nat>, ghost taken: seq<nat>)
    requires site.Valid() && q.Valid()
    modifies site, q
    ensures site.Valid() && q.Valid()
    ensures q.nextLeave == old(q.nextLeave)
    ensures !open ==>
      && site.busy == {} && site.free == old(site.free) + old(site.busy)
      && site.vehicles == map[] && q.queue == old(q.queue)
    ensures open ==>
      && freed + Elements(taken) == ExpiredPoints(old(site.busy), old(site.vehicles), now, byTime)
      && freed * Elements(taken) == {}
      && site.busy == old(site.busy) - freed
      && site.free == old(site.free) + freed
      && |taken| <= |old(q.queue)|
      && q.queue == old(q.queue)[|taken|..]
      && (freed != {} ==> q.queue == [])
      && Distinct(taken)
    ensures open ==> forall j :: 0 <= j < |taken| ==>
      taken[j] in site.busy && site.vehicles[taken[j]] == ViewOf(old(q.queue)[j])
    ensures forall cp :: cp in site.busy && cp !in taken ==>
      site.vehicles[cp] == old(site.vehicles)[cp]
  {
    if !open {
      DisconnectAll(site);
      freed, taken := {}, [];
    } else {
      freed, taken := DisconnectDue(site, q, now, byTime);
    }
  }

  function Elements(s: seq<nat>): set<nat> {
    set x | x in s
  }

  predicate Distinct(s: seq<nat>) {
    forall i, j :: 0 <= i < j < |s| ==> s[i] != s[j]
  }

  /** The closed-hours half of `update_cps`: every busy point is disconnected and freed. */
  method DisconnectAll(site: Site)
    requires site.Valid()
    modifies site
    ensures site.Valid()
    ensures site.busy == {} && site.free == old(site.free) + old(site.busy)
    ensures site.vehicles == map[]
  {
    var vehicles := site.vehicles;
    var toRemove: set<nat> := {};
    var remaining := site.busy;
    while remaining != {}
      invariant remaining + toRemove == old(site.busy) && remaining * toRemove == {}
      invariant vehicles.Keys == remaining
      decreases remaining
    {
      var cp :| cp in remaining;
      vehicles := vehicles - {cp};
      toRemove := toRemove + {cp};
      remaining := remaining - {cp};
    }
    MoveKeepsPartition(site.free, site.busy, toRemove);
    site.vehicles := vehicles;
    site.busy := site.busy - toRemove;
    site.free := site.free + toRemove;
  }

  /** The open-hours half of `update_cps`; `taken[j]` is the point that took the `j`-th
      queued event. */
  method DisconnectDue(site: Site, q: WaitingQueue, now: int, byTime: bool)
    returns (ghost freed: set<nat>, ghost taken: seq<nat>)
    requires site.Valid() && q.Valid()
    modifies site, q
    ensures site.Valid() && q.Valid()
    ensures q.nextLeave == old(q.nextLeave)
    ensures freed + Elements(taken) == ExpiredPoints(old(site.busy), old(site.vehicles), now, byTime)
    ensures freed * Elements(taken) == {}
    ensures site.busy == old(site.busy) - freed && site.free == old(site.free) + freed
    ensures |taken| <= |old(q.queue)| && q.queue == old(q.queue)[|taken|..]
    ensures freed != {} ==> q.queue == []
    ensures Distinct(taken)
    ensures forall j :: 0 <= j < |taken| ==>
      taken[j] in site.busy && site.vehicles[taken[j]] == ViewOf(old(q.queue)[j])
    ensures forall cp :: cp in site.busy && cp !in taken ==>
      site.vehicles[cp] == old(site.vehicles)[cp]
  {
    var vehicles, switch;
    vehicles, switch, taken := ScanExpired(q, site.vehicles, site.busy, now, byTime);
    freed := switch;
    MoveKeepsPartition(site.free, site.busy, switch);
    site.vehicles := vehicles;
    site.busy := site.busy - switch;
    site.free := site.free + switch;
  }

  /** The loop of `update_cps` over the busy points: every point whose vehicle is due either
      hands over to the oldest queued event (`taken`, in queue order) or, once the queue is
      empty, is marked for release (`switch`). */
  method ScanExpired(q: WaitingQueue, vehicles0: map<nat, VehicleView>, busy: set<nat>,
                     now: int, byTime: bool)
    returns (vehicles: map<nat, VehicleView>, switch: set<nat>, ghost taken: seq<nat>)
    requires q.Valid() && vehicles0.Keys == busy
    modifies q
    ensures q.Valid() && q.nextLeave == old(q.nextLeave)
    ensures switch <= busy && forall cp :: cp in switch ==> cp !in taken
    ensures forall cp :: cp in switch || cp in taken <==> cp in ExpiredPoints(busy, vehicles0, now, byTime)
    ensures vehicles.Keys == busy - switch
    ensures forall cp :: cp in vehicles && cp !in taken ==> vehicles[cp] == vehicles0[cp]
    ensures |taken| <= |old(q.queue)| && q.queue == old(q.queue)[|taken|..]
    ensures forall j :: 0 <= j < |taken| ==>
      taken[j] in vehicles && vehicles[taken[j]] == ViewOf(old(q.queue)[j])
    ensures Distinct(taken)
    ensures switch != {} ==> q.queue == []
  {
    ghost var expired := ExpiredPoints(busy, vehicles0, now, byTime);
    ghost var origQueue := q.queue;
    vehicles := vehicles0;
    taken := [];
    switch := {};
    var remaining := busy;
    while remaining != {}
      invariant q.Valid() && q.nextLeave == old(q.nextLeave)
      invariant ScanInvariant(vehicles0, busy, expired, origQueue, remaining, q.queue, vehicles,
                              switch, taken)
      decreases remaining
    {
      var cp :| cp in remaining;
      ghost var queue, before := q.queue, vehicles;
      ScanVisit(vehicles0, busy, expired, origQueue, remaining, queue, vehicles, switch, taken, cp);
      if Expired(vehicles[cp], now, byTime) {
        var handedOver;
        vehicles, handedOver := Disconnect(q, vehicles, cp);
        if handedOver {
          ScanHandOver(vehicles0, busy, expired, origQueue, remaining, queue, before, switch, taken, cp);
          taken := taken + [cp];
        } else {
          ScanRelease(vehicles0, busy, expired, origQueue, remaining, queue, before, switch, taken, cp);
          switch := switch + {cp};
        }
      } else {
        ScanSkip(vehicles0, busy, expired, origQueue, remaining, queue, vehicles, switch, taken, cp);
      }
      remaining := remaining - {cp};
    }
    ScanDone(vehicles0, busy, expired, origQueue, q.queue, vehicles, switch, taken);
  }

  /** What the scan of `update_cps` has established once the points outside `remaining`
      have been visited: each visited due point either handed over to the queue event at
      its position in `taken` or was marked for release in `switch`, and every other point
      keeps its vehicle. */
  ghost predicate ScanInvariant(vehicles0: map<nat, VehicleView>, busy: set<nat>,
                                expired: set<nat>, origQueue: seq<ChargingEvent>,
                                remaining: set<nat>, queue: seq<ChargingEvent>,
                                vehicles: map<nat, VehicleView>, switch: set<nat>,
                                taken: seq<nat>)
  {
    && vehicles0.Keys == busy && remaining <= busy && expired <= busy
    && |taken| <= |origQueue| && queue == origQueue[|taken|..]
    && (forall cp :: cp in switch ==> cp in expired && cp !in remaining && cp !in taken)
    && (forall j :: 0 <= j < |taken| ==>
         && taken[j] in expired && taken[j] !in remaining
         && taken[j] in vehicles && vehicles[taken[j]] == ViewOf(origQueue[j]))
    && (forall cp :: cp in expired && cp !in remaining ==> cp in switch || cp in taken)
    && (forall cp :: cp in vehicles <==> cp in busy && cp !in switch)
    && (forall cp :: cp in vehicles && cp !in taken ==> vehicles[cp] == vehicles0[cp])
    && Distinct(taken)
    && (switch != {} ==> queue == [])
  }

  /** A point not yet visited still holds its original vehicle. */
  lemma ScanVisit(vehicles0: map<nat, VehicleView>, busy: set<nat>, expired: set<nat>,
                  origQueue: seq<ChargingEvent>, remaining: set<nat>,
                  queue: seq<ChargingEvent>, vehicles: map<nat, VehicleView>,
                  switch: set<nat>, taken: seq<nat>, cp: nat)
    requires ScanInvariant(vehicles0, busy, expired, origQueue, remaining, queue, vehicles,
                           switch, taken)
    requires cp in remaining
    ensures cp in vehicles && cp !in taken && vehicles[cp] == vehicles0[cp]
  {
  }

  lemma ScanSkip(vehicles0: map<nat, VehicleView>, busy: set<nat>, expired: set<nat>,
                 origQueue: seq<ChargingEvent>, remaining: set<nat>,
                 queue: seq<ChargingEvent>, vehicles: map<nat, VehicleView>,
                 switch: set<nat>, taken: seq<nat>, cp: nat)
    requires ScanInvariant(vehicles0, busy, expired, origQueue, remaining, queue, vehicles,
                           switch, taken)
    requires cp in remaining && cp !in expired
    ensures ScanInvariant(vehicles0, busy, expired, origQueue, remaining - {cp}, queue,
                          vehicles, switch, taken)
  {
  }

  lemma ScanHandOver(vehicles0: map<nat, VehicleView>, busy: set<nat>, expired: set<nat>,
                     origQueue: seq<ChargingEvent>, remaining: set<nat>,
                     queue: seq<ChargingEvent>, vehicles: map<nat, VehicleView>,
                     switch: set<nat>, taken: seq<nat>, cp: nat)
    requires ScanInvariant(vehicles0, busy, expired, origQueue, remaining, queue, vehicles,
                           switch, taken)
    requires cp in remaining && cp in expired && queue != []
    ensures ScanInvariant(vehicles0, busy, expired, origQueue, remaining - {cp}, queue[1..],
                          vehicles[cp := ViewOf(queue[0])], switch, taken + [cp])
  {
    var taken' := taken + [cp];
    assert origQueue[|taken|] == queue[0];
    assert queue[1..] == origQueue[|taken'|..];
    assert forall j :: 0 <= j < |taken| ==> taken'[j] == taken[j];
  }

  lemma ScanRelease(vehicles0: map<nat, VehicleView>, busy: set<nat>, expired: set<nat>,
                    origQueue: seq<ChargingEvent>, remaining: set<nat>,
                    queue: seq<ChargingEvent>, vehicles: map<nat, VehicleView>,
                    switch: set<nat>, taken: seq<nat>, cp: nat)
    requires ScanInvariant(vehicles0, busy, expired, origQueue, remaining, queue, vehicles,
                           switch, taken)
    requires cp in remaining && cp in expired && queue == []
    ensures ScanInvariant(vehicles0, busy, expired, origQueue, remaining - {cp}, queue,
                          vehicles - {cp}, switch + {cp}, taken)
  {
  }

  lemma ScanDone(vehicles0: map<nat, VehicleView>, busy: set<nat>, expired: set<nat>,
                 origQueue: seq<ChargingEvent>, queue: seq<ChargingEvent>,
                 vehicles: map<nat, VehicleView>, switch: set<nat>, taken: seq<nat>)
    requires ScanInvariant(vehicles0, busy, expired, origQueue, {}, queue, vehicles,
                           switch, taken)
    ensures switch <= busy && forall cp :: cp in switch ==> cp !in taken
    ensures forall cp :: cp in switch || cp in taken <==> cp in expired
    ensures vehicles.Keys == busy - switch
    ensures forall cp :: cp in vehicles && cp !in taken ==> vehicles[cp] == vehicles0[cp]
    ensures |taken| <= |origQueue| && queue == origQueue[|taken|..]
    ensures forall j :: 0 <= j < |taken| ==>
      taken[j] in vehicles && vehicles[taken[j]] == ViewOf(origQueue[j])
    ensures Distinct(taken)
    ensures switch != {} ==> queue == []
  {
  }

  /** Disconnects the vehicle at `cp` and, when the queue holds an event, connects the
      oldest one at once. */
  method Disconnect(q: WaitingQueue, vehicles: map<nat, VehicleView>, cp: nat)
    returns (after: map<nat, VehicleView>, handedOver: bool)
    requires q.Valid() && cp in vehicles
    modifies q
    ensures q.Valid() && q.nextLeave == old(q.nextLeave)
    ensures handedOver <==> old(q.queue) != []
    ensures handedOver ==>
      q.queue == old(q.queue)[1..] && after == vehicles[cp := ViewOf(old(q.queue)[0])]
    ensures !handedOver ==> q.queue == old(q.queue) && after == vehicles - {cp}
  {
    after := vehicles - {cp};
    handedOver := false;
    if |q.queue| > 0 {
      var next := q.Dequeue();
      after := after[cp := ViewOf(next)];
      handedOver := true;
    }
  }

  /** Moving some busy points to the free set keeps the two sets a partition of the same
      points. */
  lemma MoveKeepsPartition(free: set<nat>, busy: set<nat>, moved: set<nat>)
    requires moved <= busy && free * busy == {}
    ensures (free + moved) * (busy - moved) == {}
    ensures (free + moved) + (busy - moved) == free + busy
  {
  }

  /** `charge_connected_vehicles`: the busy points are visited in any order (a set's), and
      each connected vehicle is charged by its point with the assigned power
      (`charge_vehicle`, a parameter here). The first point visited without an assigned
      power raises KeyError; the points visited before it (`charged`) stay charged. */
  method ChargeConnectedVehicles(site: Site, powers: map<nat, real>, stepSeconds: int,
                                 chargeVehicle: (VehicleView, real, int) -> VehicleView)
    returns (r: Result<()>, ghost charged: set<nat>)
    requires site.Valid()
    modifies site
    ensures site.Valid() && site.free == old(site.free) && site.busy == old(site.busy)
    ensures r.Err? <==> !(old(site.busy) <= powers.Keys)
    ensures r.Err? ==> r.error == KeyError
    ensures charged <= old(site.busy) * powers.Keys
    ensures r.Ok? ==> charged == old(site.busy)
    ensures forall cp :: cp in site.busy ==>
      site.vehicles[cp] == if cp in charged
                           then chargeVehicle(old(site.vehicles)[cp], powers[cp], stepSeconds)
                           else old(site.vehicles)[cp]
  {
    charged := {};
    var remaining := site.busy;
    while remaining != {}
      invariant remaining <= site.busy && charged == site.busy - remaining
      invariant charged <= powers.Keys
      invariant site.Valid() && site.free == old(site.free) && site.busy == old(site.busy)
      invariant forall cp :: cp in site.busy ==>
        site.vehicles[cp] == if cp in charged
                             then chargeVehicle(old(site.vehicles)[cp], powers[cp], stepSeconds)
                             else old(site.vehicles)[cp]
      decreases remaining
    {
      var cp :| cp in remaining;
      if cp !in powers {
        return Err(KeyError), charged;
      }
      site.vehicles := site.vehicles[cp := chargeVehicle(site.vehicles[cp], powers[cp], stepSeconds)];
      charged := charged + {cp};
      remaining := remaining - {cp};
    }
    return Ok(()), charged;
  }
}

=== FILE: text.dfy ===
/** The ASCII part of Python's `str` methods used by the configuration code:
    `strip()`, `lower()`, `replace(a, b)` for single characters, deleting a character,
    and `str(n)` for a natural number. */
module PyText {

  /** `c.isspace()` for ASCII: space, tab, the line breaks \n \v \f \r and the
      separators 0x1c..0x1f. */
  predicate IsSpace(c: char) {
    var n := c as int;
    n == 32 || 9 <= n <= 13 || 28 <= n <= 31
  }

  /** `s.lstrip()`: the longest suffix of `s` that does not start with whitespace. */
  function StripLeft(s: string): (r: string)
    ensures |r| <= |s| && r == s[|s| - |r|..]
    ensures r == [] || !IsSpace(r[0])
    ensures forall k :: 0 <= k < |s| - |r| ==> IsSpace(s[k])
  {
    if |s| > 0 && IsSpace(s[0]) then StripLeft(s[1..]) else s
  }

  /** `s.rstrip()`: the longest prefix of `s` that does not end with whitespace. */
  function StripRight(s: string): (r: string)
    ensures |r| <= |s| && r == s[..|r|]
    ensures r == [] || !IsSpace(r[|r| - 1])
    ensures forall k :: |r| <= k < |s| ==> IsSpace(s[k])
  {
    if |s| > 0 && IsSpace(s[|s| - 1]) then StripRight(s[..|s| - 1]) else s
  }

  /** `s.strip()`. */
  function Strip(s: string): string {
    StripRight(StripLeft(s))
  }

  /** `strip()` leaves a string with no whitespace at either end. */
  lemma StripEnds(s: string)
    ensures var r := Strip(s); r == [] || (!IsSpace(r[0]) && !IsSpace(r[|r| - 1]))
  {
    var l := StripLeft(s);
    var r := StripRight(l);
    if r != [] {
      assert r[0] == l[0];
    }
  }

  /** A string without whitespace at its ends is its own `strip()`. */
  lemma StripFixed(s: string)
    requires s == [] || (!IsSpace(s[0]) && !IsSpace(s[|s| - 1]))
    ensures Strip(s) == s
  {
    assert StripLeft(s) == s;
  }

  /** `c.lower()` for ASCII. */
  function LowerChar(c: char): char {
    if 'A' <= c <= 'Z' then (c as int + 32) as char else c
  }

  /** `s.lower()` for ASCII. */
  function Lower(s: string): (r: string)
    ensures |r| == |s|
    ensures forall i :: 0 <= i < |s| ==> r[i] == LowerChar(s[i])
  {
    if s == [] then [] else [LowerChar(s[0])] + Lower(s[1..])
  }

  /** Lowercasing a string without upper-case letters changes nothing. */
  lemma LowerFixed(s: string)
    requires forall i :: 0 <= i < |s| ==> !('A' <= s[i] <= 'Z')
    ensures Lower(s) == s
  {
  }

  /** `s.replace(a, b)` for single characters. */
  function ReplaceChar(s: string, a: char, b: char): (r: string)
    ensures |r| == |s|
    ensures forall i :: 0 <= i < |s| ==> r[i] == (if s[i] == a then b else s[i])
  {
    if s == [] then [] else [if s[0] == a then b else s[0]] + ReplaceChar(s[1..], a, b)
  }

  lemma ReplaceAbsent(s: string, a: char, b: char)
    requires a !in s
    ensures ReplaceChar(s, a, b) == s
  {
  }

  /** `s.replace(c, "")`: `s` with every occurrence of `c` deleted, the rest in order. */
  function DeleteChar(s: string, c: char): (r: string)
    ensures c !in r
    ensures c !in s ==> r == s
  {
    if s == [] then []
    else if s[0] == c then DeleteChar(s[1..], c)
    else [s[0]] + DeleteChar(s[1..], c)
  }

  /** Deleting a character that does not occur changes nothing. */
  lemma {:induction false} DeleteAbsent(s: string, c: char)
    requires forall i :: 0 <= i < |s| ==> s[i] != c
    ensures DeleteChar(s, c) == s
  {
    if s != [] {
      DeleteAbsent(s[1..], c);
    }
  }

  function DigitChar(d: nat): (c: char)
    requires d < 10
    ensures '0' <= c <= '9'
  {
    ('0' as int + d) as char
  }

  /** `str(n)`: the decimal digits of `n`, without leading zeros. */
  function NatToString(n: nat): (r: string)
    ensures |r| >= 1
    ensures forall i :: 0 <= i < |r| ==> '0' <= r[i] <= '9'
    ensures r[0] == '0' <==> n == 0
  {
    if n < 10 then [DigitChar(n)] else NatToString(n / 10) + [DigitChar(n % 10)]
  }

  /** A name made of lower-case, non-space characters only. */
  predicate IsPlainName(s: string) {
    forall i :: 0 <= i < |s| ==> !IsSpace(s[i]) && !('A' <= s[i] <= 'Z')
  }

  /** Stripping, lowercasing and replacing spaces leave a plain name alone. */
  lemma PlainNameFixed(s: string)
    requires IsPlainName(s)
    ensures Strip(s) == s && Lower(s) == s && ReplaceChar(s, ' ', '_') == s
  {
    StripPlain(s);
    LowerFixed(s);
    ReplacePlain(s);
  }

  lemma StripPlain(s: string)
    requires IsPlainName(s)
    ensures Strip(s) == s
  {
    if s != [] {
      assert !IsSpace(s[0]) && !IsSpace(s[|s| - 1]);
    }
    StripFixed(s);
  }

  lemma ReplacePlain(s: string)
    requires IsPlainName(s)
    ensures ReplaceChar(s, ' ', '_') == s
  {
    assert IsSpace(' ');
  }
}

=== FILE: time_config.dfy ===
/** Time configuration (elvis/config/time.py): the opening-hours setter and handler, the
    numeric setters for parking time, state of charge and the number of charging events, and
    the alignment of an emissions scenario to the simulation steps. */
module TimeConfig {
  import opened Outcomes
  import opened Values
  import opened ScenarioConfigs
  import Validation
  import Simulate

  /** The assertions `with_opening_hours` and `handle_opening_hours` share: None means no
      opening hours; otherwise the value must be a pair of numbers with the opening hour not
      after the closing hour, the closing hour at most 24 and the opening hour at least 0.
      Every failed assertion is an AssertionError. */
  function OpeningHoursCheck(v: Value): (r: Result<Option<(real, real)>>)
    ensures r.Ok? <==>
      v == NoneV ||
      (v.TupleV? && |v.elems| == 2 && IsNumber(v.elems[0]) && IsNumber(v.elems[1]) &&
       0.0 <= AsReal(v.elems[0]) <= AsReal(v.elems[1]) <= 24.0)
    ensures r.Err? ==> r.error == AssertionError
    ensures r.Ok? && v == NoneV ==> r.value == None
    ensures r.Ok? && v != NoneV ==>
      r.value == Some((AsReal(v.elems[0]), AsReal(v.elems[1])))
  {
    if v == NoneV then Ok(None)
    else if !v.TupleV? then Err(AssertionError)
    else if |v.elems| != 2 then Err(AssertionError)
    else
      var open, close := v.elems[0], v.elems[1];
      if !IsNumber(open) || !IsNumber(close) then Err(AssertionError)
      else if !(AsReal(open) <= AsReal(close)) then Err(AssertionError)
      else if !(AsReal(close) <= 24.0) then Err(AssertionError)
      else if !(AsReal(open) >= 0.0) then Err(AssertionError)
      else Ok(Some((AsReal(open), AsReal(close))))
  }

  /** Accepted opening hours lie within the day, and the main loop admits a vehicle at `t`
      exactly when the hour of the day of `t` lies between them. */
  lemma AcceptedOpeningHours(v: Value, t: int)
    requires OpeningHoursCheck(v).Ok? && OpeningHoursCheck(v).value.Some?
    ensures var (open, close) := OpeningHoursCheck(v).value.value;
      && 0.0 <= open <= close <= 24.0
      && (Simulate.WithinOpeningHours(Some((open, close)), t) <==>
          open * 3600.0 <= (t % 86400) as real <= close * 3600.0)
  {
    var (open, close) := OpeningHoursCheck(v).value.value;
    Simulate.OpeningHoursInSeconds(open, close, t);
  }

  /** Opening hours (0, 24) admit vehicles at every moment, just as no opening hours do. */
  lemma WholeDayIsAlwaysOpen(t: int)
    ensures OpeningHoursCheck(TupleV([IntV(0), IntV(24)])) == Ok(Some((0.0, 24.0)))
    ensures Simulate.WithinOpeningHours(Some((0.0, 24.0)), t)
    ensures Simulate.WithinOpeningHours(None, t)
  {
    Simulate.DayHoursIsClockTime(t);
  }

  /** `with_opening_hours(opening_hours)`: stores the checked hours and nothing else. */
  method WithOpeningHours(c: ScenarioConfig, v: Value) returns (r: Result<()>)
    modifies c
    ensures r.Ok? <==> OpeningHoursCheck(v).Ok?
    ensures r.Err? ==> r.error == AssertionError && c.State() == old(c.State())
    ensures r.Ok? ==> c.State() == old(c.State()).(openingHours := OpeningHoursCheck(v).value)
  {
    var checked := OpeningHoursCheck(v);
    if checked.Err? {
      return Err(checked.error);
    }
    c.openingHours := checked.value;
    return Ok(());
  }

  /** `TimeRealisationHandler.handle_opening_hours(realisation, opening_hours)`: the same
      checks, applied to a realisation. */
  method HandleOpeningHours(realisation: ScenarioRealisation, v: Value) returns (r: Result<()>)
    modifies realisation
    ensures r.Ok? <==> OpeningHoursCheck(v).Ok?
    ensures r.Err? ==> r.error == AssertionError
    ensures r.Err? ==> realisation.openingHours == old(realisation.openingHours)
    ensures r.Ok? ==> realisation.openingHours == OpeningHoursCheck(v).value
    ensures realisation.schedulingPolicy == old(realisation.schedulingPolicy)
  {
    var checked := OpeningHoursCheck(v);
    if checked.Err? {
      return Err(checked.error);
    }
    realisation.openingHours := checked.value;
    return Ok(());
  }

  /** `with_max_parking_time(max_parking_time)`: a number that is not negative. */
  method WithMaxParkingTime(c: ScenarioConfig, v: Value) returns (r: Result<()>)
    modifies c
    ensures r.Ok? <==> IsNumber(v) && AsReal(v) >= 0.0
    ensures r.Err? ==> r.error == AssertionError && c.State() == old(c.State())
    ensures r.Ok? ==> c.State() == old(c.State()).(maxParkingTime := AsReal(v))
  {
    if !IsNumber(v) || AsReal(v) < 0.0 {
      return Err(AssertionError);
    }
    c.maxParkingTime := AsReal(v);
    return Ok(());
  }

  /** `with_mean_park(mean_park)`: a number strictly between 0 and 24 hours. */
  method WithMeanPark(c: ScenarioConfig, v: Value) returns (r: Result<()>)
    modifies c
    ensures r.Ok? <==> IsNumber(v) && 0.0 < AsReal(v) < 24.0
    ensures r.Err? ==> r.error == AssertionError && c.State() == old(c.State())
    ensures r.Ok? ==> c.State() == old(c.State()).(meanPark := Some(AsReal(v)))
  {
    if !IsNumber(v) || !(0.0 < AsReal(v) < 24.0) {
      return Err(AssertionError);
    }
    c.meanPark := Some(AsReal(v));
    return Ok(());
  }

  /** `with_std_deviation_park(std_deviation_park)`: a number that is not negative. */
  method WithStdDeviationPark(c: ScenarioConfig, v: Value) returns (r: Result<()>)
    modifies c
    ensures r.Ok? <==> IsNumber(v) && AsReal(v) >= 0.0
    ensures r.Err? ==> r.error == AssertionError && c.State() == old(c.State())
    ensures r.Ok? ==> c.State() == old(c.State()).(stdDeviationPark := Some(AsReal(v)))
  {
    if !IsNumber(v) || AsReal(v) < 0.0 {
      return Err(AssertionError);
    }
    c.stdDeviationPark := Some(AsReal(v));
    return Ok(());
  }

  /** The values `with_mean_soc` accepts: numbers strictly between 0 and 1. */
  predicate MeanSocAccepted(v: Value) {
    IsNumber(v) && 0.0 < AsReal(v) < 1.0
  }

  /** `with_mean_soc(mean_soc)`. */
  method WithMeanSoc(c: ScenarioConfig, v: Value) returns (r: Result<()>)
    modifies c
    ensures r.Ok? <==> MeanSocAccepted(v)
    ensures r.Err? ==> r.error == AssertionError && c.State() == old(c.State())
    ensures r.Ok? ==> c.State() == old(c.State()).(meanSoc := Some(AsReal(v)))
  {
    if !IsNumber(v) || !(0.0 < AsReal(v) < 1.0) {
      return Err(AssertionError);
    }
    c.meanSoc := Some(AsReal(v));
    return Ok(());
  }

  /** The values `with_std_deviation_soc` accepts: numbers that are not negative. */
  predicate StdDeviationSocAccepted(v: Value) {
    IsNumber(v) && AsReal(v) >= 0.0
  }

  /** `with_std_deviation_soc(std_deviation_soc)`. */
  method WithStdDeviationSoc(c: ScenarioConfig, v: Value) returns (r: Result<()>)
    modifies c
    ensures r.Ok? <==> StdDeviationSocAccepted(v)
    ensures r.Err? ==> r.error == AssertionError && c.State() == old(c.State())
    ensures r.Ok? ==> c.State() == old(c.State()).(stdDeviationSoc := Some(AsReal(v)))
  {
    if !IsNumber(v) || AsReal(v) < 0.0 {
      return Err(AssertionError);
    }
    c.stdDeviationSoc := Some(AsReal(v));
    return Ok(());
  }

  /** The mean state of charge the setter accepts always passes the configuration validator,
      which in turn also accepts 0 and 1, two values the setter refuses. */
  lemma MeanSocSetterWithinValidator(v: Value)
    ensures MeanSocAccepted(v) ==> Validation.ValidateSoc(v, "mean_soc").Accepted?
    ensures Validation.ValidateSoc(v, "mean_soc").Accepted? ==>
      MeanSocAccepted(v) || AsReal(v) == 0.0 || AsReal(v) == 1.0
  {
  }

  /** A standard deviation of the state of charge above 1 passes the setter but makes the
      configuration validator record an error. */
  lemma StdDeviationSocSetterBeyondValidator(x: real)
    requires x > 1.0
    ensures StdDeviationSocAccepted(FloatV(x))
    ensures Validation.ValidateSoc(FloatV(x), "std_deviation_soc").Rejected?
  {
  }

  /** `with_num_charging_events(num_charging_events)`: a positive `int`. */
  method WithNumChargingEvents(c: ScenarioConfig, v: Value) returns (r: Result<()>)
    modifies c
    ensures r.Ok? <==> v.IntV? && v.i > 0
    ensures r.Err? ==> r.error == AssertionError && c.State() == old(c.State())
    ensures r.Ok? ==> c.State() == old(c.State()).(numChargingEvents := Some(v.i))
  {
    if !v.IntV? || v.i <= 0 {
      return Err(AssertionError);
    }
    c.numChargingEvents := Some(v.i);
    return Ok(());
  }

  /** `[v] * n`: `n` copies of `v`, none when `n` is not positive. */
  function Copies(v: Value, n: int): (r: seq<Value>)
    ensures |r| == (if n > 0 then n else 0)
    ensures forall i :: 0 <= i < |r| ==> r[i] == v
    decreases n
  {
    if n <= 0 then [] else [v] + Copies(v, n - 1)
  }

  /** The `res_data` argument: None, a text in the form "%H:%M:%S", a timedelta (in seconds),
      or any other object. */
  datatype ResData = NoResData | ResText(text: string) | ResDelta(seconds: int) | ResOther(v: Value)

  /** The outcome of aligning an emissions scenario: the values, and whether the warning about
      an unconvertible type was issued. */
  datatype Aligned = Aligned(values: seq<Value>, warned: bool)

  /** The collaborators the alignment calls: `strptime(text, "%H:%M:%S")` giving hours, minutes
      and seconds (or failing), `adjust_resolution(values, res_data, resolution)` with the
      simulation resolution fixed, `repeat_data(values, steps)`, and `transform_data` applied to
      the selected column of a DataFrame or to a Series. */
  datatype Helpers = Helpers(
    parseClock: string -> Option<(int, int, int)>,
    adjustResolution: (seq<Value>, int) -> seq<Value>,
    repeatData: (seq<Value>, int) -> seq<Value>,
    transformFrame: (Value, nat) -> seq<Value>,
    transformSeries: Value -> seq<Value>)

  /** The list branch after its two checks: `res_data` is turned into a period and the values
      are resampled, then repeated if asked, and there must be at least one value per step. A
      text that does not parse is a ValueError; a `res_data` that is neither text nor a
      timedelta is an AssertionError. */
  function AlignList(items: seq<Value>, steps: int, resData: ResData, repeat: bool,
                     h: Helpers): (r: Result<seq<Value>>)
    ensures r.Ok? ==> |r.value| >= steps
    ensures r.Err? && r.error == ValueError ==>
      resData.ResText? && h.parseClock(resData.text).None?
    ensures r.Err? ==> r.error == AssertionError || r.error == ValueError
    ensures resData == NoResData && !repeat ==>
      r == if |items| >= steps then Ok(items) else Err(AssertionError)
  {
    var period: Result<Option<int>> :=
      match resData
      case NoResData => Ok(None)
      case ResText(text) =>
        (match h.parseClock(text)
         case None => Err(ValueError)
         case Some((hours, minutes, seconds)) => Ok(Some(hours * 3600 + minutes * 60 + seconds)))
      case ResDelta(seconds) => Ok(Some(seconds))
      case ResOther(_) => Err(AssertionError);
    if period.Err? then Err(period.error)
    else
      var adjusted := if period.value.Some? then h.adjustResolution(items, period.value.value)
                      else items;
      var repeated := if repeat then h.repeatData(adjusted, steps) else adjusted;
      if |repeated| >= steps then Ok(repeated) else Err(AssertionError)
  }

  /** Whether every entry of the list is an int or a float. */
  predicate AllNumbers(items: seq<Value>) {
    forall i :: 0 <= i < |items| ==> IsNumber(items[i])
  }

  /** The list branch as written: the entries must be numbers, and there must be MORE values
      than simulation steps unless a data resolution is given or repetition is asked for. */
  function ListBranch(items: seq<Value>, steps: int, resData: ResData, repeat: bool,
                      h: Helpers): (r: Result<seq<Value>>)
    ensures !AllNumbers(items) ==> r == Err(AssertionError)
    ensures AllNumbers(items) && resData == NoResData && !repeat ==>
      (r.Ok? <==> |items| > steps) && (r.Ok? ==> r.value == items)
    ensures r.Ok? ==> |r.value| >= steps
  {
    if !AllNumbers(items) then Err(AssertionError)
    else if !(steps < |items| || resData != NoResData || repeat) then Err(AssertionError)
    else AlignList(items, steps, resData, repeat, h)
  }

  /** The list branch with the length check the final assertion implies: at least as many
      values as steps. */
  function ListBranchIntended(items: seq<Value>, steps: int, resData: ResData, repeat: bool,
                              h: Helpers): (r: Result<seq<Value>>)
    ensures !AllNumbers(items) ==> r == Err(AssertionError)
    ensures r.Ok? ==> |r.value| >= steps
  {
    if !AllNumbers(items) then Err(AssertionError)
    else if !(steps <= |items| || resData != NoResData || repeat) then Err(AssertionError)
    else AlignList(items, steps, resData, repeat, h)
  }

  /** A list of numbers used as it is is accepted by the intended check exactly when it has a
      value for every step, and it is then returned unchanged. */
  lemma IntendedListIff(items: seq<Value>, steps: int, h: Helpers)
    requires AllNumbers(items)
    ensures var r := ListBranchIntended(items, steps, NoResData, false, h);
      (r.Ok? <==> |items| >= steps) && (r.Ok? ==> r.value == items)
  {
  }

  /** As written, a list with exactly one value per simulation step is refused, although the
      final assertion of the same branch would accept it. */
  lemma ExactFitRejected(h: Helpers)
    ensures ListBranch([IntV(1), IntV(2), IntV(3)], 3, NoResData, false, h) == Err(AssertionError)
    ensures ListBranchIntended([IntV(1), IntV(2), IntV(3)], 3, NoResData, false, h)
      == Ok([IntV(1), IntV(2), IntV(3)])
  {
    IntendedListIff([IntV(1), IntV(2), IntV(3)], 3, h);
  }

  /** `TimeRealisationHandler.handle_emissions_scenario(emissions, ..., col_pos, res_data,
      repeat)`, with `steps` the number of simulation steps between start and end date. None
      gives no values; a negative column is an AssertionError; a number is repeated once per
      step; a DataFrame column or a Series is transformed; a list goes through the list branch,
      with the length check at least as many values as steps; anything else gives no values and
      a warning. */
  function HandleEmissionsScenario(v: Value, steps: int, colPos: int, resData: ResData,
                                   repeat: bool, h: Helpers): (r: Result<Aligned>)
    ensures v == NoneV ==> r == Ok(Aligned([], false))
    ensures v != NoneV && colPos < 0 ==> r == Err(AssertionError)
    ensures IsNumber(v) && colPos >= 0 ==>
      r.Ok? && !r.value.warned && |r.value.values| == (if steps > 0 then steps else 0) &&
      forall i :: 0 <= i < |r.value.values| ==> r.value.values[i] == v
    ensures r.Ok? && r.value.warned ==>
      r.value.values == [] && v != NoneV && !IsNumber(v) && !v.ListV? &&
      v != ObjectV("DataFrame") && v != ObjectV("Series")
    ensures r.Ok? && v.ListV? ==> |r.value.values| >= steps
    ensures v.ListV? && colPos >= 0 ==>
      r == (match ListBranchIntended(v.items, steps, resData, repeat, h)
            case Ok(values) => Ok(Aligned(values, false))
            case Err(e) => Err(e))
  {
    if v == NoneV then Ok(Aligned([], false))
    else if colPos < 0 then Err(AssertionError)
    else if IsNumber(v) then Ok(Aligned(Copies(v, steps), false))
    else if v == ObjectV("DataFrame") then Ok(Aligned(h.transformFrame(v, colPos), false))
    else if v == ObjectV("Series") then Ok(Aligned(h.transformSeries(v), false))
    else if v.ListV? then
      match ListBranchIntended(v.items, steps, resData, repeat, h)
      case Ok(values) => Ok(Aligned(values, false))
      case Err(e) => Err(e)
    else Ok(Aligned([], true))
  }
}

=== FILE: units.dfy ===
/** Unit value objects for electrical quantities (elvis/units.py). All arithmetic is exact
    over the reals. */
module Units {
  import opened Outcomes

  datatype Power = Power(watts: real)
  datatype Current = Current(amps: real)
  datatype Charge = Charge(ampHours: real)
  datatype Energy = Energy(kwh: real)

  /** `Power.kilowatts`: the same power in kilowatts; nothing is lost. */
  function Kilowatts(p: Power): (kw: real)
    ensures kw * 1000.0 == p.watts
    ensures (kw < 0.0) == (p.watts < 0.0)
  {
    p.watts / 1000.0
  }

  /** `Current.milliamps`: the same current in milliamperes; nothing is lost. */
  function Milliamps(c: Current): (ma: real)
    ensures ma / 1000.0 == c.amps
    ensures (ma < 0.0) == (c.amps < 0.0)
  {
    c.amps * 1000.0
  }

  /** `Current * hours`: the charge moved by a constant current over `hours`. */
  function Times(c: Current, hours: real): (q: Charge)
    ensures hours != 0.0 ==> q.ampHours / hours == c.amps
    ensures hours == 0.0 ==> q.ampHours == 0.0
  {
    Charge(c.amps * hours)
  }

  /** `Charge.energy(voltage)`: the energy of the charge at the given voltage. */
  function EnergyAt(q: Charge, voltage: real): (e: Energy)
    ensures voltage != 0.0 ==> e.kwh / voltage == q.ampHours
    ensures voltage == 0.0 ==> e.kwh == 0.0
  {
    Energy(q.ampHours * voltage)
  }

  /** `Energy.charge(voltage)`: the charge that holds the energy at the given voltage; a zero
      voltage raises ZeroDivisionError. */
  function ChargeAt(e: Energy, voltage: real): (r: Result<Charge>)
    ensures r.Err? <==> voltage == 0.0
    ensures r.Err? ==> r.error == ZeroDivisionError
    ensures r.Ok? ==> r.value.ampHours * voltage == e.kwh
  {
    if voltage == 0.0 then Err(ZeroDivisionError) else Ok(Charge(e.kwh / voltage))
  }

  /** Charge -> energy -> charge is the identity for a nonzero voltage. */
  lemma ChargeEnergyRoundTrip(q: Charge, voltage: real)
    requires voltage != 0.0
    ensures ChargeAt(EnergyAt(q, voltage), voltage) == Ok(q)
  {
    var e := EnergyAt(q, voltage);
    assert e.kwh / voltage == q.ampHours;
  }

  /** Energy -> charge -> energy is the identity for a nonzero voltage. */
  lemma EnergyChargeRoundTrip(e: Energy, voltage: real)
    requires voltage != 0.0
    ensures ChargeAt(e, voltage).Ok?
    ensures EnergyAt(ChargeAt(e, voltage).value, voltage) == e
  {
    var q := ChargeAt(e, voltage).value;
    assert q.ampHours * voltage == e.kwh;
  }
}

=== FILE: validation.dfy ===
/** Configuration validation (elvis/config/validation.py): the raise-or-return validators of
    `ConfigValidator`, the error accumulator `ValidationResult`, and the whole-configuration
    check that fills one. A raised `InvalidParameterError` becomes a `Rejected` value. */
module Validation {
  import opened Outcomes
  import opened Values
  import opened PyText
  import Enums
  import SimTypes
  import opened ScenarioConfigs

  /** `type(v).__name__`. */
  function TypeName(v: Value): string {
    match v
    case IntV(_) => "int"
    case FloatV(_) => "float"
    case BoolV(_) => "bool"
    case StrV(_) => "str"
    case NoneV => "NoneType"
    case ListV(_) => "list"
    case TupleV(_) => "tuple"
    case DictV(_) => "dict"
    case ObjectV(name) => name
  }

  /** The validation errors the validators raise: `InvalidParameterError(name, value, reason)`
      and `MissingParameterError(name)`. */
  datatype ValidationError =
    | InvalidParameter(parameter: string, reason: Reason)
    | MissingParameter(parameter: string)

  /** Why a value was rejected; `ReasonText` gives the wording the validators use. */
  datatype Reason =
    | NotANumber(typeName: string)
    | OutsideUnitInterval
    | Negative
    | NotAList(typeName: string)
    | EmptyList
    | InvalidEntry(index: nat, inner: Reason)
    | NotAString(typeName: string)
    | UnknownPolicy(name: string)
    | UnknownSampleMethod(name: string)

  /** The reason text of an `InvalidParameterError`. */
  function ReasonText(r: Reason): (t: string)
    ensures |t| > 0
  {
    match r
    case NotANumber(t) => "must be a number, got " + t
    case OutsideUnitInterval => "must be between 0 and 1"
    case Negative => "must be non-negative"
    case NotAList(t) => "must be a list, got " + t
    case EmptyList => "cannot be empty"
    case InvalidEntry(i, inner) =>
      "probability at index " + NatToString(i) + " is invalid: "
        + InvalidMessage(ElementName(i), ReasonText(inner))
    case NotAString(t) => "must be a string, got " + t
    case UnknownPolicy(s) =>
      "Unknown scheduling policy: '" + s + "'. Valid options are: "
        + "uncontrolled, uc, discrimination_free, df, fcfs, with_storage, ws, optimized, opt"
    case UnknownSampleMethod(s) =>
      "Unknown sample method: '" + s + "'. Valid options are: independent_normal_dist, gmm"
  }

  /** The message of an `InvalidParameterError` for parameter `p`. */
  function InvalidMessage(p: string, reason: string): (m: string)
    ensures |m| > 0 && m[0] == 'I'
  {
    "Invalid value for parameter '" + p + "': " + reason
  }

  /** The `message` attribute of a validation error. */
  function Message(e: ValidationError): (m: string)
    ensures e.InvalidParameter? ==> |m| > 0 && m[0] == 'I'
    ensures e.MissingParameter? ==> |m| > 0 && m[0] == 'R'
  {
    match e
    case InvalidParameter(p, reason) => InvalidMessage(p, ReasonText(reason))
    case MissingParameter(p) => "Required parameter '" + p + "' is missing"
  }

  /** A validator's outcome: the validated value, or the error it raises. */
  datatype Checked<+T> = Accepted(value: T) | Rejected(error: ValidationError)

  function NumberExpected(v: Value): Reason {
    NotANumber(TypeName(v))
  }

  predicate InUnitInterval(v: Value) {
    IsNumber(v) && 0.0 <= AsReal(v) <= 1.0
  }

  /** The range check `validate_soc` and `validate_probability` share. */
  function CheckUnitInterval(v: Value, name: string): Checked<real> {
    if !IsNumber(v) then Rejected(InvalidParameter(name, NumberExpected(v)))
    else if !(0.0 <= AsReal(v) <= 1.0) then Rejected(InvalidParameter(name, OutsideUnitInterval))
    else Accepted(AsReal(v))
  }

  /** `validate_soc(value, name)`: a non-number and a number outside [0, 1] are rejected under
      the given parameter name; anything else is returned as a float. */
  function ValidateSoc(v: Value, name: string): (r: Checked<real>)
    ensures r.Accepted? <==> InUnitInterval(v)
    ensures r.Accepted? ==> r.value == AsReal(v)
    ensures !IsNumber(v) ==> r == Rejected(InvalidParameter(name, NumberExpected(v)))
    ensures IsNumber(v) && r.Rejected? ==> r == Rejected(InvalidParameter(name, OutsideUnitInterval))
  {
    CheckUnitInterval(v, name)
  }

  /** `validate_probability(value, name)`: the same check as `validate_soc`. */
  function ValidateProbability(v: Value, name: string): (r: Checked<real>)
    ensures r.Accepted? <==> InUnitInterval(v)
    ensures r.Accepted? ==> r.value == AsReal(v)
    ensures !IsNumber(v) ==> r == Rejected(InvalidParameter(name, NumberExpected(v)))
    ensures IsNumber(v) && r.Rejected? ==> r == Rejected(InvalidParameter(name, OutsideUnitInterval))
  {
    CheckUnitInterval(v, name)
  }

  /** The configuration validator and the type guard `ensure_soc` accept the same state of
      charge and return it unchanged. */
  lemma ValidateSocAgreesWithEnsureSoc(x: real, name: string)
    ensures ValidateSoc(FloatV(x), name).Accepted? <==> SimTypes.EnsureSoc(x).Ok?
    ensures ValidateSoc(FloatV(x), name).Accepted? ==>
      ValidateSoc(FloatV(x), name).value == SimTypes.EnsureSoc(x).value
  {
  }

  /** `validate_power(value, name)`: a non-number and a negative number are rejected; zero and
      every positive number are returned as a float. */
  function ValidatePower(v: Value, name: string): (r: Checked<real>)
    ensures r.Accepted? <==> IsNumber(v) && AsReal(v) >= 0.0
    ensures r.Accepted? ==> r.value == AsReal(v)
    ensures !IsNumber(v) ==> r == Rejected(InvalidParameter(name, NumberExpected(v)))
    ensures IsNumber(v) && r.Rejected? ==> r == Rejected(InvalidParameter(name, Negative))
  {
    if !IsNumber(v) then Rejected(InvalidParameter(name, NumberExpected(v)))
    else if AsReal(v) < 0.0 then Rejected(InvalidParameter(name, Negative))
    else Accepted(AsReal(v))
  }

  /** The power validator and the guard `ensure_positive` differ exactly at zero: a power of 0
      passes validation but is not positive. */
  lemma ValidatePowerVersusEnsurePositive(x: real, name: string)
    ensures x != 0.0 ==>
      (ValidatePower(FloatV(x), name).Accepted? <==> SimTypes.EnsurePositive(x).Ok?)
    ensures ValidatePower(FloatV(0.0), name) == Accepted(0.0)
    ensures SimTypes.EnsurePositive(0.0).Err?
  {
  }

  /** The parameter name of the `i`-th entry of an arrival distribution. */
  function ElementName(i: nat): string {
    "arrival_distribution[" + NatToString(i) + "]"
  }

  /** The error re-raised for the `i`-th entry `x` of an arrival distribution, carrying the
      message of the error the probability check raised. */
  function ElementError(i: nat, x: Value): ValidationError
    requires !InUnitInterval(x)
  {
    var inner := ValidateProbability(x, ElementName(i)).error;
    InvalidParameter(ElementName(i), InvalidEntry(i, inner.reason))
  }

  /** The first index from `from` on whose entry is not a probability. */
  function FirstInvalidProbability(items: seq<Value>, from: nat): (r: Option<nat>)
    requires from <= |items|
    ensures r.Some? ==> from <= r.value < |items| && !InUnitInterval(items[r.value])
    ensures r.Some? ==> forall j :: from <= j < r.value ==> InUnitInterval(items[j])
    ensures r.None? <==> forall j :: from <= j < |items| ==> InUnitInterval(items[j])
    decreases |items| - from
  {
    if from == |items| then None
    else if !InUnitInterval(items[from]) then Some(from)
    else FirstInvalidProbability(items, from + 1)
  }

  /** `validate_arrival_distribution(distribution)`: rejects anything but a list, the empty
      list, and otherwise the first entry that is not a probability (the error names its
      index). An accepted distribution is returned unchanged whatever its sum: a sum away
      from 1 is only logged. */
  function ValidateArrivalDistribution(v: Value): (r: Checked<Value>)
    ensures r.Accepted? <==>
      v.ListV? && |v.items| > 0 && forall i :: 0 <= i < |v.items| ==> InUnitInterval(v.items[i])
    ensures r.Accepted? ==> r.value == v
    ensures !v.ListV? ==>
      r == Rejected(InvalidParameter("arrival_distribution", NotAList(TypeName(v))))
    ensures v == ListV([]) ==>
      r == Rejected(InvalidParameter("arrival_distribution", EmptyList))
    ensures v.ListV? && |v.items| > 0 && r.Rejected? ==>
      (exists k :: 0 <= k < |v.items| && !InUnitInterval(v.items[k]) &&
        (forall j :: 0 <= j < k ==> InUnitInterval(v.items[j])) &&
        r.error == ElementError(k, v.items[k]))
  {
    if !v.ListV? then
      Rejected(InvalidParameter("arrival_distribution", NotAList(TypeName(v))))
    else if |v.items| == 0 then
      Rejected(InvalidParameter("arrival_distribution", EmptyList))
    else
      match FirstInvalidProbability(v.items, 0)
      case Some(k) => Rejected(ElementError(k, v.items[k]))
      case None => Accepted(v)
  }

  /** `validate_scheduling_policy_string(policy_str)`: a non-string is rejected; a string is
      converted by `from_string`, whose ValueError becomes an invalid `scheduling_policy`. */
  function ValidateSchedulingPolicyString(v: Value): (r: Checked<Enums.SchedulingPolicyType>)
    ensures r.Accepted? <==> v.StrV? && Enums.Normalize(v.s) in Enums.LegacyMappings
    ensures r.Accepted? ==> r.value == Enums.LegacyMappings[Enums.Normalize(v.s)]
    ensures r.Rejected? ==> r.error.InvalidParameter? && r.error.parameter == "scheduling_policy"
    ensures v.StrV? && r.Rejected? ==> r.error.reason == UnknownPolicy(v.s)
  {
    if !v.StrV? then
      Rejected(InvalidParameter("scheduling_policy", NotAString(TypeName(v))))
    else
      match Enums.FromString(v.s)
      case Ok(p) => Accepted(p)
      case Err(_) => Rejected(InvalidParameter("scheduling_policy", UnknownPolicy(v.s)))
  }

  /** Every policy's own value passes the policy-name validation and names that policy. */
  lemma ValidatePolicyValue(p: Enums.SchedulingPolicyType)
    ensures ValidateSchedulingPolicyString(StrV(Enums.Value(p))) == Accepted(p)
  {
    Enums.FromStringValue(p);
  }

  /** `validate_sample_method_string(method_str)`: a non-string is rejected; a string is
      converted by `SampleMethod.from_string`, whose ValueError becomes an invalid
      `sample_method`. */
  function ValidateSampleMethodString(v: Value): (r: Checked<Enums.SampleMethod>)
    ensures r.Accepted? <==>
      v.StrV? && Lower(Strip(v.s)) in {"independent_normal_dist", "gmm"}
    ensures r.Accepted? ==> Enums.SampleValue(r.value) == Lower(Strip(v.s))
    ensures r.Rejected? ==> r.error.InvalidParameter? && r.error.parameter == "sample_method"
    ensures v.StrV? && r.Rejected? ==> r.error.reason == UnknownSampleMethod(v.s)
  {
    if !v.StrV? then
      Rejected(InvalidParameter("sample_method", NotAString(TypeName(v))))
    else
      match Enums.SampleFromString(v.s)
      case Ok(m) => Accepted(m)
      case Err(_) => Rejected(InvalidParameter("sample_method", UnknownSampleMethod(v.s)))
  }

  /** Every sample method's own value passes validation and names that method. */
  lemma ValidateSampleMethodValue(m: Enums.SampleMethod)
    ensures ValidateSampleMethodString(StrV(Enums.SampleValue(m))) == Accepted(m)
  {
    Enums.SampleFromStringValue(m);
  }

  /** A validation warning: the vehicle probabilities summing to `total` instead of 1. */
  datatype Warning = ProbabilitySum(total: real)

  /** The first line of a non-empty error summary. */
  function SummaryHeader(count: nat): string {
    "Validation errors (" + NatToString(count) + "):\n"
  }

  /** The error messages, each prefixed by "- ", joined by line breaks. */
  function SummaryLines(errors: seq<ValidationError>): string {
    if errors == [] then ""
    else if |errors| == 1 then "- " + Message(errors[0])
    else "- " + Message(errors[0]) + "\n" + SummaryLines(errors[1..])
  }

  const NoErrors: string := "No validation errors"

  /** The error accumulator of a validation run. */
  class ValidationResult {
    var isValid: bool
    var errors: seq<ValidationError>
    var warnings: seq<Warning>

    /** The result is valid exactly while no error has been recorded. */
    ghost predicate Valid()
      reads this
    {
      isValid <==> errors == []
    }

    /** A new result is valid and holds no errors and no warnings. */
    constructor()
      ensures Valid() && isValid && errors == [] && warnings == []
    {
      isValid := true;
      errors := [];
      warnings := [];
    }

    /** `add_error(error)`: appends the error and makes the result invalid for good, since no
        operation sets it valid again. */
    method AddError(e: ValidationError)
      modifies this
      ensures errors == old(errors) + [e] && warnings == old(warnings)
      ensures !isValid && Valid()
    {
      errors := errors + [e];
      isValid := false;
    }

    /** `add_warning(warning)`: appends the warning and leaves validity and errors alone. */
    method AddWarning(w: Warning)
      modifies this
      ensures warnings == old(warnings) + [w]
      ensures errors == old(errors) && isValid == old(isValid)
      ensures old(Valid()) ==> Valid()
    {
      warnings := warnings + [w];
    }

    /** `get_error_summary()`: "No validation errors" exactly when there are none; otherwise
        a header carrying the number of errors, followed by one "- message" line per error. */
    function ErrorSummary(): (r: string)
      reads this
      ensures r == NoErrors <==> errors == []
      ensures errors != [] ==> r == SummaryHeader(|errors|) + SummaryLines(errors)
      ensures |errors| == 1 ==> r == SummaryHeader(1) + "- " + Message(errors[0])
    {
      if errors == [] then NoErrors
      else
        var r := SummaryHeader(|errors|) + SummaryLines(errors);
        assert r[0] == 'V';
        r
    }
  }

  /** The sum of the vehicle probabilities, `sum(vt.probability for vt in vehicle_types)`. */
  function ProbabilitySumOf(vehicles: seq<ElectricVehicle>): real {
    if vehicles == [] then 0.0
    else ProbabilitySumOf(vehicles[..|vehicles| - 1]) + vehicles[|vehicles| - 1].probability
  }

  /** `abs(total - 1.0) > 1e-6`. */
  predicate AwayFromOne(total: real) {
    total - 1.0 > 0.000001 || 1.0 - total > 0.000001
  }

  /** The three "missing" errors the whole-configuration check records, in order. */
  const MissingArrival: ValidationError := MissingParameter("arrival_distribution is required")
  const MissingVehicles: ValidationError := MissingParameter("At least one vehicle type is required")
  const MissingInfrastructure: ValidationError :=
    MissingParameter("infrastructure configuration is required")

  /** The errors and warnings `validate_scenario_config` records for a configuration with the
      given fields: missing required fields are recorded and the checks go on; the first
      validator that raises is recorded and ends the checks; the probability warning comes
      last. */
  function Findings(arrival: Option<Value>, vehicles: seq<ElectricVehicle>,
                    infrastructure: Option<Value>, meanSoc: Option<real>,
                    stdSoc: Option<real>): (seq<ValidationError>, seq<Warning>)
  {
    if arrival.Some? && ValidateArrivalDistribution(arrival.value).Rejected? then
      ([ValidateArrivalDistribution(arrival.value).error], [])
    else
      LaterFindings(MissingFields(arrival, vehicles, infrastructure), vehicles, meanSoc, stdSoc)
  }

  /** The "missing" errors for the required fields, in the order they are checked. */
  function MissingFields(arrival: Option<Value>, vehicles: seq<ElectricVehicle>,
                         infrastructure: Option<Value>): seq<ValidationError>
  {
    (if arrival.None? then [MissingArrival] else [])
    + (if vehicles == [] then [MissingVehicles] else [])
    + (if infrastructure.None? then [MissingInfrastructure] else [])
  }

  /** The checks after the required fields, starting from the errors recorded so far. */
  function LaterFindings(recorded: seq<ValidationError>, vehicles: seq<ElectricVehicle>,
                         meanSoc: Option<real>, stdSoc: Option<real>)
    : (seq<ValidationError>, seq<Warning>)
  {
    if meanSoc.Some? && ValidateSoc(FloatV(meanSoc.value), "mean_soc").Rejected? then
      (recorded + [ValidateSoc(FloatV(meanSoc.value), "mean_soc").error], [])
    else if stdSoc.Some? && ValidateSoc(FloatV(stdSoc.value), "std_deviation_soc").Rejected? then
      (recorded + [ValidateSoc(FloatV(stdSoc.value), "std_deviation_soc").error], [])
    else if vehicles != [] && AwayFromOne(ProbabilitySumOf(vehicles)) then
      (recorded, [ProbabilitySum(ProbabilitySumOf(vehicles))])
    else
      (recorded, [])
  }

  /** `validate_scenario_config(config)`: fills a new result step by step. */
  method ValidateScenarioConfig(c: ScenarioConfig) returns (result: ValidationResult)
    ensures fresh(result) && result.Valid()
    ensures (result.errors, result.warnings) ==
      Findings(c.arrivalDistribution, c.vehicleTypes, c.infrastructure, c.meanSoc,
               c.stdDeviationSoc)
  {
    result := new ValidationResult();
    if c.arrivalDistribution.None? {
      result.AddError(MissingArrival);
    } else {
      var checked := ValidateArrivalDistribution(c.arrivalDistribution.value);
      if checked.Rejected? {
        result.AddError(checked.error);
        assert result.errors == [checked.error] && result.warnings == [];
        return;
      }
    }
    if c.vehicleTypes == [] {
      result.AddError(MissingVehicles);
    }
    if c.infrastructure.None? {
      result.AddError(MissingInfrastructure);
    }
    assert result.errors == MissingFields(c.arrivalDistribution, c.vehicleTypes, c.infrastructure);
    RecordLaterChecks(result, c.vehicleTypes, c.meanSoc, c.stdDeviationSoc);
  }

  /** The optional state-of-charge checks and the probability-sum warning. */
  method RecordLaterChecks(result: ValidationResult, vehicles: seq<ElectricVehicle>,
                           meanSoc: Option<real>, stdSoc: Option<real>)
    requires result.Valid() && result.warnings == []
    modifies result
    ensures result.Valid()
    ensures (result.errors, result.warnings) ==
      LaterFindings(old(result.errors), vehicles, meanSoc, stdSoc)
  {
    if meanSoc.Some? {
      var checked := ValidateSoc(FloatV(meanSoc.value), "mean_soc");
      if checked.Rejected? {
        result.AddError(checked.error);
        return;
      }
    }
    if stdSoc.Some? {
      var checked := ValidateSoc(FloatV(stdSoc.value), "std_deviation_soc");
      if checked.Rejected? {
        result.AddError(checked.error);
        return;
      }
    }
    if vehicles != [] {
      var total := ProbabilitySumOf(vehicles);
      if AwayFromOne(total) {
        result.AddWarning(ProbabilitySum(total));
      }
    }
    assert result.errors == old(result.errors);
    assert meanSoc.Some? ==> ValidateSoc(FloatV(meanSoc.value), "mean_soc").Accepted?;
    assert LaterFindings(old(result.errors), vehicles, meanSoc, stdSoc).0 == result.errors;
    assert LaterFindings(old(result.errors), vehicles, meanSoc, stdSoc).1 == result.warnings;
  }

  /** An invalid arrival distribution is the only error recorded: the checks after it never
      run, so no missing field, no state-of-charge error and no warning is added. */
  lemma InvalidArrivalStopsChecks(arrival: Value, vehicles: seq<ElectricVehicle>,
                                  infrastructure: Option<Value>, meanSoc: Option<real>,
                                  stdSoc: Option<real>)
    requires ValidateArrivalDistribution(arrival).Rejected?
    ensures Findings(Some(arrival), vehicles, infrastructure, meanSoc, stdSoc)
      == ([ValidateArrivalDistribution(arrival).error], [])
  {
  }

  /** A raised error is always the last one recorded and comes with no warning; at most one
      raised error is recorded. */
  lemma RaisedErrorIsLast(arrival: Option<Value>, vehicles: seq<ElectricVehicle>,
                          infrastructure: Option<Value>, meanSoc: Option<real>,
                          stdSoc: Option<real>)
    ensures var (errs, warns) := Findings(arrival, vehicles, infrastructure, meanSoc, stdSoc);
      (forall i :: 0 <= i < |errs| - 1 ==> errs[i].MissingParameter?) &&
      (errs != [] && errs[|errs| - 1].InvalidParameter? ==> warns == [])
  {
  }

  /** The result is valid exactly when every required field is present and every validator
      accepts. */
  lemma FindingsValidIff(arrival: Option<Value>, vehicles: seq<ElectricVehicle>,
                         infrastructure: Option<Value>, meanSoc: Option<real>,
                         stdSoc: Option<real>)
    ensures Findings(arrival, vehicles, infrastructure, meanSoc, stdSoc).0 == [] <==>
      && arrival.Some? && ValidateArrivalDistribution(arrival.value).Accepted?
      && vehicles != []
      && infrastructure.Some?
      && (meanSoc.Some? ==> 0.0 <= meanSoc.value <= 1.0)
      && (stdSoc.Some? ==> 0.0 <= stdSoc.value <= 1.0)
  {
  }

  /** The probability sum only ever produces a warning, and it does so exactly when no
      validator raised, there are vehicle types, and their probabilities sum away from 1. */
  lemma ProbabilityWarningIff(arrival: Option<Value>, vehicles: seq<ElectricVehicle>,
                              infrastructure: Option<Value>, meanSoc: Option<real>,
                              stdSoc: Option<real>)
    ensures var (errs, warns) := Findings(arrival, vehicles, infrastructure, meanSoc, stdSoc);
      (warns != [] <==>
        && (arrival.Some? ==> ValidateArrivalDistribution(arrival.value).Accepted?)
        && (meanSoc.Some? ==> 0.0 <= meanSoc.value <= 1.0)
        && (stdSoc.Some? ==> 0.0 <= stdSoc.value <= 1.0)
        && vehicles != [] && AwayFromOne(ProbabilitySumOf(vehicles)))
      && (warns != [] ==> warns == [ProbabilitySum(ProbabilitySumOf(vehicles))])
  {
  }
}

=== FILE: values.dfy ===
/** Dynamically typed Python values, for the code that checks `isinstance` at run time. */
module Values {

  datatype Value =
    | IntV(i: int)
    | FloatV(f: real)
    | BoolV(b: bool)
    | StrV(s: string)
    | NoneV
    | ListV(items: seq<Value>)
    | TupleV(elems: seq<Value>)
    | DictV(entries: map<Value, Value>)
    | ObjectV(className: string)   // any other object

  /** `isinstance(v, (int, float))`; booleans are kept apart from integers in this model. */
  predicate IsNumber(v: Value) {
    v.IntV? || v.FloatV?
  }

  /** `float(v)` for a number. */
  function AsReal(v: Value): (r: real)
    requires IsNumber(v)
    ensures v.IntV? ==> r == v.i as real
    ensures v.FloatV? ==> r == v.f
  {
    if v.IntV? then v.i as real else v.f
  }
}

=== FILE: vehicles.dfy ===
/** Vehicle type configuration (elvis/config/vehicles.py): `add_vehicle_types`, which appends a
    vehicle type given as an instance, as a list of instances, or as keyword arguments with a
    battery object or a battery dictionary, and `with_vehicle_types`, which feeds it a list of
    instances and dictionaries. Both work entry by entry: an entry that fails leaves the
    vehicle types appended before it in place. */
module VehicleConfig {
  import opened Outcomes
  import opened Values
  import opened ScenarioConfigs
  import Batteries

  /** A value that is neither a list nor a dictionary; lists and dictionaries of arguments are
      written with `List` and `Dict`. */
  type PlainValue = v: Value | !v.ListV? && !v.DictV? witness NoneV

  /** An argument of the vehicle setters: a plain value (`Plain(NoneV)` is None), a vehicle
      type instance, an EVBattery instance, a dictionary with string keys, or a list. */
  datatype Arg =
    | Plain(v: PlainValue)
    | Vehicle(ev: ElectricVehicle)
    | BatteryObject(battery: Batteries.Battery)
    | Dict(entries: map<string, Arg>)
    | List(items: seq<Arg>)

  const NoneArg: Arg := Plain(NoneV)

  /** The conversions the setters call into: `float(s)` for a string (None when Python raises
      ValueError) and `str(x)` for anything that is not already a string. */
  datatype Conversions = Conversions(
    parseFloat: string -> Option<real>,
    text: Arg -> string)

  /** `float(x)`: numbers and booleans convert, a string converts when it parses (otherwise
      ValueError), anything else is a TypeError. */
  function FloatOf(a: Arg, conv: Conversions): (r: Result<real>)
    ensures a.Plain? && IsNumber(a.v) ==> r == Ok(AsReal(a.v))
    ensures a.Plain? && a.v.BoolV? ==> r == Ok(if a.v.b then 1.0 else 0.0)
    ensures r == Err(ValueError) <==>
      a.Plain? && a.v.StrV? && conv.parseFloat(a.v.s).None?
    ensures r.Err? ==> r.error == ValueError || r.error == TypeError
    ensures !a.Plain? ==> r == Err(TypeError)
  {
    match a
    case Plain(v) =>
      (match v
       case IntV(i) => Ok(i as real)
       case FloatV(f) => Ok(f)
       case BoolV(b) => Ok(if b then 1.0 else 0.0)
       case StrV(s) => (match conv.parseFloat(s) case Some(x) => Ok(x) case None => Err(ValueError))
       case _ => Err(TypeError))
    case _ => Err(TypeError)
  }

  /** `str(x)`: a string is itself. */
  function StrOf(a: Arg, conv: Conversions): (r: string)
    ensures a.Plain? && a.v.StrV? ==> r == a.v.s
  {
    if a.Plain? && a.v.StrV? then a.v.s else conv.text(a)
  }

  /** The four keys a battery dictionary must have. */
  predicate HasBatteryKeys(d: map<string, Arg>) {
    "capacity" in d && "max_charge_power" in d && "min_charge_power" in d && "efficiency" in d
  }

  /** Whether both degradation keys are given; only then are they read. */
  predicate HasDegradation(d: map<string, Arg>) {
    "start_power_degradation" in d && "max_degradation_level" in d
  }

  /** The range assertions on the four converted battery parameters. */
  predicate BatteryRangesOk(capacity: real, maxP: real, minP: real, efficiency: real) {
    capacity > 0.0 && maxP > 0.0 && minP >= 0.0 && minP <= maxP && 0.0 < efficiency <= 1.0
  }

  /** The battery `add_vehicle_types` builds from a battery dictionary: a missing key is an
      AssertionError; the four values are converted in order (a conversion error is raised as
      it is); the range assertions follow; the degradation parameters are converted and
      checked only when both are present, and otherwise the defaults of `EVBattery` apply. */
  function BatteryFromConfig(d: map<string, Arg>, conv: Conversions): (r: Result<Batteries.Battery>)
    ensures !HasBatteryKeys(d) ==> r == Err(AssertionError)
    ensures r.Ok? ==>
      && HasBatteryKeys(d)
      && FloatOf(d["capacity"], conv) == Ok(r.value.capacity)
      && FloatOf(d["max_charge_power"], conv) == Ok(r.value.maxChargePower)
      && FloatOf(d["min_charge_power"], conv) == Ok(r.value.minChargePower)
      && FloatOf(d["efficiency"], conv) == Ok(r.value.efficiency)
      && BatteryRangesOk(r.value.capacity, r.value.maxChargePower, r.value.minChargePower,
                         r.value.efficiency)
      && Batteries.ValidBattery(r.value)
    ensures r.Ok? && HasDegradation(d) ==>
      && FloatOf(d["start_power_degradation"], conv) == Ok(r.value.startPowerDegradation)
      && FloatOf(d["max_degradation_level"], conv) == Ok(r.value.maxDegradationLevel)
    ensures r.Ok? && !HasDegradation(d) ==>
      r.value.startPowerDegradation == 1.0 && r.value.maxDegradationLevel == 0.0
  {
    if !HasBatteryKeys(d) then Err(AssertionError)
    else
      var capacity :- FloatOf(d["capacity"], conv);
      var maxP :- FloatOf(d["max_charge_power"], conv);
      var minP :- FloatOf(d["min_charge_power"], conv);
      var efficiency :- FloatOf(d["efficiency"], conv);
      if !BatteryRangesOk(capacity, maxP, minP, efficiency) then Err(AssertionError)
      else if HasDegradation(d) then
        var start :- FloatOf(d["start_power_degradation"], conv);
        var level :- FloatOf(d["max_degradation_level"], conv);
        if !(0.0 <= start <= 1.0 && 0.0 <= level <= 1.0) then Err(AssertionError)
        else Batteries.NewEVBattery(capacity, maxP, minP, efficiency, start, level)
      else
        Batteries.NewEVBattery(capacity, maxP, minP, efficiency, 1.0, 0.0)
  }

  /** Without both degradation keys the defaults (start 1, level 0) make the battery
      constructor demand `0 * max >= min`: only a minimum charge power of exactly 0 gets
      through, and any positive minimum is an AssertionError. */
  lemma DefaultDegradationNeedsZeroMin(d: map<string, Arg>, conv: Conversions)
    requires !HasDegradation(d)
    ensures BatteryFromConfig(d, conv).Ok? ==> BatteryFromConfig(d, conv).value.minChargePower == 0.0
    ensures HasBatteryKeys(d) && FloatOf(d["capacity"], conv).Ok? &&
            FloatOf(d["max_charge_power"], conv).Ok? && FloatOf(d["efficiency"], conv).Ok? &&
            FloatOf(d["min_charge_power"], conv).Ok? &&
            FloatOf(d["min_charge_power"], conv).value > 0.0 ==>
      BatteryFromConfig(d, conv) == Err(AssertionError)
  {
    var r := BatteryFromConfig(d, conv);
    if r.Ok? {
      var b := r.value;
      Batteries.EVDefaultsForceZeroMin(b.capacity, b.maxChargePower, b.minChargePower, b.efficiency);
    }
  }

  /** A degradation key given without the other one is silently ignored: the result is the
      same as without it. */
  lemma LoneDegradationKeyIgnored(d: map<string, Arg>, conv: Conversions, key: string)
    requires key == "start_power_degradation" || key == "max_degradation_level"
    requires key in d && !HasDegradation(d)
    ensures BatteryFromConfig(d, conv) == BatteryFromConfig(d - {key}, conv)
  {
    var e := d - {key};
    assert HasBatteryKeys(d) <==> HasBatteryKeys(e);
    assert !HasDegradation(e);
    if HasBatteryKeys(d) {
      assert d["capacity"] == e["capacity"] && d["max_charge_power"] == e["max_charge_power"];
      assert d["min_charge_power"] == e["min_charge_power"] && d["efficiency"] == e["efficiency"];
    }
  }

  /** The vehicle type `add_vehicle_types` builds from keyword arguments: brand, model,
      probability and battery must be given (AssertionError otherwise); the probability must
      be a number in [0, 1]; an EVBattery instance is used as it is, a dictionary is turned into
      a battery, and anything else is an AssertionError. */
  function VehicleFromKwargs(kw: map<string, Arg>, conv: Conversions): (r: Result<ElectricVehicle>)
    ensures !("brand" in kw && "model" in kw && "probability" in kw && "battery" in kw) ==>
      r == Err(AssertionError)
    ensures r.Ok? ==>
      && "probability" in kw && kw["probability"].Plain? && IsNumber(kw["probability"].v)
      && r.value.probability == AsReal(kw["probability"].v)
      && 0.0 <= r.value.probability <= 1.0
      && r.value.brand == StrOf(kw["brand"], conv) && r.value.model == StrOf(kw["model"], conv)
    ensures r.Ok? && kw["battery"].BatteryObject? ==> r.value.battery == kw["battery"].battery
    ensures r.Ok? && !kw["battery"].BatteryObject? ==>
      kw["battery"].Dict? && BatteryFromConfig(kw["battery"].entries, conv) == Ok(r.value.battery)
  {
    if !("brand" in kw && "model" in kw && "probability" in kw && "battery" in kw) then
      Err(AssertionError)
    else
      var brand := StrOf(kw["brand"], conv);
      var model := StrOf(kw["model"], conv);
      var probability := kw["probability"];
      if !(probability.Plain? && IsNumber(probability.v)) then Err(AssertionError)
      else if !(0.0 <= AsReal(probability.v) <= 1.0) then Err(AssertionError)
      else
        match kw["battery"]
        case BatteryObject(b) => Ok(ElectricVehicle(brand, model, b, AsReal(probability.v)))
        case Dict(d) =>
          (match BatteryFromConfig(d, conv)
           case Ok(b) => Ok(ElectricVehicle(brand, model, b, AsReal(probability.v)))
           case Err(e) => Err(e))
        case _ => Err(AssertionError)
  }

  /** The index of the first entry that is not a vehicle type instance (the length when there
      is none). */
  function FirstNonVehicle(items: seq<Arg>): (k: nat)
    ensures k <= |items|
    ensures forall j :: 0 <= j < k ==> items[j].Vehicle?
    ensures k < |items| ==> !items[k].Vehicle?
  {
    if items == [] || !items[0].Vehicle? then 0 else 1 + FirstNonVehicle(items[1..])
  }

  /** The vehicle types of a list of instances, in order. */
  function VehiclesOf(items: seq<Arg>): (evs: seq<ElectricVehicle>)
    requires forall j :: 0 <= j < |items| ==> items[j].Vehicle?
    ensures |evs| == |items|
    ensures forall j :: 0 <= j < |items| ==> evs[j] == items[j].ev
  {
    if items == [] then [] else VehiclesOf(items[..|items| - 1]) + [items[|items| - 1].ev]
  }

  /** What `add_vehicle_types(vehicle_type, **kwargs)` appends, and whether it raises. A list
      appends its instances up to the first entry that is not one, which is an AssertionError;
      an instance is appended (anything else that is not None is an AssertionError); None
      builds one vehicle type from the keyword arguments. */
  function AddedBy(vt: Arg, kw: map<string, Arg>, conv: Conversions)
    : (res: (seq<ElectricVehicle>, Result<()>))
    ensures res.1.Ok? && !vt.List? ==> |res.0| == 1
    ensures res.1.Err? && !vt.List? ==> res.0 == []
    ensures vt.List? ==>
      var k := FirstNonVehicle(vt.items);
      res.0 == VehiclesOf(vt.items[..k]) && (res.1.Ok? <==> k == |vt.items|)
    ensures res.1.Err? && vt.List? ==> res.1.error == AssertionError
    ensures vt.Vehicle? ==> res == ([vt.ev], Ok(()))
    ensures vt == NoneArg ==>
      res == (match VehicleFromKwargs(kw, conv)
              case Ok(ev) => ([ev], Ok(()))
              case Err(e) => ([], Err(e)))
  {
    if vt.List? then
      var k := FirstNonVehicle(vt.items);
      (VehiclesOf(vt.items[..k]), if k == |vt.items| then Ok(()) else Err(AssertionError))
    else if vt != NoneArg then
      if vt.Vehicle? then ([vt.ev], Ok(())) else ([], Err(AssertionError))
    else
      match VehicleFromKwargs(kw, conv)
      case Ok(ev) => ([ev], Ok(()))
      case Err(e) => ([], Err(e))
  }

  /** `add_vehicle_types(vehicle_type, **kwargs)`: appends what `AddedBy` says and changes
      nothing else, even when it raises. */
  method AddVehicleTypes(c: ScenarioConfig, vt: Arg, kw: map<string, Arg>, conv: Conversions)
    returns (r: Result<()>)
    modifies c
    ensures r == AddedBy(vt, kw, conv).1
    ensures c.State() == old(c.State()).(vehicleTypes := old(c.vehicleTypes) + AddedBy(vt, kw, conv).0)
  {
    if vt.List? {
      r := AppendInstances(c, vt.items);
      return;
    } else if vt != NoneArg {
      if !vt.Vehicle? {
        return Err(AssertionError);
      }
      c.vehicleTypes := c.vehicleTypes + [vt.ev];
      return Ok(());
    }
    var built := VehicleFromKwargs(kw, conv);
    if built.Err? {
      return Err(built.error);
    }
    c.vehicleTypes := c.vehicleTypes + [built.value];
    return Ok(());
  }

  /** The list path of `add_vehicle_types`: appends the instances one by one and raises at the
      first entry that is not one. */
  method AppendInstances(c: ScenarioConfig, items: seq<Arg>) returns (r: Result<()>)
    modifies c
    ensures var k := FirstNonVehicle(items);
      && r == (if k == |items| then Ok(()) else Err(AssertionError))
      && c.State() == old(c.State()).(vehicleTypes := old(c.vehicleTypes) + VehiclesOf(items[..k]))
  {
    ghost var s0 := c.State();
    var i := 0;
    while i < |items|
      invariant i <= FirstNonVehicle(items)
      invariant c.State() == s0.(vehicleTypes := s0.vehicleTypes + VehiclesOf(items[..i]))
    {
      if !items[i].Vehicle? {
        return Err(AssertionError);
      }
      assert items[..i + 1] == items[..i] + [items[i]];
      c.vehicleTypes := c.vehicleTypes + [items[i].ev];
      i := i + 1;
    }
    assert items[..i] == items;
    return Ok(());
  }

  /** The arguments `add_vehicle_types(**entry)` receives for a dictionary entry: its
      "vehicle_type" key (None when absent) and the remaining keys. */
  function VehicleTypeOf(d: map<string, Arg>): Arg {
    if "vehicle_type" in d then d["vehicle_type"] else NoneArg
  }

  /** What one entry of the `with_vehicle_types` list appends, and whether it raises: an
      instance is added as `vehicle_type`, a dictionary is unpacked into the arguments, and
      any other entry is a TypeError. */
  function EntryAdded(entry: Arg, conv: Conversions): (res: (seq<ElectricVehicle>, Result<()>))
    ensures !entry.Vehicle? && !entry.Dict? ==> res == ([], Err(TypeError))
    ensures entry.Vehicle? ==> res == ([entry.ev], Ok(()))
  {
    match entry
    case Vehicle(ev) => AddedBy(entry, map[], conv)
    case Dict(d) => AddedBy(VehicleTypeOf(d), d - {"vehicle_type"}, conv)
    case _ => ([], Err(TypeError))
  }

  /** What a list of entries appends, entry by entry, and the first error raised; the entries
      after an error are not looked at. */
  function EntriesAdded(entries: seq<Arg>, conv: Conversions)
    : (res: (seq<ElectricVehicle>, Result<()>))
  {
    if entries == [] then ([], Ok(()))
    else
      var (before, outcome) := EntriesAdded(entries[..|entries| - 1], conv);
      if outcome.Err? then (before, outcome)
      else
        var (more, last) := EntryAdded(entries[|entries| - 1], conv);
        (before + more, last)
  }

  /** Once an entry raised, later entries change neither what was appended nor the error. */
  lemma {:induction false} ErrorSticks(entries: seq<Arg>, later: seq<Arg>, conv: Conversions)
    requires EntriesAdded(entries, conv).1.Err?
    ensures EntriesAdded(entries + later, conv) == EntriesAdded(entries, conv)
    decreases |later|
  {
    if later == [] {
      assert entries + later == entries;
    } else {
      var init := later[..|later| - 1];
      var all := entries + later;
      assert all[..|all| - 1] == entries + init;
      ErrorSticks(entries, init, conv);
      assert EntriesAdded(all[..|all| - 1], conv) == EntriesAdded(entries, conv);
    }
  }

  /** Entries that are all vehicle type instances are all appended, in order. */
  lemma {:induction false} AllInstancesAdded(entries: seq<Arg>, conv: Conversions)
    requires forall j :: 0 <= j < |entries| ==> entries[j].Vehicle?
    ensures EntriesAdded(entries, conv) == (VehiclesOf(entries), Ok(()))
  {
    if entries != [] {
      AllInstancesAdded(entries[..|entries| - 1], conv);
    }
  }

  /** The list is not added atomically: an instance followed by an entry of the wrong type
      stays appended while the call raises TypeError. */
  lemma PartialAddOnError(ev: ElectricVehicle, conv: Conversions)
    ensures EntriesAdded([Vehicle(ev), Plain(IntV(1))], conv) == ([ev], Err(TypeError))
  {
    var entries := [Vehicle(ev), Plain(IntV(1))];
    assert entries[..1] == [Vehicle(ev)];
    assert [Vehicle(ev)][..0] == [];
    assert EntriesAdded([Vehicle(ev)], conv) == ([] + [ev], Ok(()));
    assert EntryAdded(Plain(IntV(1)), conv) == ([], Err(TypeError));
    assert [] + [ev] + [] == [ev];
  }

  /** `with_vehicle_types(vehicle_types, **kwargs)`: a list (even an empty one) is processed
      entry by entry and the keyword arguments are ignored; without a list the keyword
      arguments are passed on to `add_vehicle_types`, where a `vehicle_type` keyword binds
      that parameter and the rest describe the vehicle type. */
  method WithVehicleTypes(c: ScenarioConfig, vehicleTypes: Option<seq<Arg>>,
                          kw: map<string, Arg>, conv: Conversions)
    returns (r: Result<()>)
    modifies c
    ensures vehicleTypes.Some? ==>
      && r == EntriesAdded(vehicleTypes.value, conv).1
      && c.State() == old(c.State()).(vehicleTypes :=
           old(c.vehicleTypes) + EntriesAdded(vehicleTypes.value, conv).0)
    ensures vehicleTypes.None? ==>
      var added := AddedBy(VehicleTypeOf(kw), kw - {"vehicle_type"}, conv);
      && r == added.1
      && c.State() == old(c.State()).(vehicleTypes := old(c.vehicleTypes) + added.0)
  {
    if vehicleTypes.None? {
      r := AddVehicleTypes(c, VehicleTypeOf(kw), kw - {"vehicle_type"}, conv);
    } else {
      r := AddEntries(c, vehicleTypes.value, conv);
    }
  }

  /** The list path of `with_vehicle_types`: the entries one by one, up to the first that
      raises. */
  method AddEntries(c: ScenarioConfig, entries: seq<Arg>, conv: Conversions)
    returns (r: Result<()>)
    modifies c
    ensures r == EntriesAdded(entries, conv).1
    ensures c.State() == old(c.State()).(vehicleTypes := old(c.vehicleTypes) + EntriesAdded(entries, conv).0)
  {
    ghost var s0 := c.State();
    var i := 0;
    while i < |entries|
      invariant i <= |entries|
      invariant EntriesAdded(entries[..i], conv).1.Ok?
      invariant c.State() == s0.(vehicleTypes := s0.vehicleTypes + EntriesAdded(entries[..i], conv).0)
    {
      r := AddEntry(c, entries[i], conv);
      EntriesAddedStep(entries, i, conv, s0.vehicleTypes);
      if r.Err? {
        StopsAtError(entries, i + 1, conv);
        return;
      }
      i := i + 1;
    }
    assert entries[..i] == entries;
    return Ok(());
  }

  /** One entry of the `with_vehicle_types` list. */
  method AddEntry(c: ScenarioConfig, entry: Arg, conv: Conversions) returns (r: Result<()>)
    modifies c
    ensures r == EntryAdded(entry, conv).1
    ensures c.State() == old(c.State()).(vehicleTypes := old(c.vehicleTypes) + EntryAdded(entry, conv).0)
  {
    if entry.Vehicle? {
      r := AddVehicleTypes(c, entry, map[], conv);
    } else if entry.Dict? {
      r := AddVehicleTypes(c, VehicleTypeOf(entry.entries), entry.entries - {"vehicle_type"}, conv);
    } else {
      r := Err(TypeError);
    }
  }

  /** When the entries up to `k` raise, the whole list adds what they add. */
  lemma StopsAtError(entries: seq<Arg>, k: nat, conv: Conversions)
    requires k <= |entries| && EntriesAdded(entries[..k], conv).1.Err?
    ensures EntriesAdded(entries, conv) == EntriesAdded(entries[..k], conv)
  {
    ErrorSticks(entries[..k], entries[k..], conv);
    assert entries[..k] + entries[k..] == entries;
  }

  /** The entries up to `i + 1` add what the entries up to `i` add, then what entry `i` adds,
      appended to whatever list `before` the entries were added to. */
  lemma EntriesAddedStep(entries: seq<Arg>, i: nat, conv: Conversions, before: seq<ElectricVehicle>)
    requires i < |entries| && EntriesAdded(entries[..i], conv).1.Ok?
    ensures EntriesAdded(entries[..i + 1], conv).1 == EntryAdded(entries[i], conv).1
    ensures before + EntriesAdded(entries[..i + 1], conv).0 ==
      before + EntriesAdded(entries[..i], conv).0 + EntryAdded(entries[i], conv).0
  {
    assert entries[..i + 1][..i] == entries[..i];
  }
}

=== FILE: waiting_queue.dfy ===
/** The bounded waiting queue of charging events (`WaitingQueue`). Its class is a
    collaborator of the simulation: the operations below follow its documented behaviour
    (append while below `maxsize`, FIFO `dequeue`, `empty`, and a stored `next_leave` that
    is never later than the leaving time of a queued event, so that the loop may skip the
    scan for overdue events until that time). `enqueue` brings it forward to the new
    event's leaving time and `determine_next_leaving_time` resets it to the earliest one.
    The stored time is None while nothing has been queued: a time later than every step. */
module WaitingQueues {
  import opened Outcomes
  import opened Events

  /** The earliest leaving time among `q`, or None for an empty queue. */
  function MinLeaving(q: seq<ChargingEvent>): (r: Option<int>)
    ensures r.None? <==> q == []
    ensures r.Some? ==> exists i :: 0 <= i < |q| && q[i].leavingTime == r.value
    ensures r.Some? ==> forall i :: 0 <= i < |q| ==> r.value <= q[i].leavingTime
  {
    if q == [] then None
    else
      match MinLeaving(q[1..])
      case None => Some(q[0].leavingTime)
      case Some(m) =>
        if q[0].leavingTime <= m then Some(q[0].leavingTime)
        else
          assert forall i :: 1 <= i < |q| ==> q[i] == q[1..][i - 1];
          Some(m)
  }

  /** Before the stored next-leave time nothing in the queue is overdue, so skipping the scan
      loses no departure. */
  lemma NothingDueBeforeNextLeave(q: seq<ChargingEvent>, now: int)
    requires MinLeaving(q).Some? && now < MinLeaving(q).value
    ensures forall i :: 0 <= i < |q| ==> now < q[i].leavingTime
  {
  }

  /** `nextLeave` is a time no later than any queued event leaves; only an empty queue may
      have none. */
  predicate LeavesNoEarlier(nextLeave: Option<int>, q: seq<ChargingEvent>) {
    q != [] ==>
      nextLeave.Some? && forall i :: 0 <= i < |q| ==> nextLeave.value <= q[i].leavingTime
  }

  /** The earliest of a stored time and one more leaving time. */
  function Earlier(stored: Option<int>, t: int): (r: int)
    ensures r <= t && (stored.Some? ==> r <= stored.value)
    ensures r == t || (stored.Some? && r == stored.value)
  {
    if stored.Some? && stored.value <= t then stored.value else t
  }

  class WaitingQueue {
    var queue: seq<ChargingEvent>
    const maxsize: int
    var nextLeave: Option<int>

    /** The queue never holds more than `maxsize` events, and `nextLeave` is never later
        than the leaving time of a queued event. */
    predicate Valid()
      reads this
    {
      && (|queue| <= maxsize || queue == [])
      && LeavesNoEarlier(nextLeave, queue)
    }

    constructor(maxsize: int)
      ensures Valid()
      ensures queue == [] && this.maxsize == maxsize && nextLeave == None
    {
      queue := [];
      this.maxsize := maxsize;
      nextLeave := None;
    }

    /** `enqueue(event)`: appends while the queue is below `maxsize`, bringing the stored
        next-leave time forward to the new event's leaving time when that is earlier. */
    method Enqueue(e: ChargingEvent)
      requires Valid()
      modifies this
      ensures Valid()
      ensures queue == if |old(queue)| < maxsize then old(queue) + [e] else old(queue)
      ensures nextLeave ==
        if |old(queue)| < maxsize then Some(Earlier(old(nextLeave), e.leavingTime))
        else old(nextLeave)
    {
      if |queue| < maxsize {
        queue := queue + [e];
        nextLeave := Some(Earlier(nextLeave, e.leavingTime));
      }
    }

    /** `dequeue()`: removes and returns the oldest event. */
    method Dequeue() returns (e: ChargingEvent)
      requires Valid() && |queue| > 0
      modifies this
      ensures Valid()
      ensures e == old(queue)[0] && queue == old(queue)[1..]
      ensures nextLeave == old(nextLeave)
    {
      e := queue[0];
      queue := queue[1..];
    }

    /** `empty()`: drops every queued event. */
    method Empty()
      modifies this
      ensures Valid()
      ensures queue == [] && nextLeave == old(nextLeave)
    {
      queue := [];
    }

    /** `determine_next_leaving_time()`: recomputes `next_leave` from the queued events. */
    method DetermineNextLeavingTime()
      requires Valid()
      modifies this
      ensures Valid()
      ensures queue == old(queue) && nextLeave == MinLeaving(queue)
    {
      nextLeave := MinLeaving(queue);
    }
  }

  /** While the queue is valid, a time before the stored next-leave time finds nothing
      overdue; with no stored time the queue is empty. */
  lemma NothingDueBeforeStored(nextLeave: Option<int>, q: seq<ChargingEvent>, now: int)
    requires LeavesNoEarlier(nextLeave, q)
    requires nextLeave.None? || now < nextLeave.value
    ensures forall i :: 0 <= i < |q| ==> now < q[i].leavingTime
  {
  }
}
